=== FILE: README.md ===
# FANC proofreading priority queue, modelled in Dafny

The system proposes neurons of the FANC connectome (the fruit-fly ventral
nerve cord) to human proofreaders. Each snapshot of the connectome (one
"version", named by its materialization timestamp) is downloaded into a
directory `bc_dump_<ts>`. It holds:

- the node table, with input and output synapse counts per segment;
- the edge table;
- the CAVE landmark tables (somas, the four motor-neuron types, nerve
  bundles), re-materialized to that timestamp;
- the neck-connective table;
- the marker file `version_ready`.

Prioritization rules turn the node table and the landmark tables into
priority tables: segments that look wrong, indexed by segment id. A Slack
server keeps a pool of five such tables. It samples one segment for a user
who types `/get`, after excluding the segments on the skiplist kept under
that user's Slack id and what anybody marked fixed, no-action or expired. It records what users report through
buttons, `/mark` and `/annotate` in a SQLite database.

The model is pure functions over immutable values:

| module | file | models |
|---|---|---|
| `Wrappers` | wrappers.dfy | `Option`, `Result` and the Python exceptions the code raises |
| `Text` | text.dfy | `str(n)`, `int(s)` with its sign and surrounding whitespace, `str.split()`, `str.join`, the `\d` and `\s` classes |
| `Tables` | tables.dfy | node table, landmark tables, priority-table rows, exact ratio thresholds |
| `Rules` | rules.dfy | the rule classes of `ysp_bot/rules.py`: tables and feed lines |
| `Snapshot` | snapshot.dfy | version directories, `get_latest`, `from_path`, `save`, the priority-table cache |
| `YspDataset` | ysp_dataset.dfy | the `build_*` methods of `ysp_bot/dataset.py` |
| `FancpqDataset` | fancpq_dataset.dfy | the `build_*` methods of `fancpq/dataset.py` |
| `SomaPrioritize` | soma.dfy | `fancpq/prioritize/soma.py` |
| `CaveLive` | cave_live.dfy | `get_live_synapse_count` |
| `Dump` | dump.dfy | the first-generation dump store of `fancpq/_old_upstream_api/dump.py`, keyed by directory name, with `int()` parsing of the names and the collisions of names with one key |
| `ExclusionStore` | store.dfy | both database connectors |
| `Commands` | commands.dfy | parsing of `/get`, `/mark`, `/annotate`, and the button-click segment lookup |
| `Schedule` | schedule.dfy | `seconds_till_next_run` and the hourly loop of `scripts/_old_download_dump.py` |
| `Server` | server.dfy | `update_version`, `sample_one_segment` and the Slack handlers of `scripts/server.py` |

The filesystem is a map from directory name to a record of file names,
decoded tables and cached priority tables. Several things become
parameters:

- the remote dump listing (status code, `last_materialized`);
- the downloaded rows;
- the point-to-segment lookup service;
- `is_latest_roots`;
- the random shuffles;
- the Slack channel history;
- the clock.

Segment ids are unbounded naturals. Ratio thresholds such as 0.1 are exact
fractions.

Behaviour of the code worth noting:

- `OrphanedSoma` in `ysp_bot/rules.py` keeps only somas present in the node
  table (an intersection). Only `fancpq`'s `build_orphaned_soma_table` adds
  absent somas with a count of 0. `FancpqDataset.OrphanedSomaExtendsRule`
  states the difference.
- The efferent table for `mn_type == 'all'` is nerve bundle ∩ soma ∩ node
  table, not the union of the per-type tables.
  `Rules.EfferentAllIsNotUnionOfTypes` shows a segment in the `leg` table
  and not in the `all` table.
- The server writes the orphaned-soma reason with one space before the
  count; `OrphanedSoma.entry_to_feed` uses two.
  `Server.ServerFeedAgreesWithRule` states that the kind and the numbers
  agree.
- `/get` samples under the Slack user id (`body['user_id']`), while the
  Skip button writes the skiplist under the Slack handle
  (`body['user']['username']`). A skip therefore never reaches that user's
  later `/get`s (see Findings).
- `ysp_bot/__init__.py` imports `ProofreadingDatabase`, but
  `ysp_bot/database.py` defines `ProofreadingDatabaseConnector`, and it
  imports `.slackbot`, which lives in `ysp/`. The server's database is
  modelled as that connector. Its global exclusion uses the vocabulary with
  `done` (see Findings).
- The first-generation dump store keys its directories by
  `int(name.replace('dump_', ''))`, so `dump_7` and `dump_07` share key 7.
  Only the last of them in listing order is seen, checked and deleted; the
  other one stays on disk (`Dump.CollidingDumpSurvives`). When the valid
  latest dump is spelled `dump_07` and the listing names 7 again, the
  download creates `dump_7` and skips the soma table, leaving a directory
  with only the connectivity marker (`Dump.OtherSpellingOfLatest`). A name
  such as `dump_x` makes both the search and the refresh raise ValueError
  (`Dump.UnparsableDumpRaises`).

## Model

| member | source | states |
|---|---|---|
| Rules.OrphanedSomaTable | ysp_bot/rules.py:63-71 | exactly the soma segments present in the node table whose total synapse count is below the threshold, each with its pre, post and total counts |
| Rules.ValueCounts | ysp_bot/rules.py:86-87 | one entry per distinct id of the landmark column, holding how many landmarks map to it |
| Rules.MultipleSomasTable | ysp_bot/rules.py:85-89 | exactly the segments that more than one soma maps to, with that number |
| Rules.ProblematicEfferentTable | ysp_bot/rules.py:102-123 | an unknown motor-neuron type raises ValueError; `all` selects nerve-bundle segments with a soma, a named type selects its landmark table; either way, exactly the node-table segments with fewer inputs than the threshold, keeping `nr_post` |
| Rules.ProblematicAscendingTable | ysp_bot/rules.py:158-170 | exactly the neck-connective segments with a soma in the node table with fewer inputs than the threshold |
| Rules.UnbalancedInterneuronTable | ysp_bot/rules.py:184-208 | a segment is selected iff it is in the node table, in no nerve bundle or neck connective, has a soma when required, has at least the minimum total, and its input/output ratio (`nr_post / nr_pre`) lies outside the range (infinite ratio above, 0/0 never) |
| Rules.GetTable | ysp_bot/rules.py:62-208 | afferent and descending rules raise NotImplementedError, an unknown motor-neuron type raises, and every other rule returns its table |
| Rules.Mention | ysp_bot/rules.py:73-81 | a reason built around one number mentions exactly that number |
| Rules.OrphanReason | ysp_bot/rules.py:73-81 | the orphaned-soma reason mentions exactly the total synapse count |
| Rules.MultipleSomasReason | ysp_bot/rules.py:91-98 | the multiple-somas reason mentions exactly the soma count |
| Rules.MotorNeuronReason | ysp_bot/rules.py:125-133 | the motor-neuron reason mentions exactly the input count |
| Rules.AscendingReason | ysp_bot/rules.py:172-180 | the ascending-neuron reason mentions exactly the input count |
| Rules.UnbalancedReason | ysp_bot/rules.py:210-219 | the interneuron reason mentions exactly the input count, then the output count |
| Rules.EntryToFeed | ysp_bot/rules.py:73-219 | afferent/descending raise NotImplementedError; otherwise the feed line exists iff the row has the columns read (else KeyError), carries the segment id and the rule's own kind string, and its reason mentions exactly those column values |
| Rules.KindIdentifiesRule | ysp_bot/rules.py:73-219 | two rules with the same kind string are of the same rule class, so a feed line's kind names the rule that wrote it; this documents that the five kind strings the source writes are distinct |
| Rules.SelectedRowsRender | ysp_bot/rules.py:63-219 | every row a rule's table selects renders, and the reason mentions the node-table counts that selected it |
| Rules.OrphanedSomaMonotone | ysp_bot/rules.py:69-70 | raising the threshold never drops an orphaned soma |
| Rules.OrphanedSomaBoundary | ysp_bot/rules.py:69-70 | the comparison is strict: a soma is orphaned at threshold total+1 and not at total |
| Rules.EfferentAllIsNotUnionOfTypes | ysp_bot/rules.py:106-116 | one example, documenting the code's choice: a leg motor neuron with a nerve-bundle landmark but no soma landmark is in the `leg` table and not in the `all` table (the general selection is stated by `Rules.ProblematicEfferentTable`) |
| Rules.SilentOutputIsUnbalanced | ysp_bot/rules.py:201-205 | with no outputs a segment is unbalanced iff it has inputs (infinite ratio flagged, 0/0 not) |
| Rules.AscendingAndInterneuronDisjoint | ysp_bot/rules.py:189-197 | no segment is both an ascending-neuron candidate and an unbalanced interneuron |
| Tables.Keep | ysp_bot/rules.py:107-110 | keeps exactly the landmarks whose id is in the set, so its ids are the intersection |
| Tables.Collect | ysp_bot/rules.py:66-70 | exactly the candidates present in the node table that pass the filter, each with its row |
| Tables.NodeTableFromDump | ysp_bot/dataset.py:50-56 | succeeds iff the dump's segment ids are distinct (else AssertionError); then every dumped segment is a key, with missing counts filled with 0 |
| Text.Split | scripts/server.py:270 | whitespace splitting yields non-empty tokens without whitespace |
| Text.SplitJoin | ysp/slackbot.py:203-216 | splitting tokens joined by single spaces gives the tokens back |
| Snapshot.CaveFiles | ysp_bot/dataset.py:233-238 | one `cave_<name>.parquet` per configured CAVE table, in order |
| Snapshot.LastField | ysp_bot/dataset.py:228 | the suffix after the last underscore (or the whole name), free of underscores |
| Text.Strip | ysp_bot/dataset.py:228 | the result is the slice between a maximal whitespace prefix and a maximal whitespace suffix: it drops exactly the leading and trailing whitespace, leaving none at either end |
| Text.StripOf | ysp_bot/dataset.py:228 | whitespace around a text without whitespace at its ends strips back to that text |
| Text.PyInt | ysp_bot/dataset.py:228 | `int(s)` succeeds iff the stripped text is an optional sign followed by digits, with the signed value; otherwise ValueError |
| Text.PyIntOf | ysp_bot/dataset.py:228 | whitespace, a sign or none, digits, whitespace converts to the signed value of the digits |
| Text.LeadingZero | fancpq/_old_upstream_api/dump.py:88 | a leading zero keeps a digit string a digit string with the same value, so `int('07') == int('7')` |
| Text.NotLiteral | ysp_bot/dataset.py:228 | a text without whitespace at its ends or a leading sign that holds a non-digit is not an integer literal, so `int()` rejects it |
| Snapshot.TimestampFromName | ysp_bot/dataset.py:227-228 | fails with ValueError iff the last field, stripped of whitespace, is not an optional sign followed by digits; otherwise its signed value |
| Snapshot.TimestampSignedOrPadded | ysp_bot/dataset.py:228 | `bc_dump_+17` and `bc_dump_ 17` give 17, `bc_dump_-17` gives -17, and `bc_dump_17x` raises ValueError |
| Snapshot.TimestampRoundTrip | ysp_bot/dataset.py:177 | the timestamp read back from `bc_dump_<ts>` is `ts` |
| Snapshot.SeedCache | ysp_bot/dataset.py:135-138 | the cache holds exactly the `.parquet` files of the cache directory, keyed by stem |
| Snapshot.CacheFiles | ysp_bot/dataset.py:251-252 | one `<key>.parquet` file per cached table |
| Snapshot.Save | ysp_bot/dataset.py:247-252 | FileNotFoundError iff the version directory is gone; otherwise only its cache directory changes, every cached table is written and older files are kept (fancpq/dataset.py:244-249 is the same code) |
| Snapshot.SaveThenSeed | ysp_bot/dataset.py:135-138 | reopening a saved version seeds the cache with the older files overridden by everything saved |
| Snapshot.SeedAfterWrite | ysp_bot/dataset.py:247-252 | seeding after writing a cache gives the earlier seed updated with that cache |
| Snapshot.MaterializePositions | ysp_bot/dataset.py:24-35 | fails with AssertionError unless the lookup answers with one segment per point; then it returns that answer |
| Snapshot.MaterializeAll | ysp_bot/dataset.py:59-79 | succeeds iff every configured table materializes, with one landmark column per table, each as long as its point list |
| Snapshot.FromPath | ysp_bot/dataset.py:211-244 | RuntimeError without the marker; ValueError when the timestamp is neither given nor readable from the name; FileNotFoundError when one of the nine table files is missing (the `read_parquet` of lines 241-242), and success iff all are there; otherwise the directory's tables with the cache seeded from disk (fancpq/dataset.py:208-241 is the same code) |
| Snapshot.Download | ysp_bot/dataset.py:185-194 | the download leaves the directory consistent (marker only with every file) and ready iff it succeeds; a failure leaves the node and edge files, possibly the landmark files, and never the neck file or the marker; the tables are the deduplicated node dump and the materialized landmark columns |
| Snapshot.WrittenPrefixes | ysp_bot/dataset.py:185-194 | the download makes eleven writes to ten files, in order: the node table, the edge table, the node table again after `set_index` and `fillna` (lines 48-54), the six landmark tables, the neck table and finally the marker; the first three writes leave exactly the node and edge files |
| Snapshot.DownloadWritesPrefix | ysp_bot/dataset.py:185-194 | a download adds exactly some prefix of that write order to the directory, the whole of it iff it succeeds |
| Snapshot.GetLatest | ysp_bot/dataset.py:156-207 | a non-200 listing raises RuntimeError and changes nothing; a failure is RuntimeError, AssertionError or, when a marked directory lacks a table file, FileNotFoundError, which cannot happen while every marked directory is complete; success returns the listed timestamp and its directory, which is then ready (fancpq/dataset.py:153-204 is the same code) |
| Snapshot.GetLatestKeys | ysp_bot/dataset.py:177-178 | after a successful listing the store gains exactly the version's directory |
| Snapshot.GetLatestFrame | ysp_bot/dataset.py:181-182 | no other directory changes, and a ready version is reused without writing anything |
| Snapshot.GetLatestConsistent | ysp_bot/dataset.py:185-194 | if every directory with a marker held all its files before, it still does afterwards |
| Snapshot.DownloadVersionConsistent | ysp_bot/dataset.py:185-194 | downloading an unready version keeps every directory consistent |
| Snapshot.ReuseVersion | ysp_bot/dataset.py:181-182 | a ready version is loaded without touching the store; it loads, with the requested timestamp, iff its directory holds every table file, and otherwise raises FileNotFoundError |
| Snapshot.DownloadVersion | ysp_bot/dataset.py:177-207 | only the version's directory is created or changed, it stays consistent, and success means it is ready with the requested timestamp |
| Snapshot.CrashLeavesConsistent | ysp_bot/dataset.py:185-194 | a crash after any prefix of the download's writes leaves no marker without all the required files |
| YspDataset.Run | ysp_bot/dataset.py:255-349 | each `build_*` keeps the snapshot; only the multiple-soma build caches its table; afferent and descending raise NotImplementedError |
| YspDataset.RunAgreesWithRule | ysp_bot/dataset.py:255-349 | every `build_*` method returns exactly what the matching rule class's `get_table` returns |
| YspDataset.OrphanedSomaAgrees | ysp_bot/dataset.py:255-263 | the orphaned-soma build equals the rule's table |
| YspDataset.MultipleSomaAgrees | ysp_bot/dataset.py:266-272 | the multiple-soma build equals the rule's table |
| YspDataset.EfferentAgrees | ysp_bot/dataset.py:275-296 | the efferent build equals the rule's table, error included |
| YspDataset.EfferentAllAgrees | ysp_bot/dataset.py:279-284 | the `all` efferent build equals the rule's table |
| YspDataset.EfferentTypeAgrees | ysp_bot/dataset.py:285-289 | the named-type efferent build equals the rule's table |
| YspDataset.AscendingAgrees | ysp_bot/dataset.py:309-321 | the ascending build equals the rule's table |
| YspDataset.UnbalancedAgrees | ysp_bot/dataset.py:324-349 | the interneuron build equals the rule's table |
| FancpqDataset.BuildOrphanedSoma | fancpq/dataset.py:252-272 | the node-table somas below the threshold plus every soma absent from the node table (total 0), cached under `orphaned_soma` |
| FancpqDataset.OrphanedSomaExtendsRule | fancpq/dataset.py:263-270 | this table is the rule's table plus exactly the somas missing from the node table |
| FancpqDataset.AbsentSomaAlwaysOrphaned | fancpq/dataset.py:263-270 | a soma missing from the node table is listed with total 0 at every threshold, while the rule never lists it |
| FancpqDataset.Unique | fancpq/dataset.py:283 | each id of the column once, and nothing else |
| FancpqDataset.Insert | fancpq/dataset.py:293 | inserting into a list sorted by count keeps it sorted and adds exactly the one entry |
| FancpqDataset.InsertKeepsDistinct | fancpq/dataset.py:293 | inserting a new id keeps the ids distinct |
| FancpqDataset.SortByCount | fancpq/dataset.py:293 | the result is sorted by count, a permutation of the input, and keeps ids distinct |
| FancpqDataset.LowInputEntries | fancpq/dataset.py:283-293 | exactly the candidates whose input count (0 when absent) is below the threshold, each once |
| FancpqDataset.EfferentEntries | fancpq/dataset.py:283-293 | the low-input motor neurons, sorted by input count, each once |
| FancpqDataset.EfferentRows | fancpq/dataset.py:283-298 | the rows, sorted ascending by input count, one per low-input motor neuron, tagged with the type |
| FancpqDataset.BuildProblematicEfferent | fancpq/dataset.py:275-300 | an unknown type raises ValueError; otherwise the sorted low-input rows of that type's table, cached under `problematic_efferent_<type>` |
| FancpqDataset.BuildMultipleSoma | fancpq/dataset.py:318-323 | exactly the segments with more than one soma and their count, cached |
| FancpqDataset.BuildUnconnectedDn | fancpq/dataset.py:326-337 | exactly the neck-connective segments in the node table with a total below the threshold, cached |
| FancpqDataset.BuildSuspectedDn | fancpq/dataset.py:345-355 | returns every soma-less neck-connective segment of the node table, while the cache holds only those whose input/output ratio exceeds the threshold, with the same rows |
| FancpqDataset.SuspectedDnReturnsUnfiltered | fancpq/dataset.py:345-355 | every cached segment is returned, and a returned segment whose ratio does not exceed the threshold is not cached |
| FancpqDataset.SuspectedDnCacheIsSmaller | fancpq/dataset.py:345-355 | a segment with ratio 0 is returned and not cached, so the returned table is strictly larger than the cached one |
| SomaPrioritize.FindOrphanedSomas | fancpq/prioritize/soma.py:12-20 | exactly the soma segments in the node table with a total below the threshold, with their rows |
| SomaPrioritize.FindOrphanedSomasAgreesWithRule | fancpq/prioritize/soma.py:12-20 | selects the same segments as the `OrphanedSoma` rule |
| SomaPrioritize.DoubleCheckAsWritten | fancpq/prioritize/soma.py:23-31 | KeyError iff the live counts name a segment that is not a candidate; ValueError iff they name only candidates but not the same labels in the same order; otherwise the input unchanged |
| SomaPrioritize.DoubleCheckAsWrittenIgnoresCounts | fancpq/prioritize/soma.py:26-31 | the outcome depends only on the live labels, never on the live counts |
| SomaPrioritize.DoubleCheckRaisesOnLabelOrder | fancpq/prioritize/soma.py:28-29 | candidates [3, 5] with live counts labelled [5, 3] raise ValueError, although the label sets agree |
| SomaPrioritize.DoubleCheck | fancpq/prioritize/soma.py:23-31 | keeps exactly the candidates whose live counts match the dump's |
| SomaPrioritize.DoubleCheckIgnoresLiveCounts | fancpq/prioritize/soma.py:28-31 | a candidate whose live count changed survives as written and is dropped by the corrected check |
| SomaPrioritize.DoubleCheckIdempotent | fancpq/prioritize/soma.py:23-31 | the corrected check only removes, and checking twice equals checking once |
| CaveLive.Query | fancpq/_old_upstream_api/cave_live.py:22-23 | the query returns only synapses of the table whose pre (or post) end is requested |
| CaveLive.GroupByPre | fancpq/_old_upstream_api/cave_live.py:25-26 | per presynaptic segment, the number of synapses, for every segment with at least one |
| CaveLive.GroupByPost | fancpq/_old_upstream_api/cave_live.py:27-28 | per postsynaptic segment, the number of synapses, for every segment with at least one |
| CaveLive.JoinCounts | fancpq/_old_upstream_api/cave_live.py:29-32 | the outer join of the two counts with 0 for a missing side, limited to the requested ids |
| CaveLive.LiveSynapseCountAsWritten | fancpq/_old_upstream_api/cave_live.py:19-32 | counts pre and post over the concatenation of both query results |
| CaveLive.LiveSynapseCount | fancpq/_old_upstream_api/cave_live.py:19-32 | counts outputs over the pre query and inputs over the post query |
| CaveLive.QueryKeepsPreCount | fancpq/_old_upstream_api/cave_live.py:22 | querying by presynaptic id keeps every output synapse of a requested segment |
| CaveLive.QueryKeepsPostCount | fancpq/_old_upstream_api/cave_live.py:23 | querying by postsynaptic id keeps every input synapse of a requested segment |
| CaveLive.LiveSynapseCountIsTrueCount | fancpq/_old_upstream_api/cave_live.py:19-32 | the corrected count of a requested segment equals its true input and output counts in the synapse table |
| CaveLive.DoubleCountAsWritten | fancpq/_old_upstream_api/cave_live.py:24-26 | a synapse between two requested segments is counted twice as written |
| Dump.Key | fancpq/_old_upstream_api/dump.py:88-90 | a directory name parses iff what is left after removing every `dump_`, stripped of whitespace, is an optional sign followed by digits; otherwise ValueError |
| Dump.KeyOfDirName | fancpq/_old_upstream_api/dump.py:43 | the directory `dump_<ts>` that the download creates parses back to `ts` |
| Dump.PaddedKey | fancpq/_old_upstream_api/dump.py:88 | `dump_<d>` and `dump_0<d>` parse to the same key |
| Dump.Winner | fancpq/_old_upstream_api/dump.py:87-91 | the dictionary has no directory for key `k` iff no listed name parses to `k`; otherwise it keeps the last name with key `k` in listing order (the descending sort is stable and the comprehension keeps the last value) |
| Dump.FindLatestValidDump | fancpq/_old_upstream_api/dump.py:118-133 | no base directory gives None; a dump name that `int()` rejects raises ValueError, and nothing else raises; None iff no directory that wins its key holds both markers; otherwise such a directory with the greatest key, and that key |
| Dump.LatestIs | fancpq/_old_upstream_api/dump.py:122-133 | a valid winning directory whose key is at least every other valid winner's is the one found |
| Dump.UnparsableDumpRaises | fancpq/_old_upstream_api/dump.py:87-89 | a directory `dump_<q>` with a non-digit in `q` (and no sign or padding) makes both the search and the refresh raise ValueError |
| Dump.DownloadConnectivity | fancpq/_old_upstream_api/dump.py:23-53 | a non-200 listing raises RuntimeError; otherwise only the directory `dump_<ts>` of the listed version is created or changed, it gains at most the node and edge files and its marker, an already-marked directory is left alone, and sound markers stay sound |
| Dump.DownloadSoma | fancpq/_old_upstream_api/dump.py:56-68 | only the soma file and marker of `dump_<ts>` are added, an already-marked directory is left alone, and sound markers stay sound |
| Dump.GetNewDump | fancpq/_old_upstream_api/dump.py:84-115 | a dump name that `int()` rejects raises ValueError; a refresh is due iff there is no valid dump, the latest key is 0 or it is older than the interval, and otherwise nothing changes; a due refresh raises RuntimeError iff the listing fails; on success `dump_<ts>` holds the connectivity marker, and the soma marker too unless `ts` was the latest key; exactly the winning directories with another key are deleted; every other directory keeps its files; sound markers stay sound |
| Dump.RefreshSameTimestampKeepsFiles | fancpq/_old_upstream_api/dump.py:101-106 | refreshing when the listed version is already found as the latest valid one keeps its files |
| Dump.GetNewDumpCanonical | fancpq/_old_upstream_api/dump.py:84-133 | when every dump name is `dump_<key>` as the download writes it, a refresh leaves one dump directory, the listed version's, valid and found as the latest under any listing order |
| Dump.CollidingDumpSurvives | fancpq/_old_upstream_api/dump.py:87-115 | with valid `dump_<d>` and `dump_0<d>` listed in that order, `dump_0<d>` is found as the latest; a refresh to another version deletes it and leaves `dump_<d>` untouched |
| Dump.OtherSpellingOfLatest | fancpq/_old_upstream_api/dump.py:101-106 | when a valid `dump_0<k>` is the latest and the listing names `k`, the refresh creates `dump_<k>` without the soma marker and keeps `dump_0<k>` |
| Dump.InterruptedDownloadsSound | fancpq/_old_upstream_api/dump.py:46-68 | an interrupted download never leaves a marker without its files |
| Dump.NormaliseNodes | fancpq/_old_upstream_api/dump.py:146-150 | one row per dumped node, with missing counts filled with 0 |
| Dump.NormaliseAgreesWithNodeTable | fancpq/_old_upstream_api/dump.py:146-150 | with distinct ids the normalised rows are the node table built by the newer loader |
| Dump.LoadFrom | fancpq/_old_upstream_api/dump.py:140-155 | FileNotFoundError iff one of `bc_nodes`, `bc_edges`, `soma` is missing; otherwise the key and the tables, nodes normalised; a directory with both markers and sound markers always loads |
| Dump.LoadLatestValidDump | fancpq/_old_upstream_api/dump.py:136-155 | ValueError when the search raises; None exactly when it finds nothing; FileNotFoundError iff the found directory lacks one of the three tables (lines 141-143), which cannot happen while every marker is sound; otherwise the found key and that directory's tables, with the nodes normalised |
| ExclusionStore.Open | ysp_bot/database.py:9-40 | a new file starts with empty tables; an existing one is used as is |
| ExclusionStore.UserSkiplist | ysp_bot/database.py:42-48 | exactly the segments this user skipped |
| ExclusionStore.GlobalSegidsToSkip | ysp_bot/database.py:57-63 | exactly the segments with some status record in the vocabulary; fancpq/database.py:57-63 is the same query with the vocabulary `skip`, `done` |
| ExclusionStore.AddToUserSkiplist | ysp_bot/database.py:50-55 | appends one skip record and changes nothing else |
| ExclusionStore.SetStatus | ysp_bot/database.py:65-70 | appends one status record and changes nothing else |
| ExclusionStore.SetAnnotation | ysp_bot/database.py:72-78 | appends one annotation record with its position and changes nothing else |
| ExclusionStore.AddThenQuery | ysp_bot/database.py:42-55 | after a skip the user's skiplist gains exactly that segment; other users' skiplists are unchanged |
| ExclusionStore.SetStatusThenQuery | ysp_bot/database.py:57-70 | after a status record the global set gains the segment iff the status is in the vocabulary |
| ExclusionStore.RepeatedSkipCollapses | ysp_bot/database.py:42-55 | skipping the same segment twice gives the same skiplist as once |
| ExclusionStore.DoneNotSkippedAsWritten | tests/test_database.py:30-51 | a segment marked `done` is not excluded by the connector as written, but is by the older database and by the vocabulary with `done` |
| ExclusionStore.MarkedDoneIsSkipped | scripts/server.py:243 | with `done` in the vocabulary, marking a segment done (or fixed, no-action, expired) excludes it for everybody |
| Commands.DigitPrefix | scripts/server.py:443 | a leading `\d+` is read greedily: none iff no digit starts the text, else the value of the maximal digit run and the rest |
| Commands.SkipSpaces | scripts/server.py:443 | drops exactly the leading whitespace |
| Commands.Line | scripts/server.py:443 | the longest prefix without a line feed |
| Commands.TailMessage | scripts/server.py:443 | `\s+(.+)` yields a non-empty message without line feeds |
| Commands.TailComplete | scripts/server.py:443 | every text of the form whitespace, message, end of line matches |
| Commands.TailSound | scripts/server.py:443 | every match has that form |
| Commands.TailOf | scripts/server.py:443 | whitespace followed by a message yields the message |
| Commands.ParseMark | scripts/server.py:443-445 | a parsed `/mark` status is non-empty and on one line |
| Commands.ParseMarkComplete | scripts/server.py:443-445 | every text that matches `(\d+)\s+(.+)` parses, with the digits as the segment id |
| Commands.ParseMarkSound | scripts/server.py:443-445 | every parse comes from such a match |
| Commands.ParseMarkRoundTrip | scripts/server.py:443-451 | `<n> <status>` parses back to `n` and the status |
| Commands.IntToString | scripts/server.py:473 | non-negative numbers print as decimals; negative ones start with a minus sign |
| Commands.Coordinate | scripts/server.py:470-471 | a parsed coordinate consumes input |
| Commands.Position | scripts/server.py:470-471 | a parsed position consumes input |
| Commands.AfterParen | scripts/server.py:470-474 | the parse after the parenthesis keeps the segment id |
| Commands.ParseAnnotate | scripts/server.py:470-474 | a parsed annotation message is non-empty and on one line |
| Commands.ParseAnnotateComplete | scripts/server.py:470-474 | every text that matches `(\d+)\s+\((\d+),\s*(\d+),\s*(\d+)\)\s+(.+)` parses, with the four digit runs as segment id and coordinates |
| Commands.ParseAnnotateSound | scripts/server.py:470-474 | every parse comes from such a match, and its values are those of the match |
| Commands.AnnotateRoundTrip | scripts/server.py:470-482 | the usage form with non-negative coordinates parses back to its parts; a negative coordinate does not match |
| Commands.FieldAt | scripts/server.py:182-183 | a match starts with the `*Segment ID:*` field prefix |
| Commands.SegidFieldRoundTrip | scripts/server.py:182-183 | the segment id the proposal field shows (line 299) is the one read back |
| Commands.EarliestIndex | scripts/server.py:178-179 | the first message with the smallest timestamp |
| Commands.ExtractSegidLeftmost | scripts/server.py:182-183 | a result exists iff the field occurs somewhere in the text, and it is the leftmost occurrence (`re.findall(...)[0]`) |
| Commands.FindSegidFromButtonClick | scripts/server.py:160-188 | a result exists iff the earliest message has a field text in which the `*Segment ID:*` field occurs, and it is the leftmost occurrence there |
| Commands.ButtonClickRoundTrip | scripts/server.py:160-188 | with the proposal posted before the buttons, the click finds the proposed segment whatever order the history lists them in |
| Commands.ButtonClickMissingField | scripts/server.py:185-188 | without a segment field the lookup yields nothing |
| Commands.SlackMark | ysp/slackbot.py:200-216 | fails iff the text has fewer than two words; the segment is the first whitespace-separated word |
| Commands.SlackAnnotate | ysp/slackbot.py:219-236 | fails iff the text has fewer than two words; the segment is the first whitespace-separated word |
| Commands.SlackNormalises | ysp/slackbot.py:203-236 | re-spacing any text to single spaces between its words changes neither parse |
| Commands.SlackMarkRoundTrip | ysp/slackbot.py:203-216 | a segment and its status words give the segment and the words joined with ` and ` |
| Commands.SlackAnnotateNormalises | ysp/slackbot.py:219-236 | the message holds the remaining words, and re-sending it parses to the same pair |
| Commands.Subcommand | scripts/server.py:23-29 | a keyword names the table whose keyword it is |
| Commands.SubcommandKeyword | scripts/server.py:23-29 | the keyword map is exactly the inverse of the table keywords |
| Commands.ParseGet | scripts/server.py:270-278 | no words means any table; an unknown first word raises KeyError; otherwise the named table |
| Commands.ParseGetKeyword | scripts/server.py:270-278 | a table's keyword, alone or followed by more words, selects that table |
| Schedule.SecondsTillNextRun | scripts/server.py:44-52 | a minute outside 0..59 raises ValueError; otherwise a wait below an hour that lands on the target minute, 0 exactly at it |
| Schedule.SecondsTillNextRunIsShortest | scripts/server.py:44-52 | no shorter wait lands on the target minute |
| Schedule.NextCheckAsWritten | scripts/_old_download_dump.py:16-24 | fails iff it is 23:15 or later, and otherwise agrees with the intended schedule |
| Schedule.NextCheck | scripts/_old_download_dump.py:16-24 | a positive wait of at most an hour that lands on a quarter past |
| Schedule.NextCheckFailsAtHour23 | scripts/_old_download_dump.py:20-22 | at 23:30 the loop as written raises, while the intended one sleeps 45 minutes |
| Server.BuildPool | scripts/server.py:66-72 | the pool has exactly the five server tables |
| Server.PoolAgreesWithRules | scripts/server.py:66-72 | every pool table is the matching rule's table with the default arguments |
| Server.UpdateVersion | scripts/server.py:55-89 | a known timestamp changes nothing; a new one installs the new pool and directory, deletes the previous directory, and keeps the three globals consistent |
| Server.UpdateVersionIdempotent | scripts/server.py:61-63 | a second check of the same snapshot changes nothing and deletes nothing |
| Server.UpdateVersionServes | scripts/server.py:76-82 | after a check a pool is served, and the directory being served is never the one deleted |
| Server.ExcludedGrows | scripts/server.py:113-118 | appending status records never shrinks a user's exclusions |
| Server.GlobalGrows | scripts/server.py:114 | appending status records never unskips a segment |
| Server.OnlyExpiredAddedTrans | scripts/server.py:126-129 | two rounds of sampling together only add `expired` records for stale segments |
| Server.ServerFeed | scripts/server.py:130-151 | the feed carries the sampled segment id; a missing column raises KeyError |
| Server.ServerFeedAgreesWithRule | scripts/server.py:130-151 | the server's message equals the rule's feed line, except that the orphaned-soma wording differs while kind and counts agree |
| Server.Scan | scripts/server.py:123-157 | only stale segments are marked expired; a proposal is a current, non-excluded row; a missing column raises KeyError |
| Server.ScanNoneExhausts | scripts/server.py:124-157 | when the loop ends without a proposal, every row of the table is excluded afterwards |
| Server.SampleOne | scripts/server.py:111-157 | an unknown table raises AssertionError; a proposal is a current row of the table not excluded for the user |
| Server.SampleOneNoneExhausts | scripts/server.py:111-157 | a table that yields nothing is wholly excluded for the user afterwards |
| Server.SampleAny | scripts/server.py:101-108 | tries the tables in shuffled order; a proposal is current and not excluded |
| Server.SampleAnyNoneExhausts | scripts/server.py:101-108 | when no table yields anything, every table is wholly excluded for the user |
| Server.Sample | scripts/server.py:92-157 | a proposal is current, not excluded, and from the named table when one is named |
| Server.HandleGet | scripts/server.py:267-282 | no pool, no change; an unknown keyword raises; a proposal is current, not excluded for the Slack user id (line 279), and from the named table |
| Server.GetNoMoreMeansExhausted | scripts/server.py:101-108 | "no more segments" for a plain `/get`, with the tables tried being a shuffle of the pool's keys, means every pool table is exhausted for the user id |
| Server.RecordButton | scripts/server.py:366-429 | `fixed`/`noaction` exclude the segment for every key and leave the skiplists alone; skip excludes it for the skip key only, leaving every other key's exclusions and the statuses unchanged (the writes of lines 368, 398 and 428) |
| Server.HandleButton | scripts/server.py:350-436 | an unknown segment writes nothing; `fixed`/`noaction` exclude the segment for everybody; skip excludes it under the Slack handle (lines 414, 428) and changes the exclusions of no other key |
| Server.ScanOutcomeIgnoresDb | scripts/server.py:120-157 | the segment the loop proposes depends only on the exclusions read before it, not on the records it appends |
| Server.SampleOneOutcome | scripts/server.py:111-157 | two databases with the same exclusions for a key give that key the same sample |
| Server.ButtonExcludesProposalAsWritten | scripts/server.py:350-436 | after `fixed`/`noaction` under a proposal no later sample proposes the segment; after skip, the sample for any key other than the handle, such as the user id `/get` uses (line 279), is exactly what it would have been without the press |
| Server.SkipThenGetProposesAgain | scripts/server.py:410-436 | user id `U1` with handle `alice` skips segment 7 and the next `/get`, sampled under `U1` (line 279), proposes segment 7 again |
| Server.HandleButtonIntended | scripts/server.py:410-436 | as `HandleButton`, but the skip is recorded under the user id, which then excludes the segment for that id |
| Server.ButtonExcludesProposal | scripts/server.py:350-436 | with the skip keyed like `/get`, after any button under a proposal the next sample for that user id (for every key after `fixed`/`noaction`) never proposes the segment |
| Server.HandleMark | scripts/server.py:439-463 | a non-matching command changes nothing; a segment id outside sqlite's signed 64-bit range raises OverflowError and writes nothing; otherwise echoes the parse and appends exactly one status record by the user |
| Server.MarkCommandExcludes | scripts/server.py:439-463 | `/mark <n> <status>` with `n` in sqlite's range excludes `n` for everybody iff the status skips; beyond it nothing changes; every skiplist is left alone |
| Server.HandleAnnotate | scripts/server.py:466-493 | a non-matching command changes nothing; an id or coordinate outside sqlite's signed 64-bit range raises OverflowError and writes nothing; otherwise exactly one annotation record; exclusions never change |
| Server.AnnotateCommandRecords | scripts/server.py:466-493 | the usage form with every number in sqlite's range records exactly its segment, position and message; a negative coordinate or an out-of-range number records nothing |

## Left out

- Network access, Slack's web client, the home tab, logging and garbage
  collection. Their inputs and outputs are parameters or are not modelled.
- The mutex and the `threading.Timer` rescheduling. The model is sequential:
  one `update_version` or one handler at a time.
- Floating point. Thresholds are exact fractions; numpy's `inf` and `NaN`
  are modelled where they change a comparison.
- Microseconds of the clock. `Schedule` works in whole seconds, and so
  does the dump refresh check, which compares the float `time()` with
  `latest + download_interval` (`Dump.NeedsRefresh` takes an integer
  clock).
- The float conversion of Slack message timestamps. `float(x['ts'])`
  becomes an integer ordered key in `Commands.Message`; only the order of
  the timestamps matters to the button lookup.
- The random shuffles (`random.shuffle`, `DataFrame.sample`) and
  `is_latest_roots`. They are parameters. Sampling scans the shuffled full
  table and skips excluded rows; this proposes the same segments as
  shuffling the filtered table, in the shuffle's order.
- Row and label order inside the `ysp_bot` tables and inside the `fancpq`
  orphaned-soma, multiple-soma, unconnected-DN and suspected-DN tables.
  They are maps keyed by segment id. The order of the sorted `fancpq`
  efferent table is modelled.
- Unicode digits. `\d` and `int()` are modelled on ASCII digits only; `\s`
  uses Python's whitespace class.
- The edge table and the neck-connective download are carried as opaque
  files; only their presence and the row counts the rules read are
  modelled.
- `fancpq/dataset.py` `build_unconnected_an_table` and
  `build_unbalanced_interneuron_table` have empty bodies (`...`) in the
  source, so they are not modelled.
- The order in which `Path.glob` lists the dump directories. It is a
  parameter of `Dump.FindLatestValidDump`, `Dump.GetNewDump` and
  `Dump.LoadLatestValidDump`, required to list exactly the dump names.
  Plain files named `dump_*` are not modelled: every name in the store is a
  directory.
- The exit status of `wget` and failures of the CAVE soma download. The
  dump store's downloads always write their files; `last_materialized` is
  taken to be a non-negative integer.
- `scripts/download_cave_dump.py` and the configuration loaders are not
  part of this model.
- Server.Sample: assumes the server's database excludes `done` globally,
  like the corrected vocabulary `ExclusionStore.ConnectorSkipStatusesWithDone`;
  the connector as written omits it (see Findings). The same assumption
  holds for `Server.Scan`, `Server.SampleOne`, `Server.SampleAny`,
  `Server.HandleGet`, `Server.HandleButton` and `Server.HandleMark`, which
  all read exclusions through that vocabulary.
- Server.Scan: the `expired` records and the button handlers write pool
  segment ids, which come from the dump; they are not range-checked
  against sqlite's 64-bit INTEGER.
- Snapshot.Save: the optional `priority_tables_dir` argument is not
  modelled; the cache is always written under the version's own directory.
- Rules.MultipleSomasTable: assumes pandas 1.5 column naming, where
  `value_counts().to_frame()` names the count column after the landmark
  column and `entry_to_feed` reads it; from pandas 2.0 the column is named
  `count` and `entry_to_feed` raises KeyError.
- Text.PyInt: underscores between digits and non-ASCII digits, which
  `int()` also accepts, are not modelled; such a name fails here.
- SomaPrioritize.DoubleCheckAsWritten: the live counts' label order is a
  parameter, since it comes from the CAVE service's answer.
- Commands.Coordinate: only states that a parsed coordinate consumes input;
  its exact value is stated by `Commands.ParseAnnotateComplete`,
  `Commands.ParseAnnotateSound` and `Commands.AnnotateRoundTrip`.
- Commands.Position: as for `Coordinate`; the values are stated by the
  same three lemmas.

## Findings

| source | as written | input that shows it | evidently intended | confidence | as-written member | corrected member |
|---|---|---|---|---|---|---|
| fancpq/_old_upstream_api/cave_live.py:24-28 | the pre-query and post-query results are concatenated before both group-bys, so a synapse between two requested segments is counted in both queries | one synapse 1→2 with ids [1, 2]: segment 1 gets 2 outputs | count outputs over the pre query and inputs over the post query | medium, not executed | CaveLive.DoubleCountAsWritten | CaveLive.LiveSynapseCountIsTrueCount |
| fancpq/prioritize/soma.py:23-31 | the live-count comparison is computed and discarded; unless the live labels are missing, extra or in another order (which raise), the input is returned unchanged | a candidate whose dump input count is 1 and live count is 2 is kept | keep only candidates whose live counts still match | medium, not executed | SomaPrioritize.DoubleCheckIgnoresLiveCounts | SomaPrioritize.DoubleCheckIdempotent |
| ysp_bot/database.py:60 | the global skip set takes only `expired`, `fixed`, `noaction` | `set_status(987654321, 'done', ...)` then `get_global_segids_to_skip()` is empty, though tests/test_database.py:48-51 expects the segment and the home tab tells users to `/mark <id> done` | `done` also excludes a segment globally | high, not executed | ExclusionStore.DoneNotSkippedAsWritten | ExclusionStore.MarkedDoneIsSkipped |
| scripts/server.py:414-428 | `/get` samples under `body['user_id']` (line 279), the Skip button adds to the skiplist of `body['user']['username']` | a user with id `U1` and handle `alice` presses Skip on segment 7; the next `/get` proposes 7 again | the skip is recorded under the id `/get` reads, as the reply "I won't show this neuron to you again" promises | high, not executed | Server.SkipThenGetProposesAgain | Server.ButtonExcludesProposal |
| scripts/_old_download_dump.py:20-22 | at minute 15 or later the next check is built as `hour + 1`, which `datetime` rejects at hour 23 | 23:30 raises ValueError and stops the loop | a quarter past the next hour, rolling over to the next day | high, not executed | Schedule.NextCheckFailsAtHour23 | Schedule.NextCheck |

=== FILE: cave_live.dfy ===
/** Live synapse counts from the two CAVE synapse queries
    (`get_live_synapse_count`): the synapses whose presynaptic segment is
    requested, and those whose postsynaptic segment is requested, are
    concatenated and counted per segment.
 */
module CaveLive {
  import opened Tables

  datatype Synapse = Synapse(pre: SegId, post: SegId)

  /** Number of synapses of `df` with presynaptic segment `x`. */
  function PreCount(df: seq<Synapse>, x: SegId): nat {
    if |df| == 0 then 0 else PreCount(df[..|df| - 1], x) + (if df[|df| - 1].pre == x then 1 else 0)
  }

  /** Number of synapses of `df` with postsynaptic segment `x`. */
  function PostCount(df: seq<Synapse>, x: SegId): nat {
    if |df| == 0 then 0 else PostCount(df[..|df| - 1], x) + (if df[|df| - 1].post == x then 1 else 0)
  }

  /** `synapse_query(pre_ids=ids)` (or `post_ids=ids`) against the full
      synapse table `all`, in table order. */
  function Query(all: seq<Synapse>, ids: set<SegId>, byPre: bool): (r: seq<Synapse>)
    ensures forall s | s in r :: s in all && (if byPre then s.pre else s.post) in ids
    ensures |r| <= |all|
  {
    if |all| == 0 then []
    else
      var rest := Query(all[..|all| - 1], ids, byPre);
      var s := all[|all| - 1];
      if (if byPre then s.pre else s.post) in ids then rest + [s] else rest
  }

  /** `df.groupby('pre_pt_root_id').size()`. */
  function GroupByPre(df: seq<Synapse>): (r: map<SegId, nat>)
    ensures forall x :: x in r <==> PreCount(df, x) > 0
    ensures forall x | x in r :: r[x] == PreCount(df, x)
  {
    if |df| == 0 then map[]
    else
      var rest := GroupByPre(df[..|df| - 1]);
      var x := df[|df| - 1].pre;
      rest[x := (if x in rest then rest[x] else 0) + 1]
  }

  /** `df.groupby('post_pt_root_id').size()`. */
  function GroupByPost(df: seq<Synapse>): (r: map<SegId, nat>)
    ensures forall x :: x in r <==> PostCount(df, x) > 0
    ensures forall x | x in r :: r[x] == PostCount(df, x)
  {
    if |df| == 0 then map[]
    else
      var rest := GroupByPost(df[..|df| - 1]);
      var x := df[|df| - 1].post;
      rest[x := (if x in rest then rest[x] else 0) + 1]
  }

  /** The outer join of the two groupings with `fillna(0)`, restricted to
      the requested ids. */
  function JoinCounts(asPre: map<SegId, nat>, asPost: map<SegId, nat>, ids: set<SegId>)
    : (r: NodeTable)
    ensures forall x :: x in r <==> x in ids && (x in asPre || x in asPost)
    ensures forall x | x in r ::
      r[x] == NodeRow(if x in asPre then asPre[x] else 0, if x in asPost then asPost[x] else 0)
  {
    map x | x in ids && (x in asPre.Keys + asPost.Keys) ::
      NodeRow(if x in asPre then asPre[x] else 0, if x in asPost then asPost[x] else 0)
  }

  /** `get_live_synapse_count` as written: both counts are taken over the
      concatenation of the two query results. */
  function LiveSynapseCountAsWritten(df0: seq<Synapse>, df1: seq<Synapse>, ids: seq<SegId>)
    : (r: NodeTable)
    ensures forall x :: x in r <==> x in ids && (PreCount(df0 + df1, x) > 0 || PostCount(df0 + df1, x) > 0)
    ensures forall x | x in r :: r[x] == NodeRow(PreCount(df0 + df1, x), PostCount(df0 + df1, x))
  {
    var df := df0 + df1;
    JoinCounts(GroupByPre(df), GroupByPost(df), set x | x in ids)
  }

  /** The evidently intended count: presynaptic counts from the pre query,
      postsynaptic counts from the post query. */
  function LiveSynapseCount(df0: seq<Synapse>, df1: seq<Synapse>, ids: seq<SegId>)
    : (r: NodeTable)
    ensures forall x :: x in r <==> x in ids && (PreCount(df0, x) > 0 || PostCount(df1, x) > 0)
    ensures forall x | x in r :: r[x] == NodeRow(PreCount(df0, x), PostCount(df1, x))
  {
    JoinCounts(GroupByPre(df0), GroupByPost(df1), set x | x in ids)
  }

  lemma {:induction false} QueryKeepsPreCount(all: seq<Synapse>, ids: set<SegId>, x: SegId)
    requires x in ids
    ensures PreCount(Query(all, ids, true), x) == PreCount(all, x)
  {
    if |all| > 0 {
      var init := all[..|all| - 1];
      var s := all[|all| - 1];
      QueryKeepsPreCount(init, ids, x);
      var q := Query(init, ids, true);
      if s.pre in ids {
        assert (q + [s])[..|q + [s]| - 1] == q;
      }
    }
  }

  lemma {:induction false} QueryKeepsPostCount(all: seq<Synapse>, ids: set<SegId>, x: SegId)
    requires x in ids
    ensures PostCount(Query(all, ids, false), x) == PostCount(all, x)
  {
    if |all| > 0 {
      var init := all[..|all| - 1];
      var s := all[|all| - 1];
      QueryKeepsPostCount(init, ids, x);
      var q := Query(init, ids, false);
      if s.post in ids {
        assert (q + [s])[..|q + [s]| - 1] == q;
      }
    }
  }

  /** With exact query results, the corrected count of every requested
      segment is its number of outgoing and incoming synapses. */
  lemma LiveSynapseCountIsTrueCount(all: seq<Synapse>, ids: seq<SegId>, x: SegId)
    requires x in ids
    ensures var ss := set y | y in ids;
      var r := LiveSynapseCount(Query(all, ss, true), Query(all, ss, false), ids);
      && (x in r <==> PreCount(all, x) > 0 || PostCount(all, x) > 0)
      && (x in r ==> r[x] == NodeRow(PreCount(all, x), PostCount(all, x)))
  {
    var ss := set y | y in ids;
    QueryKeepsPreCount(all, ss, x);
    QueryKeepsPostCount(all, ss, x);
  }

  /** As written, a synapse between two requested segments is in both query
      results and is counted twice. */
  lemma DoubleCountAsWritten()
    ensures var all := [Synapse(1, 2)];
      var ss := {1, 2};
      var r := LiveSynapseCountAsWritten(Query(all, ss, true), Query(all, ss, false), [1, 2]);
      && PreCount(all, 1) == 1
      && 1 in r && r[1].nrPre == 2
  {
    var all := [Synapse(1, 2)];
    assert Query(all, {1, 2}, true) == all;
    assert Query(all, {1, 2}, false) == all;
    assert PreCount(all + all, 1) == 2 by {
      assert (all + all)[..1] == all;
    }
  }
}

=== FILE: commands.dfy ===
/** The text commands of the proofreading bot: the `/mark` and `/annotate`
    regular expressions of the server, the segment-ID field of a proposal
    and its extraction from a button click, the whitespace-split parsing of
    the earlier bot, and the `/get` keyword dispatch.

    Regular expressions are modelled by what Python's backtracking matcher
    returns with `re.match` (anchored at the start only): digit and
    whitespace runs are greedy, and a `\s+` followed by `(.+)` gives
    characters back until `.` (anything but a line feed) can start.
 */
module Commands {
  import opened Wrappers
  import opened Text
  import opened Tables

  // ---------------------------------------------------------------------
  // Regular-expression building blocks

  /** `\d+` at the start of `s`: the value of the maximal digit run and the
      text after it. */
  function DigitPrefix(s: string): (r: Option<(nat, string)>)
    ensures r.None? <==> |s| == 0 || !IsDigit(s[0])
    ensures r.Some? ==> var rest := r.value.1;
      && |rest| < |s| && s[|s| - |rest|..] == rest
      && AllDigits(s[..|s| - |rest|]) && r.value.0 == DigitsValue(s[..|s| - |rest|])
      && (|rest| == 0 || !IsDigit(rest[0]))
  {
    var k := SpanLen(s, IsDigit);
    if k == 0 then None else Some((DigitsValue(s[..k]), s[k..]))
  }

  lemma DigitPrefixOf(d: string, rest: string)
    requires |d| > 0 && AllDigits(d)
    requires |rest| == 0 || !IsDigit(rest[0])
    ensures DigitPrefix(d + rest) == Some((DigitsValue(d), rest))
  {
    var s := d + rest;
    SpanLenIs(s, IsDigit, |d|);
    assert s[..|d|] == d;
    assert s[|d|..] == rest;
  }

  lemma NatPrefixOf(n: nat, rest: string)
    requires |rest| == 0 || !IsDigit(rest[0])
    ensures DigitPrefix(NatToString(n) + rest) == Some((n, rest))
  {
    DigitPrefixOf(NatToString(n), rest);
    NatToStringRoundTrip(n);
  }

  /** `\s*`: the text after the maximal whitespace run. */
  function SkipSpaces(s: string): (r: string)
    ensures |r| <= |s| && s[|s| - |r|..] == r && AllSpaces(s[..|s| - |r|])
    ensures |r| == 0 || !IsSpace(r[0])
  {
    s[SpanLen(s, IsSpace)..]
  }

  lemma SkipSpacesOf(w: string, s: string)
    requires AllSpaces(w)
    requires |s| == 0 || !IsSpace(s[0])
    ensures SkipSpaces(w + s) == s
  {
    SpanLenIs(w + s, IsSpace, |w|);
    assert (w + s)[|w|..] == s;
  }

  /** Where `(.+)` starts after a `\s+` that consumed `k` characters: the
      longest `k` first, then one character fewer at a time. */
  function BacktrackStart(s: string, k: nat): (r: Option<nat>)
    requires k <= |s|
    ensures r.Some? ==> 1 <= r.value <= k && r.value < |s| && s[r.value] != '\n'
    ensures forall j | (if r.Some? then r.value else 0) < j <= k :: j >= |s| || s[j] == '\n'
  {
    if k == 0 then None
    else if k < |s| && s[k] != '\n' then Some(k)
    else BacktrackStart(s, k - 1)
  }

  /** What a greedy `(.+)` takes: everything up to the first line feed. */
  function Line(s: string): (r: string)
    ensures |r| <= |s| && s[..|r|] == r && NoNewline(r)
    ensures |r| == |s| || s[|r|] == '\n'
  {
    s[..SpanLen(s, NotNewline)]
  }

  /** `\s+(.+)` at the start of `s`: the text of the group, if it matches. */
  function TailMessage(s: string): (r: Option<string>)
    ensures r.Some? ==> |r.value| > 0 && NoNewline(r.value)
  {
    var w := SpanLen(s, IsSpace);
    match BacktrackStart(s, w)
    case None => None
    case Some(k) => Some(Line(s[k..]))
  }

  /** `s` splits as a whitespace run, a line-feed-free message and a rest
      that is empty or starts a new line: one way `\s+(.+)` can match. */
  predicate TailShape(s: string, w: string, msg: string, rest: string) {
    && s == w + msg + rest
    && |w| > 0 && AllSpaces(w)
    && |msg| > 0 && NoNewline(msg)
    && (|rest| == 0 || rest[0] == '\n')
  }

  /** Whenever `\s+(.+)` can match, it does. */
  lemma TailComplete(s: string, w: string, msg: string, rest: string)
    requires TailShape(s, w, msg, rest)
    ensures TailMessage(s).Some?
  {
    var n := SpanLen(s, IsSpace);
    assert forall i | 0 <= i < |w| :: s[i] == w[i];
    assert s[|w|] == msg[0] && |w| < |s|;
    assert n >= |w|;
    assert BacktrackStart(s, n).Some?;
  }

  /** What `\s+(.+)` returns is one of its possible matches. */
  lemma TailSound(s: string)
    requires TailMessage(s).Some?
    ensures exists w, rest :: TailShape(s, w, TailMessage(s).value, rest)
  {
    var k := BacktrackStart(s, SpanLen(s, IsSpace)).value;
    var msg := Line(s[k..]);
    var w := s[..k];
    var rest := s[k + |msg|..];
    assert s[k..][..|msg|] == msg;
    assert s == w + msg + rest;
    assert TailShape(s, w, msg, rest);
  }

  /** A message that starts with a non-space character after a whitespace
      run is returned whole. */
  lemma TailOf(w: string, msg: string)
    requires |w| > 0 && AllSpaces(w)
    requires |msg| > 0 && NoNewline(msg) && !IsSpace(msg[0])
    ensures TailMessage(w + msg) == Some(msg)
  {
    var s := w + msg;
    SpanLenIs(s, IsSpace, |w|);
    assert s[|w|] == msg[0];
    assert BacktrackStart(s, |w|) == Some(|w|);
    assert s[|w|..] == msg;
    assert forall i | 0 <= i < |msg| :: NotNewline(msg[i]);
    SpanLenIs(msg, NotNewline, |msg|);
    assert msg[..|msg|] == msg;
  }

  // ---------------------------------------------------------------------
  // `/mark <segid> <status>` on the server

  datatype Mark = Mark(segid: SegId, state: string)

  /** `re.match('(\d+)\s+(.+)', text)` and its two groups; `None` where the
      handler replies with the usage message. */
  function ParseMark(text: string): (r: Option<Mark>)
    ensures r.Some? ==> |r.value.state| > 0 && NoNewline(r.value.state)
  {
    match DigitPrefix(text)
    case None => None
    case Some((n, rest)) =>
      match TailMessage(rest)
      case None => None
      case Some(state) => Some(Mark(n, state))
  }

  /** One way the `/mark` pattern can match `text`. */
  predicate MarkShape(text: string, d: string, w: string, msg: string, rest: string) {
    && |d| > 0 && AllDigits(d)
    && text == d + (w + msg + rest)
    && TailShape(w + msg + rest, w, msg, rest)
  }

  /** Whenever the pattern can match, the command is accepted, and the
      segment id is the whole leading digit run. */
  lemma ParseMarkComplete(text: string, d: string, w: string, msg: string, rest: string)
    requires MarkShape(text, d, w, msg, rest)
    ensures ParseMark(text).Some? && ParseMark(text).value.segid == DigitsValue(d)
  {
    DigitPrefixOf(d, w + msg + rest);
    TailComplete(w + msg + rest, w, msg, rest);
  }

  /** An accepted command is a match of the pattern. */
  lemma ParseMarkSound(text: string)
    requires ParseMark(text).Some?
    ensures exists d, w, rest :: (MarkShape(text, d, w, ParseMark(text).value.state, rest)
      && ParseMark(text).value.segid == DigitsValue(d))
  {
    var (n, tail) := DigitPrefix(text).value;
    var d := text[..|text| - |tail|];
    assert text == d + tail;
    TailSound(tail);
    var msg := ParseMark(text).value.state;
    var w, rest :| TailShape(tail, w, msg, rest);
    assert MarkShape(text, d, w, msg, rest);
  }

  /** `/mark <n> <status>` as the help text shows it gives `n` and the
      status back. */
  lemma ParseMarkRoundTrip(n: nat, w: string, status: string)
    requires |w| > 0 && AllSpaces(w)
    requires |status| > 0 && NoNewline(status) && !IsSpace(status[0])
    ensures ParseMark(NatToString(n) + w + status) == Some(Mark(n, status))
  {
    assert NatToString(n) + w + status == NatToString(n) + (w + status);
    assert (w + status)[0] == w[0];
    NatPrefixOf(n, w + status);
    TailOf(w, status);
  }

  // ---------------------------------------------------------------------
  // `/annotate <segid> (<x>, <y>, <z>) <message>` on the server

  datatype Annotation = Annotation(segid: SegId, x: nat, y: nat, z: nat, message: string)

  /** `,\s*(\d+)`: a further coordinate. */
  function Coordinate(s: string): (r: Option<(nat, string)>)
    ensures r.Some? ==> |r.value.1| < |s|
  {
    if |s| == 0 || s[0] != ',' then None else DigitPrefix(SkipSpaces(s[1..]))
  }

  /** `(\d+),\s*(\d+),\s*(\d+)\)` after the opening parenthesis: the three
      coordinates and the text after the closing one. */
  function Position(s: string): (r: Option<(nat, nat, nat, string)>)
    ensures r.Some? ==> |r.value.3| < |s|
  {
    match DigitPrefix(s)
    case None => None
    case Some((x, r1)) =>
      match Coordinate(r1)
      case None => None
      case Some((y, r2)) =>
        match Coordinate(r2)
        case None => None
        case Some((z, r3)) =>
          if |r3| == 0 || r3[0] != ')' then None else Some((x, y, z, r3[1..]))
  }

  /** `re.match('(\d+)\s+\((\d+),\s*(\d+),\s*(\d+)\)\s+(.+)', text)`. Each
      digit run is followed by a character that cannot extend it, so the
      greedy runs are forced and only the final `\s+(.+)` backtracks. */
  function ParseAnnotate(text: string): (r: Option<Annotation>)
    ensures r.Some? ==> |r.value.message| > 0 && NoNewline(r.value.message)
  {
    match DigitPrefix(text)
    case None => None
    case Some((n, r1)) =>
      var r2 := SkipSpaces(r1);
      if |r2| == |r1| || |r2| == 0 || r2[0] != '(' then None
      else AfterParen(n, r2[1..])
  }

  /** The rest of the annotate pattern once `<segid>\s+\(` has matched. */
  function AfterParen(n: nat, s: string): (r: Option<Annotation>)
    ensures r.Some? ==> r.value.segid == n
  {
    match Position(s)
    case None => None
    case Some((x, y, z, rest)) =>
      match TailMessage(rest)
      case None => None
      case Some(m) => Some(Annotation(n, x, y, z, m))
  }

  /** The pieces of one way the annotate pattern can match: the digit runs
      of the segment id and of the three coordinates, the whitespace runs
      around them, and the final whitespace, message and rest. */
  datatype AnnotateMatch = AnnotateMatch(
    d: string, w1: string, dx: string, w2: string, dy: string, w3: string, dz: string,
    w: string, msg: string, rest: string)

  /** A `\d+` group. */
  predicate DigitRun(d: string) { |d| > 0 && AllDigits(d) }

  /** What `\s+(.+)` is matched against. */
  function MatchTail(m: AnnotateMatch): string { m.w + m.msg + m.rest }

  /** The text after the opening parenthesis. */
  function MatchPosition(m: AnnotateMatch): string {
    m.dx + ("," + (m.w2 + (m.dy + ("," + (m.w3 + (m.dz + (")" + MatchTail(m))))))))
  }

  /** `text` is `<d><w1>(<dx>,<w2><dy>,<w3><dz>)<w><msg><rest>` with the
      pattern's character classes in each piece. */
  predicate AnnotateShape(text: string, m: AnnotateMatch) {
    && DigitRun(m.d) && DigitRun(m.dx) && DigitRun(m.dy) && DigitRun(m.dz)
    && |m.w1| > 0 && AllSpaces(m.w1) && AllSpaces(m.w2) && AllSpaces(m.w3)
    && TailShape(MatchTail(m), m.w, m.msg, m.rest)
    && text == m.d + (m.w1 + ("(" + MatchPosition(m)))
  }

  /** The groups of a match, read as `int(...)` reads them. */
  function MatchValue(m: AnnotateMatch): Annotation
    requires DigitRun(m.d) && DigitRun(m.dx) && DigitRun(m.dy) && DigitRun(m.dz)
  {
    Annotation(DigitsValue(m.d), DigitsValue(m.dx), DigitsValue(m.dy), DigitsValue(m.dz), m.msg)
  }

  lemma CoordinateOfRun(w: string, d: string, rest: string)
    requires AllSpaces(w) && DigitRun(d)
    requires |rest| == 0 || !IsDigit(rest[0])
    ensures Coordinate("," + (w + (d + rest))) == Some((DigitsValue(d), rest))
  {
    var s := "," + (w + (d + rest));
    assert s[1..] == w + (d + rest);
    assert (d + rest)[0] == d[0];
    SkipSpacesOf(w, d + rest);
    DigitPrefixOf(d, rest);
  }

  /** The leading `(\d+)\s+\(` of the annotate pattern. */
  lemma AnnotateHead(d: string, w1: string, p: string)
    requires DigitRun(d) && |w1| > 0 && AllSpaces(w1)
    ensures ParseAnnotate(d + (w1 + ("(" + p))) == AfterParen(DigitsValue(d), p)
  {
    var r1 := w1 + ("(" + p);
    assert r1[0] == w1[0];
    DigitPrefixOf(d, r1);
    assert ("(" + p)[0] == '(';
    SkipSpacesOf(w1, "(" + p);
    assert ("(" + p)[1..] == p;
  }

  /** `(\d+),\s*(\d+),\s*(\d+)\)` over three digit runs. */
  lemma PositionOfRuns(dx: string, w2: string, dy: string, w3: string, dz: string, t: string)
    requires DigitRun(dx) && DigitRun(dy) && DigitRun(dz) && AllSpaces(w2) && AllSpaces(w3)
    ensures Position(dx + ("," + (w2 + (dy + ("," + (w3 + (dz + (")" + t))))))))
      == Some((DigitsValue(dx), DigitsValue(dy), DigitsValue(dz), t))
  {
    var sz := ")" + t;
    var sy := "," + (w3 + (dz + sz));
    var sx := "," + (w2 + (dy + sy));
    DigitPrefixOf(dx, sx);
    CoordinateOfRun(w2, dy, sy);
    CoordinateOfRun(w3, dz, sz);
    assert sz[1..] == t;
  }

  /** Whenever the annotate pattern can match, the command is accepted, and
      the segment id and the coordinates are the values of its digit
      runs. */
  lemma ParseAnnotateComplete(text: string, m: AnnotateMatch)
    requires AnnotateShape(text, m)
    ensures ParseAnnotate(text).Some?
    ensures var a := ParseAnnotate(text).value;
      && a.segid == DigitsValue(m.d) && a.x == DigitsValue(m.dx)
      && a.y == DigitsValue(m.dy) && a.z == DigitsValue(m.dz)
  {
    var t := MatchTail(m);
    AnnotateHead(m.d, m.w1, MatchPosition(m));
    PositionOfRuns(m.dx, m.w2, m.dy, m.w3, m.dz, t);
    TailComplete(t, m.w, m.msg, m.rest);
  }

  lemma DigitPrefixSound(s: string) returns (d: string)
    requires DigitPrefix(s).Some?
    ensures DigitRun(d) && s == d + DigitPrefix(s).value.1
    ensures DigitPrefix(s).value.0 == DigitsValue(d)
  {
    var rest := DigitPrefix(s).value.1;
    d := s[..|s| - |rest|];
    assert s == d + s[|s| - |rest|..];
  }

  lemma CoordinateSound(s: string) returns (w: string, d: string)
    requires Coordinate(s).Some?
    ensures AllSpaces(w) && DigitRun(d) && s == "," + (w + (d + Coordinate(s).value.1))
    ensures Coordinate(s).value.0 == DigitsValue(d)
  {
    var t := SkipSpaces(s[1..]);
    w := s[1..][..|s| - 1 - |t|];
    assert s[1..] == w + t;
    d := DigitPrefixSound(t);
    FirstCharSplit(s, ',');
  }

  /** A text is what precedes a suffix of it, followed by that suffix. */
  lemma SuffixSplit(s: string, r: string)
    requires |r| <= |s| && s[|s| - |r|..] == r
    ensures s == s[..|s| - |r|] + r
  {
  }

  lemma FirstCharSplit(s: string, c: char)
    requires |s| > 0 && s[0] == c
    ensures s == [c] + s[1..]
  {
  }

  lemma PositionSound(s: string) returns (dx: string, w2: string, dy: string, w3: string, dz: string)
    requires Position(s).Some?
    ensures DigitRun(dx) && DigitRun(dy) && DigitRun(dz) && AllSpaces(w2) && AllSpaces(w3)
    ensures s == dx + ("," + (w2 + (dy + ("," + (w3 + (dz + (")" + Position(s).value.3)))))))
    ensures Position(s).value.0 == DigitsValue(dx) && Position(s).value.1 == DigitsValue(dy)
    ensures Position(s).value.2 == DigitsValue(dz)
  {
    match DigitPrefix(s)
    case None => assert false;
    case Some((x, r1)) =>
      dx := DigitPrefixSound(s);
      match Coordinate(r1)
      case None => assert false;
      case Some((y, r2)) =>
        w2, dy := CoordinateSound(r1);
        match Coordinate(r2)
        case None => assert false;
        case Some((z, r3)) =>
          w3, dz := CoordinateSound(r2);
          assert Position(s) == if |r3| == 0 || r3[0] != ')' then None else Some((x, y, z, r3[1..]));
          var rest := Position(s).value.3;
          assert |r3| > 0 && r3[0] == ')' && rest == r3[1..];
          FirstCharSplit(r3, ')');
          assert r2 == "," + (w3 + (dz + r3));
          assert r1 == "," + (w2 + (dy + r2));
          assert s == dx + r1;
  }

  /** The leading `(\d+)\s+\(` of an accepted command. */
  lemma AnnotateHeadSound(text: string) returns (d: string, w1: string, p: string)
    requires ParseAnnotate(text).Some?
    ensures DigitRun(d) && |w1| > 0 && AllSpaces(w1) && text == d + (w1 + ("(" + p))
    ensures AfterParen(DigitsValue(d), p).Some?
  {
    match DigitPrefix(text)
    case None => assert false;
    case Some((n, r1)) =>
      d := DigitPrefixSound(text);
      var r2 := SkipSpaces(r1);
      assert ParseAnnotate(text) ==
        if |r2| == |r1| || |r2| == 0 || r2[0] != '(' then None else AfterParen(n, r2[1..]);
      w1 := r1[..|r1| - |r2|];
      SuffixSplit(r1, r2);
      p := r2[1..];
      FirstCharSplit(r2, '(');
  }

  /** An accepted command is a match of the pattern, and every group comes
      from that match. */
  lemma ParseAnnotateSound(text: string)
    ensures ParseAnnotate(text).Some? ==>
      exists m :: AnnotateShape(text, m) && ParseAnnotate(text) == Some(MatchValue(m))
  {
    if ParseAnnotate(text).Some? {
      var d, w1, p := AnnotateHeadSound(text);
      AnnotateHead(d, w1, p);
      var dx, w2, dy, w3, dz := PositionSound(p);
      var r3 := Position(p).value.3;
      var msg := TailMessage(r3).value;
      TailSound(r3);
      var w, rest :| TailShape(r3, w, msg, rest);
      var m := AnnotateMatch(d, w1, dx, w2, dy, w3, dz, w, msg, rest);
      assert AfterParen(DigitsValue(d), p) == Some(MatchValue(m));
      assert MatchTail(m) == r3;
      assert AnnotateShape(text, m);
    }
  }

  /** `str(i)` for any integer. */
  function IntToString(i: int): (s: string)
    ensures |s| > 0
    ensures i >= 0 ==> s == NatToString(i)
    ensures i < 0 ==> s[0] == '-'
  {
    if i < 0 then "-" + NatToString(-i) else NatToString(i)
  }

  /** A rendered coordinate, non-negative or not. */
  lemma IntPrefixOf(v: int, rest: string)
    requires |rest| == 0 || !IsDigit(rest[0])
    ensures DigitPrefix(IntToString(v) + rest) == if v >= 0 then Some((v, rest)) else None
  {
    if v >= 0 {
      NatPrefixOf(v, rest);
    } else {
      assert (IntToString(v) + rest)[0] == '-';
    }
  }

  lemma CoordinateOf(v: int, rest: string)
    requires |rest| == 0 || !IsDigit(rest[0])
    ensures Coordinate(", " + (IntToString(v) + rest)) == if v >= 0 then Some((v, rest)) else None
  {
    var t := IntToString(v) + rest;
    var s := ", " + t;
    assert s[0] == ',' && s[1..] == " " + t;
    assert t[0] == IntToString(v)[0];
    SkipSpacesOf(" ", t);
    IntPrefixOf(v, rest);
  }

  lemma PositionOf(x: int, y: int, z: int, rest: string)
    ensures var s := IntToString(x) + (", " + (IntToString(y) + (", " + (IntToString(z) + (")" + rest)))));
      && (x >= 0 && y >= 0 && z >= 0 ==> Position(s) == Some((x as nat, y as nat, z as nat, rest)))
      && (x < 0 || y < 0 || z < 0 ==> Position(s).None?)
  {
    var sz := IntToString(z) + (")" + rest);
    var sy := IntToString(y) + (", " + sz);
    IntPrefixOf(x, ", " + sy);
    if x >= 0 {
      CoordinateOf(y, ", " + sz);
      if y >= 0 {
        CoordinateOf(z, ")" + rest);
        assert (")" + rest)[1..] == rest;
      }
    }
  }

  /** The command as the help text spells it. */
  function RenderAnnotate(n: nat, x: int, y: int, z: int, msg: string): string {
    NatToString(n) + (" (" + (IntToString(x) + (", " + (IntToString(y) + (", " +
      (IntToString(z) + (")" + (" " + msg))))))))
  }

  /** After `<segid> (` only the position and the message remain to parse. */
  lemma AnnotateAfterParen(n: nat, sx: string)
    ensures ParseAnnotate(NatToString(n) + (" (" + sx)) == AfterParen(n, sx)
  {
    var r1 := " (" + sx;
    assert r1[0] == ' ';
    NatPrefixOf(n, r1);
    assert r1 == " " + ("(" + sx);
    assert !IsSpace('(');
    SkipSpacesOf(" ", "(" + sx);
    assert ("(" + sx)[1..] == sx;
  }

  /** A rendered command is accepted iff all three coordinates are
      non-negative, and then every group comes back. */
  lemma AnnotateRoundTrip(n: nat, x: int, y: int, z: int, msg: string)
    requires |msg| > 0 && NoNewline(msg) && !IsSpace(msg[0])
    ensures x >= 0 && y >= 0 && z >= 0 ==>
      ParseAnnotate(RenderAnnotate(n, x, y, z, msg)) == Some(Annotation(n, x, y, z, msg))
    ensures x < 0 || y < 0 || z < 0 ==> ParseAnnotate(RenderAnnotate(n, x, y, z, msg)).None?
  {
    var sx := IntToString(x) + (", " + (IntToString(y) + (", " + (IntToString(z) + (")" + (" " + msg))))));
    assert RenderAnnotate(n, x, y, z, msg) == NatToString(n) + (" (" + sx);
    AnnotateAfterParen(n, sx);
    PositionOf(x, y, z, " " + msg);
    TailOf(" ", msg);
  }

  // ---------------------------------------------------------------------
  // The segment-ID field of a proposal and the button-click lookup

  const SegidFieldPrefix: string := "*Segment ID:*\n"

  /** The `*Segment ID:*\n<segid>` field of a proposal message. */
  function RenderSegidField(n: nat): string { SegidFieldPrefix + NatToString(n) }

  /** The segment id when the field prefix and a digit start `text`. */
  function FieldAt(text: string): (r: Option<nat>)
    ensures r.Some? ==> |text| > |SegidFieldPrefix| && text[..|SegidFieldPrefix|] == SegidFieldPrefix
  {
    var p := |SegidFieldPrefix|;
    if |text| > p && text[..p] == SegidFieldPrefix && IsDigit(text[p]) then
      Some(DigitPrefix(text[p..]).value.0)
    else None
  }

  /** `int(re.findall('\*Segment ID:\*\n(\d+)', text)[0])`: the digit run
      after the leftmost occurrence of the prefix that a digit follows;
      `None` where the index raises `IndexError`. */
  function ExtractSegid(text: string): (r: Option<nat>)
    decreases |text|
  {
    if |text| <= |SegidFieldPrefix| then None
    else if FieldAt(text).Some? then FieldAt(text)
    else ExtractSegid(text[1..])
  }

  /** `findall(...)[0]` is the match at the leftmost position where the
      field prefix followed by a digit occurs; there is none iff no position
      has one. */
  lemma {:induction false} ExtractSegidLeftmost(text: string)
    ensures ExtractSegid(text).Some? <==> exists i | 0 <= i < |text| :: FieldAt(text[i..]).Some?
    ensures ExtractSegid(text).Some? ==> exists i | 0 <= i < |text| ::
      && ExtractSegid(text) == FieldAt(text[i..])
      && forall j | 0 <= j < i :: FieldAt(text[j..]).None?
    decreases |text|
  {
    if |text| <= |SegidFieldPrefix| {
      forall i | 0 <= i < |text| ensures FieldAt(text[i..]).None? { }
    } else if FieldAt(text).Some? {
      assert text[0..] == text;
    } else {
      var t := text[1..];
      ExtractSegidLeftmost(t);
      assert forall i | 0 <= i < |t| :: t[i..] == text[i + 1..];
      assert text[0..] == text;
      if ExtractSegid(t).Some? {
        var i :| 0 <= i < |t| && ExtractSegid(t) == FieldAt(t[i..])
          && forall j | 0 <= j < i :: FieldAt(t[j..]).None?;
        assert ExtractSegid(text) == FieldAt(text[i + 1..]);
        forall j | 0 <= j < i + 1 ensures FieldAt(text[j..]).None? {
          if j > 0 { assert text[j..] == t[j - 1..]; }
        }
      } else {
        forall i | 0 <= i < |text| ensures FieldAt(text[i..]).None? {
          if i > 0 { assert text[i..] == t[i - 1..]; }
        }
      }
    }
  }

  lemma FieldAtRendered(n: nat, rest: string)
    requires |rest| == 0 || !IsDigit(rest[0])
    ensures FieldAt(SegidFieldPrefix + (NatToString(n) + rest)) == Some(n)
  {
    var d := NatToString(n);
    var s := SegidFieldPrefix + (d + rest);
    var p := |SegidFieldPrefix|;
    assert s[..p] == SegidFieldPrefix;
    assert s[p..] == d + rest;
    assert s[p] == d[0];
    NatPrefixOf(n, rest);
  }

  /** A segment id written into the field is read back from it. */
  lemma SegidFieldRoundTrip(n: nat)
    ensures ExtractSegid(RenderSegidField(n)) == Some(n)
  {
    FieldAtRendered(n, "");
    assert NatToString(n) + "" == NatToString(n);
  }

  /** A message of the channel history: its timestamp and the text of the
      first field of its second block, `None` when a key or index is
      missing. Slack's `ts` is a string such as `"1700000000.000200"` that
      the handler sorts by `float(ts)`; here it is an ordered key standing
      for that value. */
  datatype Message = Message(ts: int, fieldText: Option<string>)

  /** Position of the first message with the smallest timestamp, which
      the stable sort puts first. */
  function EarliestIndex(msgs: seq<Message>): (i: nat)
    requires |msgs| > 0
    ensures i < |msgs|
    ensures forall j | 0 <= j < |msgs| :: msgs[i].ts <= msgs[j].ts
    ensures forall j | 0 <= j < i :: msgs[j].ts > msgs[i].ts
  {
    if |msgs| == 1 then 0
    else
      var j := EarliestIndex(msgs[..|msgs| - 1]);
      if msgs[|msgs| - 1].ts < msgs[j].ts then |msgs| - 1 else j
  }

  /** `slack_find_segid_from_button_click` given the (at most two) messages
      the history call returned: the segment id in the earliest one, or
      `None` where a `KeyError` or `IndexError` is caught. */
  function FindSegidFromButtonClick(msgs: seq<Message>): (r: Option<nat>)
    ensures r.Some? <==>
      && |msgs| > 0 && msgs[EarliestIndex(msgs)].fieldText.Some?
      && var t := msgs[EarliestIndex(msgs)].fieldText.value;
         exists i | 0 <= i < |t| :: FieldAt(t[i..]).Some?
    ensures r.Some? ==>
      var t := msgs[EarliestIndex(msgs)].fieldText.value;
      exists i | 0 <= i < |t| :: r == FieldAt(t[i..]) && forall j | 0 <= j < i :: FieldAt(t[j..]).None?
  {
    if |msgs| == 0 then None
    else
      match msgs[EarliestIndex(msgs)].fieldText
      case None => None
      case Some(t) =>
        ExtractSegidLeftmost(t);
        ExtractSegid(t)
  }

  /** The proposal with its segment field and the later button message,
      returned in either order, lead back to the proposed segment. */
  lemma ButtonClickRoundTrip(n: nat, tProposal: int, tButtons: int, buttonsField: Option<string>,
                             proposalFirst: bool)
    requires tProposal < tButtons
    ensures var p := Message(tProposal, Some(RenderSegidField(n)));
      var b := Message(tButtons, buttonsField);
      FindSegidFromButtonClick(if proposalFirst then [p, b] else [b, p]) == Some(n)
  {
    SegidFieldRoundTrip(n);
  }

  /** With no messages, or none carrying the field, there is no segment. */
  lemma ButtonClickMissingField(msgs: seq<Message>)
    requires forall i | 0 <= i < |msgs| :: msgs[i].fieldText.None?
    ensures FindSegidFromButtonClick(msgs) == None
  {
  }

  // ---------------------------------------------------------------------
  // The earlier bot: arguments split on whitespace

  /** `/mark`: at least two tokens; the first is the segment id, the rest
      are reported joined by " and ". */
  function SlackMark(text: string): (r: Option<(string, string)>)
    ensures r.None? <==> |Split(text)| < 2
    ensures r.Some? ==> IsToken(r.value.0) && r.value.0 == Split(text)[0]
  {
    var args := Split(text);
    if |args| < 2 then None else Some((args[0], Join(" and ", args[1..])))
  }

  /** `/annotate`: at least two tokens; the message is the rest joined by
      single spaces. */
  function SlackAnnotate(text: string): (r: Option<(string, string)>)
    ensures r.None? <==> |Split(text)| < 2
    ensures r.Some? ==> IsToken(r.value.0) && r.value.0 == Split(text)[0]
  {
    var args := Split(text);
    if |args| < 2 then None else Some((args[0], Join(" ", args[1..])))
  }

  lemma JoinCons(sep: string, first: string, rest: seq<string>)
    requires |rest| > 0
    ensures Join(sep, [first] + rest) == first + sep + Join(sep, rest)
  {
    assert ([first] + rest)[1..] == rest;
  }

  /** A segment id and its statuses, separated by single spaces, come back
      as the id and the statuses joined by " and ". */
  lemma SlackMarkRoundTrip(segid: string, states: seq<string>)
    requires IsToken(segid) && |states| > 0
    requires forall i | 0 <= i < |states| :: IsToken(states[i])
    ensures SlackMark(Join(" ", [segid] + states)) == Some((segid, Join(" and ", states)))
  {
    var toks := [segid] + states;
    assert forall i | 0 <= i < |toks| :: IsToken(toks[i]);
    SplitJoin(toks);
    assert toks[1..] == states;
  }

  /** Only the words matter: any text and its words joined by single
      spaces give the same `/mark` and `/annotate` results. */
  lemma SlackNormalises(text: string)
    ensures SlackMark(Join(" ", Split(text))) == SlackMark(text)
    ensures SlackAnnotate(Join(" ", Split(text))) == SlackAnnotate(text)
  {
    SplitJoin(Split(text));
  }

  /** The annotation message has its whitespace runs collapsed to single
      spaces: its tokens are the command's, and sending the normalised
      command again gives the same message. */
  lemma SlackAnnotateNormalises(text: string)
    requires SlackAnnotate(text).Some?
    ensures var (segid, msg) := SlackAnnotate(text).value;
      && Split(msg) == Split(text)[1..]
      && SlackAnnotate(segid + " " + msg) == Some((segid, msg))
  {
    var args := Split(text);
    var (segid, msg) := SlackAnnotate(text).value;
    SplitJoin(args[1..]);
    assert [args[0]] + args[1..] == args;
    JoinCons(" ", args[0], args[1..]);
    SplitJoin(args);
  }

  // ---------------------------------------------------------------------
  // `/get [keyword]`

  /** The five priority tables of the serving pool. */
  datatype PoolTable =
    | OrphanedSomaTable
    | MultipleSomaTable
    | ProblematicAnTable
    | ProblematicMnTable
    | UnbalancedInTable

  /** The pool's key for each table. */
  function TableName(t: PoolTable): string {
    match t
    case OrphanedSomaTable => "orphaned_soma_table"
    case MultipleSomaTable => "multiple_soma_table"
    case ProblematicAnTable => "problematic_an_table"
    case ProblematicMnTable => "problematic_mn_table"
    case UnbalancedInTable => "unbalanced_in_table"
  }

  /** The `/get` keyword of each table. */
  function Keyword(t: PoolTable): string {
    match t
    case OrphanedSomaTable => "soma"
    case MultipleSomaTable => "somas"
    case ProblematicAnTable => "an"
    case ProblematicMnTable => "mn"
    case UnbalancedInTable => "in"
  }

  /** The `get_subcommands` dictionary. */
  function Subcommand(kw: string): (r: Option<PoolTable>)
    ensures r.Some? ==> Keyword(r.value) == kw
  {
    if kw == "soma" then Some(OrphanedSomaTable)
    else if kw == "somas" then Some(MultipleSomaTable)
    else if kw == "an" then Some(ProblematicAnTable)
    else if kw == "mn" then Some(ProblematicMnTable)
    else if kw == "in" then Some(UnbalancedInTable)
    else None
  }

  /** Every table has exactly one keyword. */
  lemma SubcommandKeyword(kw: string, t: PoolTable)
    ensures Subcommand(kw) == Some(t) <==> kw == Keyword(t)
  {
  }

  /** `/get`: no argument means any table; the first token is looked up and
      an unknown keyword raises `KeyError`. */
  function ParseGet(text: string): (r: Result<Option<PoolTable>>)
    ensures r == Ok(None) <==> |Split(text)| == 0
    ensures r.Err? ==> r.error == KeyError && Subcommand(Split(text)[0]).None?
    ensures r.Ok? && r.value.Some? ==> Keyword(r.value.value) == Split(text)[0]
  {
    var args := Split(text);
    if |args| == 0 then Ok(None)
    else
      match Subcommand(args[0])
      case None => Err(KeyError)
      case Some(t) => Ok(Some(t))
  }

  /** `/get <keyword> ...` selects the keyword's table. */
  lemma ParseGetKeyword(t: PoolTable, rest: string)
    requires |rest| == 0 || IsSpace(rest[0])
    ensures ParseGet(Keyword(t) + rest) == Ok(Some(t))
  {
    SplitAfterToken(Keyword(t), rest);
    SubcommandKeyword(Keyword(t), t);
  }
}

=== FILE: dump.dfy ===
/** The first-generation dump store (`fancpq._old_upstream_api.dump`).

    Dumps live in directories `dump_<ts>` of a base directory, modelled as a
    map from directory name to the names of the files present. The code
    keys every directory whose name starts with `dump_` by `int()` of the
    name with each `dump_` removed, so names that do not parse raise
    ValueError and names that parse to the same number (`dump_7`,
    `dump_07`) collide. A dump is valid once both markers exist:
    `connectivity_table_ok`, touched after the node and edge files, and
    `soma_table_ok`, touched after the soma table. The order in which the
    directory listing yields the names, the clock, the dump listing and the
    CAVE client are parameters.
 */
module Dump {
  import opened Wrappers
  import opened Tables
  import Text

  const Tag: string := "dump_"
  const ConnectivityOk: string := "connectivity_table_ok"
  const SomaOk: string := "soma_table_ok"
  const NodesFile: string := "bc_nodes.parquet"
  const EdgesFile: string := "bc_edges.parquet"
  const SomaFile: string := "soma.parquet"

  /** Directory name -> files of that directory. */
  type Store = map<string, set<string>>

  /** Matched by the pattern `dump_*`. */
  predicate IsDumpName(n: string) { |n| >= 5 && n[..5] == Tag }

  /** `n.replace('dump_', '')`: every occurrence of the tag is removed,
      scanning from the left and resuming after each removal. */
  function Untag(n: string): (r: string)
    ensures |r| <= |n|
    decreases |n|
  {
    if |n| < 5 then n
    else if n[..5] == Tag then Untag(n[5..])
    else [n[0]] + Untag(n[1..])
  }

  /** The number a dump directory is sorted and keyed by. */
  function Key(n: string): (r: Result<int>)
    ensures r.Ok? <==> Text.IntLiteral(Text.Strip(Untag(n)))
    ensures r.Err? ==> r.error == ValueError
  {
    Text.PyInt(Untag(n))
  }

  /** `f'dump_{mat_timestamp}'`. */
  function DirName(ts: nat): (n: string)
    ensures IsDumpName(n) && n[5..] == Text.NatToString(ts)
  {
    Tag + Text.NatToString(ts)
  }

  /** A name without underscores holds no tag to remove. */
  lemma {:induction false} UntagPlain(n: string)
    requires forall i | 0 <= i < |n| :: n[i] != '_'
    ensures Untag(n) == n
    decreases |n|
  {
    if |n| >= 5 {
      assert n[..5] != Tag by { assert n[..5][4] == n[4]; }
      UntagPlain(n[1..]);
      assert [n[0]] + n[1..] == n;
    }
  }

  /** A dump name with a plain decimal after the tag is keyed by its
      value, leading zeros or not. */
  lemma KeyOfDigits(d: string)
    requires |d| > 0 && Text.AllDigits(d)
    ensures Key(Tag + d) == Ok(Text.DigitsValue(d) as int)
  {
    var n := Tag + d;
    assert n[..5] == Tag && n[5..] == d;
    UntagPlain(d);
    Text.PyIntUnsigned("", d, "");
    assert "" + (d + "") == d;
  }

  /** The directory a download creates is keyed by its timestamp. */
  lemma KeyOfDirName(ts: nat)
    ensures Key(DirName(ts)) == Ok(ts)
  {
    KeyOfDigits(Text.NatToString(ts));
    Text.NatToStringRoundTrip(ts);
  }

  /** Sorting evaluates the key of every dump directory; one that does not
      parse raises ValueError. */
  predicate AllParse(s: Store) { forall n | n in s && IsDumpName(n) :: Key(n).Ok? }

  /** `order` is the listing `glob('dump_*')` yields for `s`. */
  predicate GlobOrder(s: Store, order: seq<string>) {
    && (forall i | 0 <= i < |order| :: order[i] in s && IsDumpName(order[i]))
    && (forall n | n in s && IsDumpName(n) :: n in order)
  }

  /** The last position of `keys` holding `Ok(k)`. */
  function LastWith(keys: seq<Result<int>>, k: int): (r: Option<nat>)
    ensures r.None? <==> forall i | 0 <= i < |keys| :: keys[i] != Ok(k)
    ensures r.Some? ==> && r.value < |keys| && keys[r.value] == Ok(k)
                        && forall j | r.value < j < |keys| :: keys[j] != Ok(k)
    decreases |keys|
  {
    if keys == [] then None
    else if keys[|keys| - 1] == Ok(k) then Some(|keys| - 1)
    else LastWith(keys[..|keys| - 1], k)
  }

  function KeysOf(order: seq<string>): (r: seq<Result<int>>)
    ensures |r| == |order| && forall i | 0 <= i < |order| :: r[i] == Key(order[i])
  {
    seq(|order|, i requires 0 <= i < |order| => Key(order[i]))
  }

  /** The directory the dictionary keeps for key `k`. The descending sort
      is stable, so names with equal keys keep their listing order, and the
      dictionary comprehension keeps the last one assigned. */
  function Winner(order: seq<string>, k: int): (r: Option<string>)
    ensures r.None? <==> forall i | 0 <= i < |order| :: Key(order[i]) != Ok(k)
    ensures r.Some? ==> exists i | 0 <= i < |order| ::
      && order[i] == r.value && Key(order[i]) == Ok(k)
      && forall j | i < j < |order| :: Key(order[j]) != Ok(k)
  {
    match LastWith(KeysOf(order), k)
    case None => None
    case Some(i) => Some(order[i])
  }

  /** A directory the code sees: a dump directory that wins its key. Any
      other dump directory with the same key is never checked and never
      removed. */
  predicate Listed(s: Store, order: seq<string>, n: string) {
    n in s && IsDumpName(n) && Key(n).Ok? && Winner(order, Key(n).value) == Some(n)
  }

  predicate Valid(files: set<string>) { ConnectivityOk in files && SomaOk in files }

  /** Each marker vouches for the files written before it. */
  predicate MarkersSound(files: set<string>) {
    && (ConnectivityOk in files ==> NodesFile in files && EdgesFile in files)
    && (SomaOk in files ==> SomaFile in files)
  }

  predicate AllSound(s: Store) { forall n | n in s :: MarkersSound(s[n]) }

  /** A directory that `valid_dump_dirs` keeps. */
  predicate ValidListed(s: Store, order: seq<string>, n: string) {
    Listed(s, order, n) && Valid(s[n])
  }

  /** The position of a greatest present entry among the first `n`. */
  function ArgMax(xs: seq<Option<int>>, n: nat): (r: Option<nat>)
    requires n <= |xs|
    ensures r.None? <==> forall i | 0 <= i < n :: xs[i].None?
    ensures r.Some? ==>
      && r.value < n && xs[r.value].Some?
      && forall i | 0 <= i < n && xs[i].Some? :: xs[i].value <= xs[r.value].value
  {
    if n == 0 then None
    else
      var b := ArgMax(xs, n - 1);
      if xs[n - 1].None? then b
      else if b.None? || xs[b.value].value < xs[n - 1].value then Some(n - 1)
      else b
  }

  /** The key of each listed name that `valid_dump_dirs` keeps. */
  function Candidates(s: Store, order: seq<string>): (r: seq<Option<int>>)
    ensures |r| == |order|
    ensures forall i | 0 <= i < |order| ::
      r[i] == (if ValidListed(s, order, order[i]) then Some(Key(order[i]).value) else None)
  {
    seq(|order|, i requires 0 <= i < |order| =>
      if ValidListed(s, order, order[i]) then Some(Key(order[i]).value) else None)
  }

  /** `find_latest_valid_dump`: the key and directory of the first entry of
      `valid_dump_dirs`. Its keys were inserted in descending order, so the
      first is the greatest valid key. `None` when the base directory is
      missing or no listed directory is valid. */
  function FindLatestValidDump(base: Option<Store>, order: seq<string>): (r: Result<Option<(int, string)>>)
    requires base.Some? ==> GlobOrder(base.value, order)
    ensures base.None? ==> r == Ok(None)
    ensures base.Some? ==> (r.Err? <==> !AllParse(base.value))
    ensures r.Err? ==> r.error == ValueError
    ensures r == Ok(None) <==>
      || base.None?
      || (AllParse(base.value) && forall n | n in base.value :: !ValidListed(base.value, order, n))
    ensures r.Ok? && r.value.Some? ==>
      var s, k, n := base.value, r.value.value.0, r.value.value.1;
      && ValidListed(s, order, n) && Key(n) == Ok(k)
      && forall m | ValidListed(s, order, m) :: Key(m).value <= k
  {
    if base.None? then Ok(None)
    else if !AllParse(base.value) then Err(ValueError)
    else Ok(Latest(base.value, order))
  }

  /** The greatest kept key and its directory. */
  function Latest(s: Store, order: seq<string>): (r: Option<(int, string)>)
    requires GlobOrder(s, order)
    ensures r.None? <==> forall n | n in s :: !ValidListed(s, order, n)
    ensures r.Some? ==>
      && ValidListed(s, order, r.value.1) && Key(r.value.1) == Ok(r.value.0)
      && forall m | ValidListed(s, order, m) :: Key(m).value <= r.value.0
  {
    var c := Candidates(s, order);
    assert forall m | ValidListed(s, order, m) :: m in order;
    match ArgMax(c, |c|)
    case None => None
    case Some(b) =>
      assert forall m | ValidListed(s, order, m) :: Key(m).value <= c[b].value by {
        forall m | ValidListed(s, order, m) ensures Key(m).value <= c[b].value {
          var i :| 0 <= i < |order| && order[i] == m;
          assert c[i] == Some(Key(m).value);
        }
      }
      Some((c[b].value, order[b]))
  }

  /** The latest valid key, when every name parses. */
  function LatestKey(s: Store, order: seq<string>): Option<int>
    requires GlobOrder(s, order)
  {
    match FindLatestValidDump(Some(s), order)
    case Ok(Some(p)) => Some(p.0)
    case _ => None
  }

  /** The refresh condition: no valid dump, a latest timestamp of 0 (falsy),
      or a latest dump older than the interval. */
  predicate NeedsRefresh(latest: Option<int>, now: int, interval: int) {
    latest.None? || latest.value == 0 || latest.value + interval < now
  }

  datatype Listing = Listing(status: int, lastMaterialized: nat)

  /** `download_connectivity_table_dump`: skipped when the marker exists;
      otherwise both files are written, then the marker. */
  function DownloadConnectivity(s: Store, listing: Listing): (r: Result<Store>)
    ensures r.Err? <==> listing.status != 200
    ensures r.Err? ==> r.error == RuntimeError
    ensures r.Ok? ==> var d := DirName(listing.lastMaterialized);
      && r.value.Keys == s.Keys + {d}
      && (forall n | n in s && n != d :: r.value[n] == s[n])
      && ConnectivityOk in r.value[d]
      && (d in s ==> s[d] <= r.value[d])
      && (d in s && ConnectivityOk in s[d] ==> r.value == s)
      && r.value[d] - (if d in s then s[d] else {}) <= {NodesFile, EdgesFile, ConnectivityOk}
    ensures r.Ok? && AllSound(s) ==> AllSound(r.value)
  {
    if listing.status != 200 then Err(RuntimeError)
    else
      var d := DirName(listing.lastMaterialized);
      if d in s && ConnectivityOk in s[d] then Ok(s)
      else
        var before := if d in s then s[d] else {};
        Ok(s[d := before + {NodesFile, EdgesFile, ConnectivityOk}])
  }

  /** `download_soma_table_dump`: skipped when the marker exists; otherwise
      the table is written, then the marker. The directory must exist. */
  function DownloadSoma(s: Store, ts: nat): (r: Store)
    requires DirName(ts) in s
    ensures var d := DirName(ts);
      && r.Keys == s.Keys && (forall n | n in s && n != d :: r[n] == s[n])
      && SomaOk in r[d] && s[d] <= r[d]
      && (SomaOk in s[d] ==> r == s)
      && r[d] - s[d] <= {SomaFile, SomaOk}
    ensures AllSound(s) ==> AllSound(r)
  {
    var d := DirName(ts);
    if SomaOk in s[d] then s else s[d := s[d] + {SomaFile, SomaOk}]
  }

  /** Deleted by the removal loop: a directory of `all_dump_dirs`, built
      before the download, whose key is not the new timestamp. */
  predicate Expired(s: Store, order: seq<string>, ts: nat, n: string) {
    Listed(s, order, n) && Key(n).value != ts
  }

  /** What a refresh to version `ts` leaves behind: its directory, with the
      connectivity marker and, unless `ts` already was the latest valid key,
      the soma marker; and every directory the removal loop spared, with
      its files unchanged. */
  predicate Refreshed(s: Store, order: seq<string>, ts: nat, latest: Option<int>, t: Store) {
    var d := DirName(ts);
    && d in t && ConnectivityOk in t[d]
    && (forall n | n in t :: n == d || (n in s && !Expired(s, order, ts, n)))
    && (forall n | n in s && n != d && !Expired(s, order, ts, n) :: n in t && t[n] == s[n])
    && (latest != Some(ts) ==> Valid(t[d]))
    && (d in s ==> s[d] <= t[d] && (Valid(s[d]) ==> t[d] == s[d]))
    && t[d] - (if d in s then s[d] else {}) <= {NodesFile, EdgesFile, ConnectivityOk, SomaFile, SomaOk}
    && (latest == Some(ts) ==> t[d] - (if d in s then s[d] else {}) <= {NodesFile, EdgesFile, ConnectivityOk})
  }

  /** `get_new_dump`. Every dump name must parse. When a refresh is due the
      connectivity dump is fetched, the soma table too when the timestamp is
      not the latest valid key, and every listed directory with another key
      is deleted. */
  function GetNewDump(s: Store, order: seq<string>, now: int, interval: int, listing: Listing): (r: Result<Store>)
    requires GlobOrder(s, order)
    ensures !AllParse(s) ==> r == Err(ValueError)
    ensures AllParse(s) && !NeedsRefresh(LatestKey(s, order), now, interval) ==> r == Ok(s)
    ensures AllParse(s) && NeedsRefresh(LatestKey(s, order), now, interval) ==>
      && (r.Err? <==> listing.status != 200)
      && (r.Err? ==> r.error == RuntimeError)
      && (r.Ok? ==> Refreshed(s, order, listing.lastMaterialized, LatestKey(s, order), r.value))
    ensures r.Ok? && AllSound(s) ==> AllSound(r.value)
  {
    if !AllParse(s) then Err(ValueError)
    else
      var latest := LatestKey(s, order);
      if !NeedsRefresh(latest, now, interval) then Ok(s)
      else Refresh(s, order, latest, listing)
  }

  /** The refresh branch of `get_new_dump`, given the latest valid key. */
  function Refresh(s: Store, order: seq<string>, latest: Option<int>, listing: Listing): (r: Result<Store>)
    ensures r.Err? <==> listing.status != 200
    ensures r.Err? ==> r.error == RuntimeError
    ensures r.Ok? ==> Refreshed(s, order, listing.lastMaterialized, latest, r.value)
    ensures r.Ok? && AllSound(s) ==> AllSound(r.value)
  {
    match Fetch(s, latest, listing)
    case Err(e) => Err(e)
    case Ok(s2) =>
      KeyOfDirName(listing.lastMaterialized);
      Ok(RemoveExpired(s2, s, order, listing.lastMaterialized))
  }

  /** The two downloads of a refresh: the connectivity dump, then the soma
      table unless the listed version is the latest valid key. */
  function Fetch(s: Store, latest: Option<int>, listing: Listing): (r: Result<Store>)
    ensures r.Err? <==> listing.status != 200
    ensures r.Err? ==> r.error == RuntimeError
    ensures r.Ok? ==> var ts := listing.lastMaterialized; var d := DirName(ts);
      && r.value.Keys == s.Keys + {d}
      && (forall n | n in s && n != d :: r.value[n] == s[n])
      && ConnectivityOk in r.value[d]
      && (latest != Some(ts) ==> Valid(r.value[d]))
      && (d in s ==> s[d] <= r.value[d] && (Valid(s[d]) ==> r.value[d] == s[d]))
      && r.value[d] - (if d in s then s[d] else {})
           <= {NodesFile, EdgesFile, ConnectivityOk, SomaFile, SomaOk}
      && (latest == Some(ts) ==>
            r.value[d] - (if d in s then s[d] else {}) <= {NodesFile, EdgesFile, ConnectivityOk})
    ensures r.Ok? && AllSound(s) ==> AllSound(r.value)
  {
    match DownloadConnectivity(s, listing)
    case Err(e) => Err(e)
    case Ok(s1) =>
      var ts := listing.lastMaterialized;
      Ok(if latest != Some(ts) then DownloadSoma(s1, ts) else s1)
  }

  /** The removal loop over the directories listed before the download. */
  function RemoveExpired(t: Store, s: Store, order: seq<string>, ts: nat): (r: Store)
    ensures forall n | n in r :: n in t && !Expired(s, order, ts, n) && r[n] == t[n]
    ensures forall n | n in t && !Expired(s, order, ts, n) :: n in r
  {
    map n | n in t && !Expired(s, order, ts, n) :: t[n]
  }

  /** Refreshing when the listing names the latest valid dump again
      downloads nothing for it: its files are unchanged. */
  lemma RefreshSameTimestampKeepsFiles(s: Store, order: seq<string>, now: int, interval: int,
                                       listing: Listing)
    requires GlobOrder(s, order) && listing.status == 200
    requires FindLatestValidDump(Some(s), order)
      == Ok(Some((listing.lastMaterialized as int, DirName(listing.lastMaterialized))))
    ensures var r := GetNewDump(s, order, now, interval, listing);
      var d := DirName(listing.lastMaterialized);
      r.Ok? && d in r.value && r.value[d] == s[d]
  {
    var ts := listing.lastMaterialized;
    var d := DirName(ts);
    assert AllParse(s);
    assert LatestKey(s, order) == Some(ts);
    assert d in s && Valid(s[d]);
    var r := GetNewDump(s, order, now, interval, listing);
    if NeedsRefresh(Some(ts), now, interval) {
      assert Refreshed(s, order, ts, Some(ts), r.value);
    }
  }

  /** Names written as `DirName` of their own key: what the code itself
      creates. */
  predicate Canonical(s: Store) {
    forall n | n in s && IsDumpName(n) :: Key(n).Ok? && Key(n).value >= 0 && n == DirName(Key(n).value)
  }

  /** In a store of canonical names no two directories collide, so a
      refresh leaves exactly one dump directory, the listed version's, and
      it is valid and found as the latest. */
  lemma GetNewDumpCanonical(s: Store, order: seq<string>, now: int, interval: int, listing: Listing)
    requires GlobOrder(s, order) && Canonical(s) && listing.status == 200
    requires NeedsRefresh(LatestKey(s, order), now, interval)
    ensures var r := GetNewDump(s, order, now, interval, listing);
      var d := DirName(listing.lastMaterialized);
      && r.Ok?
      && (forall n | n in r.value && IsDumpName(n) :: n == d)
      && d in r.value && Valid(r.value[d])
      && forall o | GlobOrder(r.value, o) ::
           FindLatestValidDump(Some(r.value), o) == Ok(Some((listing.lastMaterialized as int, d)))
  {
    var ts := listing.lastMaterialized;
    var d := DirName(ts);
    KeyOfDirName(ts);
    assert AllParse(s);
    var t := GetNewDump(s, order, now, interval, listing).value;
    forall n | n in s && IsDumpName(n) && n != d ensures Expired(s, order, ts, n) {
      CanonicalListed(s, order, n);
      assert Key(n).value != ts;
    }
    forall n | n in t && IsDumpName(n) ensures n == d {
    }
    var latest := LatestKey(s, order);
    if latest == Some(ts) {
      var p := FindLatestValidDump(Some(s), order).value.value;
      assert p.1 == DirName(Key(p.1).value);
    }
    forall o | GlobOrder(t, o)
      ensures FindLatestValidDump(Some(t), o) == Ok(Some((ts as int, d)))
    {
      OnlyDumpIsLatest(t, o, ts);
    }
  }

  /** In a canonical store every dump directory wins its key. */
  lemma CanonicalListed(s: Store, order: seq<string>, n: string)
    requires GlobOrder(s, order) && Canonical(s)
    requires n in s && IsDumpName(n)
    ensures Listed(s, order, n)
  {
    var k := Key(n).value;
    var i :| 0 <= i < |order| && order[i] == n;
    var w := Winner(order, k).value;
    var j :| 0 <= j < |order| && order[j] == w && Key(order[j]) == Ok(k);
    assert w == DirName(Key(w).value);
  }

  /** A store whose only dump directory is the valid `DirName(ts)` has
      `ts` as its latest dump. */
  lemma OnlyDumpIsLatest(t: Store, o: seq<string>, ts: nat)
    requires GlobOrder(t, o)
    requires forall n | n in t && IsDumpName(n) :: n == DirName(ts)
    requires DirName(ts) in t && Valid(t[DirName(ts)])
    ensures FindLatestValidDump(Some(t), o) == Ok(Some((ts as int, DirName(ts))))
  {
    var d := DirName(ts);
    KeyOfDirName(ts);
    assert AllParse(t);
    var i :| 0 <= i < |o| && o[i] == d;
    assert Winner(o, ts).Some?;
    assert Listed(t, o, d);
    var r := FindLatestValidDump(Some(t), o);
    assert r.Ok? && r != Ok(None);
    assert r.value.value.1 == d;
  }

  /** The latest dump is the kept directory with the greatest key. */
  lemma LatestIs(s: Store, order: seq<string>, n: string, k: int)
    requires GlobOrder(s, order) && AllParse(s)
    requires ValidListed(s, order, n) && Key(n) == Ok(k)
    requires forall m | m in s && ValidListed(s, order, m) :: Key(m).value <= k
    ensures FindLatestValidDump(Some(s), order) == Ok(Some((k, n)))
    ensures LatestKey(s, order) == Some(k)
  {
    LatestOf(s, order, n, k);
  }

  lemma LatestOf(s: Store, order: seq<string>, n: string, k: int)
    requires GlobOrder(s, order)
    requires ValidListed(s, order, n) && Key(n) == Ok(k)
    requires forall m | m in s && ValidListed(s, order, m) :: Key(m).value <= k
    ensures Latest(s, order) == Some((k, n))
  {
    var r := Latest(s, order);
    assert r.Some? by {
      assert n in s && ValidListed(s, order, n);
    }
    var m := r.value.1;
    assert Key(m).value <= k && k <= Key(m).value;
    SameKeySameWinner(s, order, m, n);
  }

  /** Two listed directories with the same key are the same directory. */
  lemma SameKeySameWinner(s: Store, order: seq<string>, m: string, n: string)
    requires Listed(s, order, m) && Listed(s, order, n) && Key(m) == Key(n)
    ensures m == n
  {
  }

  /** A dump directory whose name, untagged, is no number makes both entry
      points raise ValueError, whatever else the base directory holds. */
  lemma UnparsableDumpRaises(s: Store, order: seq<string>, q: string, i: nat, now: int,
                             interval: int, listing: Listing)
    requires GlobOrder(s, order) && Tag + q in s
    requires forall j | 0 <= j < |q| :: q[j] != '_'
    requires i < |q| && !Text.IsDigit(q[i])
    requires !Text.IsSpace(q[0]) && !Text.IsSpace(q[|q| - 1]) && q[0] != '+' && q[0] != '-'
    ensures FindLatestValidDump(Some(s), order) == Err(ValueError)
    ensures GetNewDump(s, order, now, interval, listing) == Err(ValueError)
  {
    var n := Tag + q;
    assert n[..5] == Tag && n[5..] == q;
    UntagPlain(q);
    Text.NotLiteral(q, i);
    assert IsDumpName(n) && Key(n).Err?;
  }

  /** A zero after the tag does not change the key. */
  lemma PaddedKey(d: string)
    requires |d| > 0 && Text.AllDigits(d)
    ensures Key(Tag + d) == Ok(Text.DigitsValue(d) as int)
    ensures Key(Tag + ("0" + d)) == Ok(Text.DigitsValue(d) as int)
  {
    Text.LeadingZero(d);
    KeyOfDigits(d);
    KeyOfDigits("0" + d);
  }

  /** A dump directory holding both markers and the files they vouch for. */
  const Complete: set<string> := {NodesFile, EdgesFile, ConnectivityOk, SomaFile, SomaOk}

  /** `dump_<d>` and `dump_0<d>` share a key. The later one in the listing
      wins, so the other is never looked at: a refresh to any other version
      deletes the winner and leaves the loser in place. */
  lemma CollidingDumpSurvives(d: string, now: int, interval: int, ts: nat)
    requires |d| > 0 && Text.AllDigits(d)
    requires ts != Text.DigitsValue(d) && NeedsRefresh(Some(Text.DigitsValue(d) as int), now, interval)
    ensures var a, b := Tag + d, Tag + ("0" + d);
      var s: Store := map[a := Complete, b := Complete];
      var r := GetNewDump(s, [a, b], now, interval, Listing(200, ts));
      && FindLatestValidDump(Some(s), [a, b]) == Ok(Some((Text.DigitsValue(d) as int, b)))
      && r.Ok? && a in r.value && r.value[a] == Complete && b !in r.value
  {
    var a, b := Tag + d, Tag + ("0" + d);
    PaddedKey(d);
    assert a != b by { assert |a| != |b|; }
    CollisionRefresh(a, b, Text.DigitsValue(d), now, interval, ts);
  }

  /** Two dump directories with one key, listed in the order `a`, `b`. */
  lemma CollisionRefresh(a: string, b: string, k: int, now: int, interval: int, ts: nat)
    requires IsDumpName(a) && IsDumpName(b) && a != b
    requires Key(a) == Ok(k) && Key(b) == Ok(k) && ts != k
    requires NeedsRefresh(Some(k), now, interval)
    ensures var s: Store := map[a := Complete, b := Complete];
      var r := GetNewDump(s, [a, b], now, interval, Listing(200, ts));
      && FindLatestValidDump(Some(s), [a, b]) == Ok(Some((k, b)))
      && r.Ok? && a in r.value && r.value[a] == Complete && b !in r.value
  {
    var s: Store := map[a := Complete, b := Complete];
    var order := [a, b];
    CollisionListing(s, order, a, b, k);
    LatestIs(s, order, b, k);
    RefreshKeepsLoser(s, order, a, b, k, now, interval, ts);
  }

  lemma RefreshKeepsLoser(s: Store, order: seq<string>, a: string, b: string, k: int,
                          now: int, interval: int, ts: nat)
    requires GlobOrder(s, order) && AllParse(s) && a in s && b in s
    requires !Listed(s, order, a) && Listed(s, order, b) && Key(a) == Ok(k) && Key(b) == Ok(k)
    requires ts != k && LatestKey(s, order) == Some(k) && NeedsRefresh(Some(k), now, interval)
    ensures var r := GetNewDump(s, order, now, interval, Listing(200, ts));
      r.Ok? && a in r.value && r.value[a] == s[a] && b !in r.value
  {
    KeyOfDirName(ts);
    var listing := Listing(200, ts);
    var r := Refresh(s, order, Some(k), listing);
    assert GetNewDump(s, order, now, interval, listing) == r;
    var t := r.value;
    assert Refreshed(s, order, ts, Some(k), t);
    var d := DirName(ts);
    assert a != d && b != d;
    assert !Expired(s, order, ts, a) && Expired(s, order, ts, b);
  }

  lemma CollisionListing(s: Store, order: seq<string>, a: string, b: string, k: int)
    requires IsDumpName(a) && IsDumpName(b) && a != b
    requires Key(a) == Ok(k) && Key(b) == Ok(k)
    requires s == map[a := Complete, b := Complete] && order == [a, b]
    ensures GlobOrder(s, order) && AllParse(s)
    ensures !Listed(s, order, a) && ValidListed(s, order, b)
    ensures forall m | m in s && ValidListed(s, order, m) :: Key(m).value <= k
  {
    PairParses(s, order, a, b, k);
    PairWinner(s, order, a, b, k);
  }

  lemma PairParses(s: Store, order: seq<string>, a: string, b: string, k: int)
    requires IsDumpName(a) && IsDumpName(b)
    requires Key(a) == Ok(k) && Key(b) == Ok(k)
    requires s == map[a := Complete, b := Complete] && order == [a, b]
    ensures GlobOrder(s, order) && AllParse(s)
    ensures forall m | m in s :: Key(m) == Ok(k)
  {
    assert forall m | m in s :: m == a || m == b;
  }

  lemma PairWinner(s: Store, order: seq<string>, a: string, b: string, k: int)
    requires a != b && IsDumpName(b)
    requires Key(a) == Ok(k) && Key(b) == Ok(k)
    requires s == map[a := Complete, b := Complete] && order == [a, b]
    ensures !Listed(s, order, a) && ValidListed(s, order, b)
  {
    var keys := KeysOf(order);
    assert keys[0] == Ok(k) && keys[1] == Ok(k);
    assert LastWith(keys, k) == Some(1);
  }

  /** A valid `dump_0<k>` makes `k` the latest key. A refresh to version
      `k` writes the connectivity files into a new `dump_<k>` but skips the
      soma table, the version being the latest already: `dump_<k>` is left
      without a soma marker beside the untouched `dump_0<k>`. */
  lemma OtherSpellingOfLatest(k: nat, now: int, interval: int)
    requires NeedsRefresh(Some(k as int), now, interval)
    ensures var a := Tag + ("0" + Text.NatToString(k));
      var r := GetNewDump(map[a := Complete], [a], now, interval, Listing(200, k));
      && r.Ok? && a in r.value && r.value[a] == Complete
      && DirName(k) in r.value && !Valid(r.value[DirName(k)])
  {
    var a := Tag + ("0" + Text.NatToString(k));
    PaddedKey(Text.NatToString(k));
    Text.NatToStringRoundTrip(k);
    KeyOfDirName(k);
    assert DirName(k) != a by { assert |DirName(k)| != |a|; }
    SpellingRefresh(a, k, now, interval);
  }

  /** One valid dump directory keyed `k` under a name other than
      `DirName(k)`. */
  lemma SpellingRefresh(a: string, k: nat, now: int, interval: int)
    requires IsDumpName(a) && Key(a) == Ok(k) && a != DirName(k)
    requires NeedsRefresh(Some(k as int), now, interval)
    ensures var r := GetNewDump(map[a := Complete], [a], now, interval, Listing(200, k));
      && r.Ok? && a in r.value && r.value[a] == Complete
      && DirName(k) in r.value && !Valid(r.value[DirName(k)])
  {
    var s: Store := map[a := Complete];
    var order := [a];
    SingleListing(s, order, a, k);
    LatestIs(s, order, a, k);
    var t := GetNewDump(s, order, now, interval, Listing(200, k)).value;
    assert Refreshed(s, order, k, Some(k), t);
    var d := DirName(k);
    assert d !in s && t[d] <= {NodesFile, EdgesFile, ConnectivityOk};
    ConnectivityOnlyInvalid(t[d]);
    assert !Expired(s, order, k, a);
  }

  lemma SingleListing(s: Store, order: seq<string>, a: string, k: int)
    requires IsDumpName(a) && Key(a) == Ok(k)
    requires s == map[a := Complete] && order == [a]
    ensures GlobOrder(s, order) && AllParse(s) && ValidListed(s, order, a)
    ensures forall m | m in s && ValidListed(s, order, m) :: Key(m).value <= k
  {
    assert forall n | n in s :: n == a;
    assert GlobOrder(s, order);
    assert AllParse(s);
    SingleWinner(s, order, a, k);
    assert Listed(s, order, a);
  }

  lemma SingleWinner(s: Store, order: seq<string>, a: string, k: int)
    requires Key(a) == Ok(k) && s == map[a := Complete] && order == [a]
    ensures Winner(order, k) == Some(a) && Valid(s[a])
  {
    assert KeysOf(order)[0] == Ok(k);
  }

  /** A directory holding at most the connectivity files is not valid. */
  lemma ConnectivityOnlyInvalid(files: set<string>)
    requires files <= {NodesFile, EdgesFile, ConnectivityOk}
    ensures !Valid(files)
  {
    assert |SomaOk| == 13 && |NodesFile| == 16 && |EdgesFile| == 16 && |ConnectivityOk| == 21;
  }

  /** The files a download writes, in order; each marker comes last. */
  const ConnectivityWrites: seq<string> := [NodesFile, EdgesFile, ConnectivityOk]
  const SomaWrites: seq<string> := [SomaFile, SomaOk]

  /** A download interrupted after any number of writes leaves the markers
      sound. */
  lemma InterruptedDownloadsSound(files: set<string>, k: nat, j: nat)
    requires MarkersSound(files)
    requires ConnectivityOk !in files && SomaOk !in files
    requires k <= |ConnectivityWrites| && j <= |SomaWrites|
    ensures MarkersSound(files + (set f | f in ConnectivityWrites[..k]) + (set f | f in SomaWrites[..j]))
  {
    var a := set f | f in ConnectivityWrites[..k];
    var b := set f | f in SomaWrites[..j];
    if k == 3 {
      assert NodesFile in a && EdgesFile in a by {
        assert ConnectivityWrites[..k][0] == NodesFile && ConnectivityWrites[..k][1] == EdgesFile;
      }
    } else {
      assert ConnectivityOk !in a by {
        assert forall i | 0 <= i < k :: ConnectivityWrites[..k][i] != ConnectivityOk;
      }
    }
    if j == 2 {
      assert SomaFile in b by { assert SomaWrites[..j][0] == SomaFile; }
    } else {
      assert SomaOk !in b by {
        assert forall i | 0 <= i < j :: SomaWrites[..j][i] != SomaOk;
      }
    }
  }

  /** The dump tables `load_latest_valid_dump` reads. */
  datatype DumpFiles = DumpFiles(nodes: seq<RawNode>, edges: seq<Edge>, somas: seq<SegId>)

  /** The node rows after `fillna(0).astype(int)`, indexed by segment id
      without a uniqueness check. */
  function NormaliseNodes(rows: seq<RawNode>): (r: seq<(SegId, NodeRow)>)
    ensures |r| == |rows|
    ensures forall i | 0 <= i < |rows| :: r[i].0 == rows[i].segid
    ensures forall i | 0 <= i < |rows| ::
      && (rows[i].nrPre.Some? ==> r[i].1.nrPre == rows[i].nrPre.value)
      && (rows[i].nrPre.None? ==> r[i].1.nrPre == 0)
      && (rows[i].nrPost.Some? ==> r[i].1.nrPost == rows[i].nrPost.value)
      && (rows[i].nrPost.None? ==> r[i].1.nrPost == 0)
  {
    seq(|rows|, i requires 0 <= i < |rows| => (rows[i].segid, FillCounts(rows[i])))
  }

  /** With unique ids, the normalised rows are the node table the current
      generation builds from the same dump. */
  lemma NormaliseAgreesWithNodeTable(rows: seq<RawNode>)
    requires DistinctIds(rows)
    ensures var m := NodeTableFromDump(rows).value;
      var r := NormaliseNodes(rows);
      && m.Keys == (set i | 0 <= i < |r| :: r[i].0)
      && (forall i | 0 <= i < |r| :: m[r[i].0] == r[i].1)
  {
  }

  datatype Loaded = Loaded(timestamp: int, nodes: seq<(SegId, NodeRow)>, edges: seq<Edge>,
                           somas: seq<SegId>)

  /** The three tables `load_latest_valid_dump` reads. */
  const LoadedFiles: set<string> := {NodesFile, EdgesFile, SomaFile}

  /** Reading the three tables of the directory found for key `p.0`,
      whose files are `files`: `read_parquet` raises FileNotFoundError
      for a missing one. */
  function LoadFrom(files: set<string>, p: (int, string), read: string -> DumpFiles): (r: Result<Option<Loaded>>)
    ensures r.Err? <==> !(LoadedFiles <= files)
    ensures r.Err? ==> r.error == FileNotFoundError
    ensures r.Ok? ==>
      && r.value.Some? && r.value.value.timestamp == p.0
      && r.value.value.nodes == NormaliseNodes(read(p.1).nodes)
      && r.value.value.edges == read(p.1).edges && r.value.value.somas == read(p.1).somas
    ensures MarkersSound(files) && Valid(files) ==> r.Ok?
  {
    if !(LoadedFiles <= files) then Err(FileNotFoundError)
    else
      var f := read(p.1);
      Ok(Some(Loaded(p.0, NormaliseNodes(f.nodes), f.edges, f.somas)))
  }

  /** `load_latest_valid_dump`: the latest valid dump's tables, normalised;
      `None` when there is none; FileNotFoundError when one of the three
      tables is missing from its directory. `read` gives the tables stored
      in a directory. */
  function LoadLatestValidDump(base: Option<Store>, order: seq<string>, read: string -> DumpFiles)
    : (r: Result<Option<Loaded>>)
    requires base.Some? ==> GlobOrder(base.value, order)
    ensures FindLatestValidDump(base, order).Err? ==> r == Err(ValueError)
    ensures r == Ok(None) <==> FindLatestValidDump(base, order) == Ok(None)
    ensures FindLatestValidDump(base, order).Ok? && FindLatestValidDump(base, order).value.Some? ==>
      var n := FindLatestValidDump(base, order).value.value.1;
      && n in base.value
      && (r.Err? <==> !(LoadedFiles <= base.value[n]))
      && (r.Err? ==> r.error == FileNotFoundError)
    ensures r.Err? ==> r.error == ValueError || r.error == FileNotFoundError
    ensures base.Some? && AllSound(base.value) && r.Err? ==> r.error == ValueError
    ensures r.Ok? && r.value.Some? ==>
      var k, n := FindLatestValidDump(base, order).value.value.0, FindLatestValidDump(base, order).value.value.1;
      && r.value.value.timestamp == k
      && r.value.value.nodes == NormaliseNodes(read(n).nodes)
      && r.value.value.edges == read(n).edges && r.value.value.somas == read(n).somas
  {
    var found := FindLatestValidDump(base, order);
    match found
    case Err(e) => Err(e)
    case Ok(None) => Ok(None)
    case Ok(Some(p)) =>
      assert ValidListed(base.value, order, p.1);
      LoadFrom(base.value[p.1], p, read)
  }
}

=== FILE: fancpq_dataset.dfy ===
/** The `build_*` methods of the older `fancpq.FANCDataset`. Unlike the rule
    classes, a soma or motor-neuron segment missing from the node table
    counts as having no synapses instead of being dropped, the efferent
    table is sorted, and every result is written to the priority-table cache.
 */
module FancpqDataset {
  import opened Wrappers
  import opened Tables
  import Rules
  import Snapshot

  const OrphanedSomaKey: string := "orphaned_soma"
  const MultipleSomaKey: string := "multiple_soma"
  const UnconnectedDnKey: string := "unconnected_dn"
  const SuspectedDnKey: string := "suspected_dn"

  function EfferentKey(mnType: string): string { "problematic_efferent_" + mnType }

  /** `build_orphaned_soma_table`: node-table somas with fewer than `thr`
      synapses, plus every soma absent from the node table with a total of 0,
      whatever `thr` is. Cached under `orphaned_soma`. */
  function BuildOrphanedSoma(ds: Snapshot.Dataset, thr: int): (r: (Snapshot.Dataset, Table))
    ensures forall id :: id in r.1 <==>
      id in ds.tables.soma && (id in ds.tables.nodes ==> Total(ds.tables.nodes[id]) < thr)
    ensures forall id | id in r.1 ::
      r.1[id] == TotalRow(if id in ds.tables.nodes then Total(ds.tables.nodes[id]) else 0)
    ensures r.0 == ds.(cache := ds.cache[OrphanedSomaKey := Keyed(r.1)])
  {
    var t := ds.tables;
    var sel := map id | id in Ids(t.soma) && id in t.nodes && Total(t.nodes[id]) < thr ::
      TotalRow(Total(t.nodes[id]));
    var zero := map id | id in Ids(t.soma) && id !in t.nodes :: TotalRow(0);
    var res := sel + zero;
    (ds.(cache := ds.cache[OrphanedSomaKey := Keyed(res)]), res)
  }

  /** `nr_post` as the efferent build reads it: 0 for a segment absent from
      the node table. */
  function NrPostOrZero(nodes: NodeTable, id: SegId): nat {
    if id in nodes then nodes[id].nrPost else 0
  }

  /** `.unique()`: each id once, in order of first appearance. */
  function Unique(l: Landmarks): (r: seq<SegId>)
    ensures forall i, j | 0 <= i < j < |r| :: r[i] != r[j]
    ensures forall x :: x in r <==> x in l
  {
    if |l| == 0 then []
    else
      var init := l[..|l| - 1];
      var x := l[|l| - 1];
      assert l == init + [x];
      var u := Unique(init);
      if x in init then u else u + [x]
  }

  type Entry = (SegId, nat)

  predicate SortedByCount(s: seq<Entry>) {
    forall i, j | 0 <= i < j < |s| :: s[i].1 <= s[j].1
  }

  predicate DistinctIds(s: seq<Entry>) {
    forall i, j | 0 <= i < j < |s| :: s[i].0 != s[j].0
  }

  /** Insert into a sorted sequence, before the first entry with a count
      not below `x`'s. */
  function Insert(x: Entry, s: seq<Entry>): (r: seq<Entry>)
    requires SortedByCount(s)
    ensures |r| == |s| + 1
    ensures r[0] == (if |s| == 0 || x.1 <= s[0].1 then x else s[0])
    ensures SortedByCount(r)
    ensures multiset(r) == multiset(s) + multiset{x}
    ensures forall e :: e in r <==> e == x || e in s
  {
    if |s| == 0 then [x]
    else if x.1 <= s[0].1 then [x] + s
    else
      var rest := Insert(x, s[1..]);
      assert s == [s[0]] + s[1..];
      assert s[0].1 <= rest[0].1;
      [s[0]] + rest
  }

  lemma {:induction false} InsertKeepsDistinct(x: Entry, s: seq<Entry>)
    requires SortedByCount(s)
    ensures DistinctIds(s) && (forall e | e in s :: e.0 != x.0) ==> DistinctIds(Insert(x, s))
  {
    if |s| > 0 && x.1 > s[0].1 && DistinctIds(s) && (forall e | e in s :: e.0 != x.0) {
      var tail := s[1..];
      DistinctTail(s);
      InsertKeepsDistinct(x, tail);
      var rest := Insert(x, tail);
      assert forall e | e in rest :: e.0 != s[0].0;
      DistinctCons(s[0], rest);
      assert Insert(x, s) == [s[0]] + rest;
    }
  }

  /** The tail of a sequence with distinct ids has distinct ids, none of
      them the head's. */
  lemma DistinctTail(s: seq<Entry>)
    requires |s| > 0 && DistinctIds(s)
    ensures DistinctIds(s[1..])
    ensures forall e | e in s[1..] :: e.0 != s[0].0
  {
    forall e | e in s[1..] ensures e.0 != s[0].0 {
      var k :| 0 <= k < |s[1..]| && s[1..][k] == e;
      assert s[k + 1] == e;
    }
  }

  lemma DistinctCons(h: Entry, rest: seq<Entry>)
    requires DistinctIds(rest)
    requires forall e | e in rest :: e.0 != h.0
    ensures DistinctIds([h] + rest)
  {
    var r := [h] + rest;
    forall i, j | 0 <= i < j < |r| ensures r[i].0 != r[j].0 {
      assert r[j] == rest[j - 1];
      if i > 0 {
        assert r[i] == rest[i - 1];
      }
    }
  }

  /** `sort_values('nr_post')`: ascending by count, a permutation of the input. */
  function SortByCount(s: seq<Entry>): (r: seq<Entry>)
    ensures SortedByCount(r)
    ensures multiset(r) == multiset(s)
    ensures DistinctIds(s) ==> DistinctIds(r)
  {
    if |s| == 0 then []
    else
      var rest := SortByCount(s[1..]);
      assert s == [s[0]] + s[1..];
      SortKeepsDistinctStep(s, rest);
      Insert(s[0], rest)
  }

  lemma SortKeepsDistinctStep(s: seq<Entry>, rest: seq<Entry>)
    requires |s| > 0 && SortedByCount(rest) && multiset(rest) == multiset(s[1..])
    requires DistinctIds(s[1..]) ==> DistinctIds(rest)
    ensures DistinctIds(s) ==> DistinctIds(Insert(s[0], rest))
  {
    if DistinctIds(s) {
      forall e | e in rest ensures e.0 != s[0].0 {
        assert multiset(rest)[e] > 0;
        assert e in s[1..];
        var j :| 0 <= j < |s[1..]| && s[1..][j] == e;
        assert s[j + 1] == e;
      }
      InsertKeepsDistinct(s[0], rest);
    }
  }

  /** The unique motor-neuron ids with their `nr_post` (0 when absent),
      keeping those below `thr`, in order. */
  function LowInputEntries(ids: seq<SegId>, nodes: NodeTable, thr: int): (r: seq<Entry>)
    requires forall i, j | 0 <= i < j < |ids| :: ids[i] != ids[j]
    ensures DistinctIds(r)
    ensures forall e :: e in r <==> e.0 in ids && e.1 == NrPostOrZero(nodes, e.0) && e.1 < thr
  {
    if |ids| == 0 then []
    else
      var rest := LowInputEntries(ids[1..], nodes, thr);
      var e := (ids[0], NrPostOrZero(nodes, ids[0]));
      assert ids == [ids[0]] + ids[1..];
      if e.1 < thr then [e] + rest else rest
  }

  /** The low-input motor neurons of `mn`, each once, sorted by count. */
  function EfferentEntries(mn: Landmarks, nodes: NodeTable, thr: int): (s: seq<Entry>)
    ensures SortedByCount(s) && DistinctIds(s)
    ensures forall e | e in s :: e.0 in mn && e.1 == NrPostOrZero(nodes, e.0) && e.1 < thr
    ensures KeySet(s) == set id | id in mn && NrPostOrZero(nodes, id) < thr
  {
    var entries := LowInputEntries(Unique(mn), nodes, thr);
    var s := SortByCount(entries);
    SameElements(entries, s);
    forall id | id in mn && NrPostOrZero(nodes, id) < thr ensures id in KeySet(s) {
      assert (id, NrPostOrZero(nodes, id)) in s;
    }
    s
  }

  function KeySet(s: seq<Entry>): set<SegId> { set e | e in s :: e.0 }

  lemma SameElements(a: seq<Entry>, b: seq<Entry>)
    requires multiset(a) == multiset(b)
    ensures forall e :: e in a <==> e in b
  {
    forall e ensures e in a <==> e in b {
      assert e in a <==> multiset(a)[e] > 0;
      assert e in b <==> multiset(b)[e] > 0;
    }
  }


  /** The entries tagged with the type, in the same order. */
  function Tag(s: seq<Entry>, mnType: string): (rows: seq<(SegId, Row)>)
    ensures |rows| == |s|
    ensures forall i | 0 <= i < |s| :: rows[i] == (s[i].0, MnRow(s[i].1, mnType))
  {
    seq(|s|, i requires 0 <= i < |s| => (s[i].0, MnRow(s[i].1, mnType)))
  }

  /** The efferent rows: the sorted entries, tagged with the type. */
  function EfferentRows(mn: Landmarks, nodes: NodeTable, thr: int, mnType: string)
    : (rows: seq<(SegId, Row)>)
    ensures forall i | 0 <= i < |rows| :: rows[i].1 == MnRow(NrPostOrZero(nodes, rows[i].0), mnType)
    ensures (set i | 0 <= i < |rows| :: rows[i].0) == (set id | id in mn && NrPostOrZero(nodes, id) < thr)
    ensures forall i, j | 0 <= i < j < |rows| :: rows[i].0 != rows[j].0
    ensures forall i, j | 0 <= i < j < |rows| :: rows[i].1.nrPost <= rows[j].1.nrPost
  {
    var s := EfferentEntries(mn, nodes, thr);
    TagKeys(s, mnType);
    TagCounts(s, nodes, mnType);
    TagOrder(s, mnType);
    Tag(s, mnType)
  }

  lemma TagCounts(s: seq<Entry>, nodes: NodeTable, mnType: string)
    requires forall e | e in s :: e.1 == NrPostOrZero(nodes, e.0)
    ensures var rows := Tag(s, mnType);
      forall i | 0 <= i < |rows| :: rows[i].1 == MnRow(NrPostOrZero(nodes, rows[i].0), mnType)
  {
    assert forall i | 0 <= i < |s| :: s[i] in s;
  }

  lemma TagOrder(s: seq<Entry>, mnType: string)
    requires SortedByCount(s) && DistinctIds(s)
    ensures var rows := Tag(s, mnType);
      && (forall i, j | 0 <= i < j < |rows| :: rows[i].0 != rows[j].0)
      && (forall i, j | 0 <= i < j < |rows| :: rows[i].1.nrPost <= rows[j].1.nrPost)
  {
  }

  lemma TagKeys(s: seq<Entry>, mnType: string)
    ensures (set i | 0 <= i < |Tag(s, mnType)| :: Tag(s, mnType)[i].0) == KeySet(s)
  {
    var rows := Tag(s, mnType);
    forall id | id in KeySet(s) ensures id in (set i | 0 <= i < |rows| :: rows[i].0) {
      var e :| e in s && e.0 == id;
      var i :| 0 <= i < |s| && s[i] == e;
      assert rows[i].0 == id;
    }
  }

  /** `build_problematic_efferent_table`: each motor neuron of the named type
      once, with `nr_post` 0 when absent from the node table, kept when below
      `thr`, sorted by `nr_post` ascending, tagged with the type; cached under
      `problematic_efferent_<type>`. `'all'` is not a type here. */
  function BuildProblematicEfferent(ds: Snapshot.Dataset, thr: int, mnType: string)
    : (r: Result<(Snapshot.Dataset, seq<(SegId, Row)>)>)
    ensures r.Err? <==> Rules.MnTypeOf(mnType).None?
    ensures r.Err? ==> r.error == ValueError
    ensures r.Ok? ==> var rows := r.value.1;
      var mn := Rules.MnTable(ds.tables, Rules.MnTypeOf(mnType).value);
      && (forall i | 0 <= i < |rows| ::
            rows[i].1 == MnRow(NrPostOrZero(ds.tables.nodes, rows[i].0), mnType))
      && (set i | 0 <= i < |rows| :: rows[i].0)
           == (set id | id in mn && NrPostOrZero(ds.tables.nodes, id) < thr)
      && (forall i, j | 0 <= i < j < |rows| :: rows[i].0 != rows[j].0)
      && (forall i, j | 0 <= i < j < |rows| :: rows[i].1.nrPost <= rows[j].1.nrPost)
      && r.value.0 == ds.(cache := ds.cache[EfferentKey(mnType) := Ordered(rows)])
  {
    match Rules.MnTypeOf(mnType)
    case None => Err(ValueError)
    case Some(m) =>
      var rows := EfferentRows(Rules.MnTable(ds.tables, m), ds.tables.nodes, thr, mnType);
      Ok((ds.(cache := ds.cache[EfferentKey(mnType) := Ordered(rows)]), rows))
  }

  /** `build_multiple_soma_table`: the rule's selection, cached under `multiple_soma`. */
  function BuildMultipleSoma(ds: Snapshot.Dataset): (r: (Snapshot.Dataset, Table))
    ensures forall id :: id in r.1 <==> id in ds.tables.soma && Count(ds.tables.soma, id) > 1
    ensures forall id | id in r.1 :: r.1[id] == SomaCountRow(Count(ds.tables.soma, id))
    ensures r.0 == ds.(cache := ds.cache[MultipleSomaKey := Keyed(r.1)])
  {
    var res := Rules.MultipleSomasTable(ds.tables);
    (ds.(cache := ds.cache[MultipleSomaKey := Keyed(res)]), res)
  }

  /** `build_unconnected_dn_table`: neck-connective segments in the node table
      with fewer than `thr` synapses; cached under `unconnected_dn`. */
  function BuildUnconnectedDn(ds: Snapshot.Dataset, thr: int): (r: (Snapshot.Dataset, Table))
    ensures r.1.Keys == set id | id in ds.tables.neckConnective && id in ds.tables.nodes
                                  && Total(ds.tables.nodes[id]) < thr
    ensures forall id | id in r.1 :: r.1[id] == TotalRow(Total(ds.tables.nodes[id]))
    ensures r.0 == ds.(cache := ds.cache[UnconnectedDnKey := Keyed(r.1)])
  {
    var res := Collect(ds.tables.neckConnective, ds.tables.nodes,
                       (n: NodeRow) => Total(n) < thr, (n: NodeRow) => TotalRow(Total(n)));
    (ds.(cache := ds.cache[UnconnectedDnKey := Keyed(res)]), res)
  }

  /** `build_suspected_dn_table`: neck-connective segments in the node table
      without a soma landmark. The cache gets those whose input/output ratio
      exceeds `thr`; the caller gets all of them, unfiltered. */
  function BuildSuspectedDn(ds: Snapshot.Dataset, thr: Frac): (r: (Snapshot.Dataset, Table))
    ensures forall id :: id in r.1 <==>
      id in ds.tables.neckConnective && id in ds.tables.nodes && id !in ds.tables.soma
    ensures forall id | id in r.1 ::
      r.1[id] == CountsRow(ds.tables.nodes[id].nrPre, ds.tables.nodes[id].nrPost)
    ensures SuspectedDnKey in r.0.cache && r.0.cache[SuspectedDnKey].Keyed?
    ensures var cached := r.0.cache[SuspectedDnKey].rows;
      forall id :: id in cached <==> id in r.1 && RatioAbove(ds.tables.nodes[id], thr)
    ensures var cached := r.0.cache[SuspectedDnKey].rows;
      forall id | id in cached :: cached[id] == r.1[id]
    ensures r.0.cache - {SuspectedDnKey} == ds.cache - {SuspectedDnKey}
  {
    var t := ds.tables;
    var sel := map id | id in Ids(t.neckConnective) && id in t.nodes && id !in Ids(t.soma) ::
      CountsRow(t.nodes[id].nrPre, t.nodes[id].nrPost);
    var res := map id | id in sel && RatioAbove(t.nodes[id], thr) :: sel[id];
    (ds.(cache := ds.cache[SuspectedDnKey := Keyed(res)]), sel)
  }

  /** The returned table holds every cached row, and a segment whose ratio
      does not exceed the threshold is returned but not cached. */
  lemma SuspectedDnReturnsUnfiltered(ds: Snapshot.Dataset, thr: Frac, id: SegId)
    ensures var (ds2, sel) := BuildSuspectedDn(ds, thr);
      ds2.cache[SuspectedDnKey].rows.Keys <= sel.Keys
    ensures var (ds2, sel) := BuildSuspectedDn(ds, thr);
      id in sel && !RatioAbove(ds.tables.nodes[id], thr) ==>
        id !in ds2.cache[SuspectedDnKey].rows
  {
  }

  /** A soma-less neck-connective segment with outputs and no inputs (ratio
      0) is returned and left out of the cache at the default threshold
      0.1: the two tables differ. */
  lemma SuspectedDnCacheIsSmaller()
    ensures var t := TableSet(map[7 := NodeRow(3, 0)], [], [], [], [], [], [], [], [7]);
      var (ds2, sel) := BuildSuspectedDn(Snapshot.Dataset(0, "bc_dump_0", t, map[]), Frac(1, 10));
      7 in sel && 7 !in ds2.cache[SuspectedDnKey].rows
  {
    var t := TableSet(map[7 := NodeRow(3, 0)], [], [], [], [], [], [], [], [7]);
    assert 7 in t.neckConnective && 7 !in t.soma;
    assert !RatioAbove(t.nodes[7], Frac(1, 10));
  }

  /** The older orphaned-soma table is the rule's, plus the absent somas. */
  lemma OrphanedSomaExtendsRule(ds: Snapshot.Dataset, thr: int)
    ensures BuildOrphanedSoma(ds, thr).1.Keys ==
      Rules.OrphanedSomaTable(ds.tables, thr).Keys + (Ids(ds.tables.soma) - ds.tables.nodes.Keys)
  {
    var mine := BuildOrphanedSoma(ds, thr).1;
    var theirs := Rules.OrphanedSomaTable(ds.tables, thr);
    assert forall id :: id in mine.Keys <==>
      id in theirs.Keys + (Ids(ds.tables.soma) - ds.tables.nodes.Keys);
  }

  /** A soma segment absent from the node table is orphaned here at any
      threshold, even a non-positive one, and never by the rule. */
  lemma AbsentSomaAlwaysOrphaned(ds: Snapshot.Dataset, thr: int, id: SegId)
    requires id in ds.tables.soma && id !in ds.tables.nodes
    ensures id in BuildOrphanedSoma(ds, thr).1
    ensures BuildOrphanedSoma(ds, thr).1[id] == TotalRow(0)
    ensures id !in Rules.OrphanedSomaTable(ds.tables, thr)
  {
  }
}

=== FILE: rules.dfy ===
/** The prioritization rules of the current generation: each rule selects
    the segments a proofreader should look at from one snapshot's tables
    (`get_table`) and renders one selected row as a feed entry
    (`entry_to_feed`). The rule family is closed, so it is a datatype.
 */
module Rules {
  import opened Wrappers
  import opened Tables
  import Text

  /** The motor-neuron tables a dataset carries (`<type>_mn_table`). */
  datatype MnType = Leg | Haltere | Wing | Neck

  /** `hasattr(dataset, f'{mn_type}_mn_table')` succeeds exactly for these names. */
  function MnTypeOf(name: string): Option<MnType> {
    if name == "leg" then Some(Leg)
    else if name == "haltere" then Some(Haltere)
    else if name == "wing" then Some(Wing)
    else if name == "neck" then Some(Neck)
    else None
  }

  function MnTable(t: TableSet, m: MnType): Landmarks {
    match m
    case Leg => t.legMn
    case Haltere => t.haltereMn
    case Wing => t.wingMn
    case Neck => t.neckMn
  }

  /** One rule with its parameters; the defaults of the Python signatures
      are in `DefaultRules`. */
  datatype Rule =
    | OrphanedSoma(synapseCountThr: int)
    | MultipleSomas
    | ProblematicEfferent(synapseCountThr: int, mnType: string)
    | ProblematicAfferent(synapseCountThr: int, anType: string)
    | ProblematicDescending(synapseCountThr: int)
    | ProblematicAscending(synapseCountThr: int)
    | UnbalancedInterneuron(minTotalSynapses: int, low: Frac, high: Frac, requireSoma: bool)

  /** `io_ratio_range = (0.1, 5.0)`. */
  const DefaultLow: Frac := Frac(1, 10)
  const DefaultHigh: Frac := Frac(5, 1)

  const DefaultRules: seq<Rule> := [
    OrphanedSoma(10),
    MultipleSomas,
    ProblematicEfferent(50, "leg"),
    ProblematicAfferent(50, "leg"),
    ProblematicDescending(50),
    ProblematicAscending(50),
    UnbalancedInterneuron(200, DefaultLow, DefaultHigh, true)
  ]

  /** `OrphanedSoma.get_table`: soma segments present in the node table with
      fewer than `thr` synapses in total. */
  function OrphanedSomaTable(t: TableSet, thr: int): (r: Table)
    ensures r.Keys == set id | id in t.soma && id in t.nodes && Total(t.nodes[id]) < thr
    ensures forall id | id in r ::
      r[id] == OrphanRow(t.nodes[id].nrPre, t.nodes[id].nrPost, Total(t.nodes[id]))
  {
    Collect(t.soma, t.nodes, (n: NodeRow) => Total(n) < thr,
            (n: NodeRow) => OrphanRow(n.nrPre, n.nrPost, Total(n)))
  }

  /** `value_counts()` of a landmark column. */
  function ValueCounts(l: Landmarks): (r: map<SegId, nat>)
    ensures r.Keys == Ids(l)
    ensures forall id | id in r :: r[id] == Count(l, id)
  {
    if |l| == 0 then map[]
    else
      var init := l[..|l| - 1];
      var x := l[|l| - 1];
      assert l == init + [x];
      IdsSnoc(init, x);
      var rest := ValueCounts(init);
      rest[x := (if x in rest then rest[x] else 0) + 1]
  }

  /** `MultipleSomas.get_table`: segments carrying more than one soma
      landmark, with the landmark count; the node table is not consulted. */
  function MultipleSomasTable(t: TableSet): (r: Table)
    ensures r.Keys == set id | id in t.soma && Count(t.soma, id) > 1
    ensures forall id | id in r :: r[id] == SomaCountRow(Count(t.soma, id))
  {
    var counts := ValueCounts(t.soma);
    map id | id in counts && counts[id] > 1 :: SomaCountRow(counts[id])
  }

  /** The segments `ProblematicEfferent` starts from: `'all'` is nerve
      bundle ∩ soma, a known type is its motor-neuron table, anything else
      is a `ValueError`. */
  function EfferentCandidates(t: TableSet, mnType: string): Result<Landmarks> {
    if mnType == "all" then Ok(Keep(t.nerveBundle, Ids(t.soma)))
    else
      match MnTypeOf(mnType)
      case Some(m) => Ok(MnTable(t, m))
      case None => Err(ValueError)
  }

  /** `ProblematicEfferent.get_table`: candidates present in the node table
      with fewer than `thr` input synapses; only `nr_post` is kept. */
  function ProblematicEfferentTable(t: TableSet, thr: int, mnType: string): (r: Result<Table>)
    ensures r.Err? <==> mnType != "all" && MnTypeOf(mnType).None?
    ensures r.Err? ==> r.error == ValueError
    ensures mnType == "all" ==> (r.Ok? && r.value.Keys ==
      set id | id in t.nerveBundle && id in t.soma && id in t.nodes && t.nodes[id].nrPost < thr)
    ensures MnTypeOf(mnType).Some? ==> (r.Ok? && r.value.Keys ==
      set id | id in MnTable(t, MnTypeOf(mnType).value) && id in t.nodes && t.nodes[id].nrPost < thr)
    ensures r.Ok? ==> forall id | id in r.value :: r.value[id] == InputRow(t.nodes[id].nrPost)
  {
    match EfferentCandidates(t, mnType)
    case Err(e) => Err(e)
    case Ok(cands) =>
      Ok(Collect(cands, t.nodes, (n: NodeRow) => n.nrPost < thr, (n: NodeRow) => InputRow(n.nrPost)))
  }

  /** `ProblematicAscending.get_table`: neck-connective ∩ soma ∩ node ids
      with fewer than `thr` input synapses; only `nr_post` is kept. */
  function ProblematicAscendingTable(t: TableSet, thr: int): (r: Table)
    ensures r.Keys ==
      set id | id in t.neckConnective && id in t.soma && id in t.nodes && t.nodes[id].nrPost < thr
    ensures forall id | id in r :: r[id] == InputRow(t.nodes[id].nrPost)
  {
    Collect(Keep(t.neckConnective, Ids(t.soma)), t.nodes,
            (n: NodeRow) => n.nrPost < thr, (n: NodeRow) => InputRow(n.nrPost))
  }

  /** The input/output ratio lies outside `(low, high)`: `io_ratio < low`
      or `io_ratio > high`, both strict, with IEEE infinities and NaN. */
  predicate Unbalanced(n: NodeRow, low: Frac, high: Frac) {
    RatioBelow(n, low) || RatioAbove(n, high)
  }

  /** `UnbalancedInterneuron.get_table`: node-table segments with neither a
      nerve-bundle nor a neck-connective landmark (and, if asked, with a soma
      landmark), at least `minTotal` synapses, and an unbalanced ratio. */
  function UnbalancedInterneuronTable(t: TableSet, minTotal: int, low: Frac, high: Frac,
                                      requireSoma: bool): (r: Table)
    ensures forall id :: id in r <==>
      && id in t.nodes
      && id !in t.nerveBundle && id !in t.neckConnective
      && (requireSoma ==> id in t.soma)
      && Total(t.nodes[id]) >= minTotal
      && Unbalanced(t.nodes[id], low, high)
    ensures forall id | id in r ::
      r[id] == BalanceRow(t.nodes[id].nrPre, t.nodes[id].nrPost, Total(t.nodes[id]))
  {
    var excluded := Ids(t.nerveBundle + t.neckConnective);
    var inter := t.nodes - excluded;
    var withSoma := if requireSoma then map id | id in inter && id in Ids(t.soma) :: inter[id]
                    else inter;
    var large := map id | id in withSoma && Total(withSoma[id]) >= minTotal :: withSoma[id];
    map id | id in large && Unbalanced(large[id], low, high) ::
      BalanceRow(large[id].nrPre, large[id].nrPost, Total(large[id]))
  }

  /** `rule.get_table(dataset, **params)`. */
  function GetTable(rule: Rule, t: TableSet): (r: Result<Table>)
    ensures r.Err? <==>
      || rule.ProblematicAfferent? || rule.ProblematicDescending?
      || (rule.ProblematicEfferent? && rule.mnType != "all" && MnTypeOf(rule.mnType).None?)
    ensures rule.ProblematicAfferent? || rule.ProblematicDescending? ==> r == Err(NotImplementedError)
  {
    match rule
    case OrphanedSoma(thr) => Ok(OrphanedSomaTable(t, thr))
    case MultipleSomas => Ok(MultipleSomasTable(t))
    case ProblematicEfferent(thr, mnType) => ProblematicEfferentTable(t, thr, mnType)
    case ProblematicAfferent(_, _) => Err(NotImplementedError)
    case ProblematicDescending(_) => Err(NotImplementedError)
    case ProblematicAscending(thr) => Ok(ProblematicAscendingTable(t, thr))
    case UnbalancedInterneuron(minTotal, low, high, requireSoma) =>
      Ok(UnbalancedInterneuronTable(t, minTotal, low, high, requireSoma))
  }

  /** A proposal shown to a proofreader. */
  datatype Feed = Feed(segid: SegId, kind: string, reason: string)

  /** The columns `entry_to_feed` reads from a row, in the order the reason
      mentions them; `None` when one is missing (a `KeyError`). */
  function FeedCounts(rule: Rule, row: Row): Option<seq<nat>> {
    match rule
    case OrphanedSoma(_) =>
      if TotalSynapsesColumn(row).Some? then Some([TotalSynapsesColumn(row).value]) else None
    case MultipleSomas =>
      if NumSomasColumn(row).Some? then Some([NumSomasColumn(row).value]) else None
    case UnbalancedInterneuron(_, _, _, _) =>
      if NrPostColumn(row).Some? && NrPreColumn(row).Some?
      then Some([NrPostColumn(row).value, NrPreColumn(row).value]) else None
    case _ =>
      if NrPostColumn(row).Some? then Some([NrPostColumn(row).value]) else None
  }

  /** `before`, the number, `after`: a reason mentioning exactly `n`. */
  function Mention(before: string, n: nat, after: string): (s: string)
    requires Text.NoDigits(before) && Text.NoDigits(after)
    requires |after| > 0
    ensures Text.Numbers(s) == [n]
  {
    Text.NumbersOfRendered(before, n, after);
    Text.NumbersOfText(after);
    before + Text.NatToString(n) + after
  }

  function OrphanReason(total: nat): (s: string)
    ensures Text.Numbers(s) == [total]
  {
    Mention("This soma is only attached to  ", total, " synapses.")
  }

  function MultipleSomasReason(numSomas: nat): (s: string)
    ensures Text.Numbers(s) == [numSomas]
  {
    Mention("This neuron appears to have ", numSomas, " somas.")
  }

  function MotorNeuronReason(nrPost: nat): (s: string)
    ensures Text.Numbers(s) == [nrPost]
  {
    Mention("This motor neuron only has ", nrPost, " input synapses.")
  }

  function AscendingReason(nrPost: nat): (s: string)
    ensures Text.Numbers(s) == [nrPost]
  {
    Mention("This ascending neuron only has ", nrPost, " input synapses.")
  }

  function UnbalancedReason(nrPost: nat, nrPre: nat): (s: string)
    ensures Text.Numbers(s) == [nrPost, nrPre]
  {
    var head := "This VNC interneuron has ";
    var tail := UnbalancedTail(nrPre);
    Text.NumbersOfRendered(head, nrPost, tail);
    head + Text.NatToString(nrPost) + tail
  }

  /** The part of the interneuron reason after the input count. */
  function UnbalancedTail(nrPre: nat): (s: string)
    ensures |s| > 0 && !Text.IsDigit(s[0])
    ensures Text.Numbers(s) == [nrPre]
  {
    var before := " input synapses and ";
    assert before[0] == ' ';
    Mention(before, nrPre, " output synapses. This is quite unbalanced.")
  }

  /** The `type` each rule's feed line carries; the afferent and descending
      rules define none. */
  function KindOf(rule: Rule): Option<string> {
    match rule
    case OrphanedSoma(_) => Some("Orphaned soma")
    case MultipleSomas => Some("Multiple somas")
    case ProblematicEfferent(_, _) => Some("Motor neuron")
    case ProblematicAscending(_) => Some("Ascending neuron")
    case UnbalancedInterneuron(_, _, _, _) => Some("VNC interneuron")
    case ProblematicAfferent(_, _) => None
    case ProblematicDescending(_) => None
  }

  /** A feed line's `type` tells which kind of rule produced it. */
  lemma KindIdentifiesRule(a: Rule, b: Rule)
    requires KindOf(a).Some? && KindOf(a) == KindOf(b)
    ensures a.OrphanedSoma? == b.OrphanedSoma? && a.MultipleSomas? == b.MultipleSomas?
    ensures a.ProblematicEfferent? == b.ProblematicEfferent?
    ensures a.ProblematicAscending? == b.ProblematicAscending?
    ensures a.UnbalancedInterneuron? == b.UnbalancedInterneuron?
  {
    var k := KindOf(a).value;
    assert k[0] == 'O' ==> a.OrphanedSoma? && b.OrphanedSoma?;
    assert k[0] == 'M' && k[1] == 'u' ==> a.MultipleSomas? && b.MultipleSomas?;
    assert k[0] == 'M' && k[1] == 'o' ==> a.ProblematicEfferent? && b.ProblematicEfferent?;
    assert k[0] == 'A' ==> a.ProblematicAscending? && b.ProblematicAscending?;
    assert k[0] == 'V' ==> a.UnbalancedInterneuron? && b.UnbalancedInterneuron?;
  }

  /** `rule.entry_to_feed(row)`: reads nothing but the row. The reason
      mentions exactly the row's counts, in order. */
  function EntryToFeed(rule: Rule, segid: SegId, row: Row): (r: Result<Feed>)
    ensures rule.ProblematicAfferent? || rule.ProblematicDescending? ==> r == Err(NotImplementedError)
    ensures !(rule.ProblematicAfferent? || rule.ProblematicDescending?) ==>
      (r.Ok? <==> FeedCounts(rule, row).Some?)
    ensures r.Err? ==> r.error == NotImplementedError || r.error == KeyError
    ensures r.Ok? ==> r.value.segid == segid
    ensures r.Ok? ==> KindOf(rule) == Some(r.value.kind)
    ensures r.Ok? ==> Text.Numbers(r.value.reason) == FeedCounts(rule, row).value
  {
    match rule
    case ProblematicAfferent(_, _) => Err(NotImplementedError)
    case ProblematicDescending(_) => Err(NotImplementedError)
    case OrphanedSoma(_) =>
      if TotalSynapsesColumn(row).None? then Err(KeyError)
      else Ok(Feed(segid, "Orphaned soma", OrphanReason(TotalSynapsesColumn(row).value)))
    case MultipleSomas =>
      if NumSomasColumn(row).None? then Err(KeyError)
      else Ok(Feed(segid, "Multiple somas", MultipleSomasReason(NumSomasColumn(row).value)))
    case ProblematicEfferent(_, _) =>
      if NrPostColumn(row).None? then Err(KeyError)
      else Ok(Feed(segid, "Motor neuron", MotorNeuronReason(NrPostColumn(row).value)))
    case ProblematicAscending(_) =>
      if NrPostColumn(row).None? then Err(KeyError)
      else Ok(Feed(segid, "Ascending neuron", AscendingReason(NrPostColumn(row).value)))
    case UnbalancedInterneuron(_, _, _, _) =>
      if NrPostColumn(row).None? || NrPreColumn(row).None? then Err(KeyError)
      else Ok(Feed(segid, "VNC interneuron",
                   UnbalancedReason(NrPostColumn(row).value, NrPreColumn(row).value)))
  }

  /** Every row a rule selects renders without a `KeyError`, and its reason
      mentions the counts the row was selected on. */
  lemma SelectedRowsRender(rule: Rule, t: TableSet, id: SegId)
    requires GetTable(rule, t).Ok? && id in GetTable(rule, t).value
    ensures EntryToFeed(rule, id, GetTable(rule, t).value[id]).Ok?
    ensures rule.OrphanedSoma? ==>
      Text.Numbers(EntryToFeed(rule, id, GetTable(rule, t).value[id]).value.reason)
        == [Total(t.nodes[id])]
    ensures rule.MultipleSomas? ==>
      Text.Numbers(EntryToFeed(rule, id, GetTable(rule, t).value[id]).value.reason)
        == [Count(t.soma, id)]
    ensures rule.ProblematicEfferent? || rule.ProblematicAscending? ==>
      Text.Numbers(EntryToFeed(rule, id, GetTable(rule, t).value[id]).value.reason)
        == [t.nodes[id].nrPost]
    ensures rule.UnbalancedInterneuron? ==>
      Text.Numbers(EntryToFeed(rule, id, GetTable(rule, t).value[id]).value.reason)
        == [t.nodes[id].nrPost, t.nodes[id].nrPre]
  {
    var row := GetTable(rule, t).value[id];
    match rule
    case OrphanedSoma(_) =>
      assert FeedCounts(rule, row) == Some([Total(t.nodes[id])]);
    case MultipleSomas =>
      assert FeedCounts(rule, row) == Some([Count(t.soma, id)]);
    case ProblematicEfferent(_, _) =>
      assert FeedCounts(rule, row) == Some([t.nodes[id].nrPost]);
    case ProblematicAscending(_) =>
      assert FeedCounts(rule, row) == Some([t.nodes[id].nrPost]);
    case UnbalancedInterneuron(_, _, _, _) =>
      assert FeedCounts(rule, row) == Some([t.nodes[id].nrPost, t.nodes[id].nrPre]);
    case ProblematicAfferent(_, _) =>
    case ProblematicDescending(_) =>
  }

  /** A lower threshold never selects more orphaned somas. */
  lemma OrphanedSomaMonotone(t: TableSet, a: int, b: int)
    requires a <= b
    ensures OrphanedSomaTable(t, a).Keys <= OrphanedSomaTable(t, b).Keys
  {
  }

  /** A soma with exactly `thr` synapses is not orphaned: the comparison is strict. */
  lemma OrphanedSomaBoundary(t: TableSet, id: SegId)
    requires id in t.soma && id in t.nodes
    ensures id !in OrphanedSomaTable(t, Total(t.nodes[id]))
    ensures id in OrphanedSomaTable(t, Total(t.nodes[id]) + 1)
  {
  }

  /** `'all'` is nerve bundle ∩ soma, not the union of the per-type tables:
      a leg motor neuron with a nerve-bundle landmark but no soma landmark
      is selected for `'leg'` and not for `'all'`. */
  lemma EfferentAllIsNotUnionOfTypes()
    ensures var t := TableSet(map[1 := NodeRow(0, 0)], [], [], [1], [], [], [], [1], []);
      && 1 in ProblematicEfferentTable(t, 50, "leg").value
      && 1 !in ProblematicEfferentTable(t, 50, "all").value
  {
  }

  /** A segment with no outgoing synapses is unbalanced exactly when it has
      incoming ones (ratio +inf); 0/0 is never flagged. */
  lemma SilentOutputIsUnbalanced(n: NodeRow, low: Frac, high: Frac)
    requires n.nrPre == 0
    ensures Unbalanced(n, low, high) <==> n.nrPost > 0
  {
  }

  /** An ascending neuron (neck-connective landmark) is never an unbalanced
      interneuron: the two rules partition by landmark. */
  lemma AscendingAndInterneuronDisjoint(t: TableSet, thr: int, minTotal: int, low: Frac,
                                        high: Frac, requireSoma: bool)
    ensures ProblematicAscendingTable(t, thr).Keys
      !! UnbalancedInterneuronTable(t, minTotal, low, high, requireSoma).Keys
  {
  }
}

=== FILE: schedule.dfy ===
/** Wall-clock scheduling of the two periodic jobs: the server's hourly
    version check (`seconds_till_next_run`) and the first-generation dump
    loop, which checks at a quarter past every hour. Clock readings are
    parameters, in whole seconds.
 */
module Schedule {
  import opened Wrappers

  const SecondsPerHour: nat := 3600

  /** A reading of the clock within the day. */
  datatype Clock = Clock(hour: nat, minute: nat, second: nat)

  predicate ValidClock(c: Clock) { c.hour < 24 && c.minute < 60 && c.second < 60 }

  function SecondsPastHour(c: Clock): nat { c.minute * 60 + c.second }

  /** `seconds_till_next_run`: seconds until `minutesPastHour` minutes past
      the hour, this hour if that moment has not passed, else the next.
      `datetime` rejects a minute outside 0..59 with `ValueError`. */
  function SecondsTillNextRun(minutesPastHour: int, now: Clock): (r: Result<nat>)
    requires ValidClock(now)
    ensures r.Ok? <==> 0 <= minutesPastHour < 60
    ensures r.Err? ==> r.error == ValueError
    ensures r.Ok? ==> r.value < SecondsPerHour
    ensures r.Ok? ==> (SecondsPastHour(now) + r.value) % SecondsPerHour == minutesPastHour * 60
    ensures r.Ok? ==> (r.value == 0 <==> SecondsPastHour(now) == minutesPastHour * 60)
  {
    if minutesPastHour < 0 || minutesPastHour >= 60 then Err(ValueError)
    else
      var target := minutesPastHour * 60;
      var t := SecondsPastHour(now);
      var next := if t > target then target + SecondsPerHour else target;
      Ok(if next - t < 0 then 0 else next - t)
  }

  /** The wait is the shortest one that lands on the target minute: no
      earlier second of the wait is at the target. */
  lemma SecondsTillNextRunIsShortest(minutesPastHour: int, now: Clock, d: nat)
    requires ValidClock(now)
    requires 0 <= minutesPastHour < 60
    requires (SecondsPastHour(now) + d) % SecondsPerHour == minutesPastHour * 60
    ensures SecondsTillNextRun(minutesPastHour, now).value <= d
  {
    var t := SecondsPastHour(now);
    var target := minutesPastHour * 60;
    var q := (t + d) / 3600;
    assert t + d == q * 3600 + target;
    if t > target {
      assert q >= 1;
    }
  }

  /** The dump loop's next check as written: a quarter past this hour when
      the minute is below 15, else a quarter past `hour + 1`, which
      `datetime` rejects at hour 23. The result is the sleep in seconds. */
  function NextCheckAsWritten(now: Clock): (r: Result<nat>)
    requires ValidClock(now)
    ensures r.Err? <==> now.minute >= 15 && now.hour == 23
    ensures r.Err? ==> r.error == ValueError
    ensures r.Ok? ==> r == Ok(NextCheck(now))
  {
    if now.minute < 15 then Ok(15 * 60 - SecondsPastHour(now))
    else if now.hour + 1 >= 24 then Err(ValueError)
    else Ok(SecondsPerHour + 15 * 60 - SecondsPastHour(now))
  }

  /** The evidently intended next check: a quarter past the next hour,
      rolling over to the next day after 23:15. */
  function NextCheck(now: Clock): (r: nat)
    requires ValidClock(now)
    ensures 0 < r <= SecondsPerHour
    ensures (SecondsPastHour(now) + r) % SecondsPerHour == 15 * 60
  {
    if now.minute < 15 then 15 * 60 - SecondsPastHour(now)
    else SecondsPerHour + 15 * 60 - SecondsPastHour(now)
  }

  /** Just before midnight the loop as written stops with `ValueError`,
      where the intended schedule sleeps until 00:15. */
  lemma NextCheckFailsAtHour23()
    ensures NextCheckAsWritten(Clock(23, 30, 0)) == Err(ValueError)
    ensures NextCheck(Clock(23, 30, 0)) == 2700
  {
  }
}

=== FILE: server.dfy ===
/** The proofreading server: the serving pool of five priority tables,
    refreshed when a new snapshot appears; sampling one segment to propose
    to a user; and the Slack handlers that record what users report.

    The lookup service (`is_latest_roots`), the random shuffles, the
    channel history and the clock are parameters. The database is the
    value the handlers thread through; it excludes globally with the
    status vocabulary that contains `done` (see `ExclusionStore`).
 */
module Server {
  import opened Wrappers
  import opened Tables
  import opened Commands
  import opened ExclusionStore
  import Text
  import Rules
  import YspDataset
  import Snapshot

  /** The serving pool: one priority table per `/get` subcommand. */
  type Pool = map<PoolTable, Table>

  const AllTables: set<PoolTable> :=
    {OrphanedSomaTable, MultipleSomaTable, ProblematicAnTable, ProblematicMnTable, UnbalancedInTable}

  /** The `build_*` call, with its default arguments, behind each table. */
  function DefaultBuild(k: PoolTable): YspDataset.Build {
    match k
    case OrphanedSomaTable => YspDataset.BuildOrphanedSoma(10)
    case MultipleSomaTable => YspDataset.BuildMultipleSoma
    case ProblematicAnTable => YspDataset.BuildProblematicAn(50)
    case ProblematicMnTable => YspDataset.BuildProblematicEfferent(50, "leg")
    case UnbalancedInTable =>
      YspDataset.BuildUnbalancedInterneuron(200, Rules.DefaultLow, Rules.DefaultHigh, true)
  }

  /** The table `update_version` computes for a key. */
  function BuildTable(t: TableSet, k: PoolTable): Table {
    match k
    case OrphanedSomaTable => YspDataset.OrphanedSoma(t, 10)
    case MultipleSomaTable => YspDataset.MultipleSoma(t)
    case ProblematicAnTable => YspDataset.LowInput(t, Ids(t.neckConnective) * Ids(t.soma), 50)
    case ProblematicMnTable => YspDataset.LowInput(t, Ids(t.legMn), 50)
    case UnbalancedInTable =>
      YspDataset.UnbalancedInterneuron(t, 200, Rules.DefaultLow, Rules.DefaultHigh, true)
  }

  /** The new pool of `update_version`: every key, each built from the
      snapshot's tables. */
  function BuildPool(t: TableSet): (p: Pool)
    ensures p.Keys == AllTables
  {
    map k | k in AllTables :: BuildTable(t, k)
  }

  /** Every pool table is what the rule class of the same selection returns
      with the `build_*` defaults. */
  lemma PoolAgreesWithRules(ds: Snapshot.Dataset, k: PoolTable)
    ensures Rules.GetTable(YspDataset.RuleOf(DefaultBuild(k)), ds.tables) == Ok(BuildPool(ds.tables)[k])
  {
    YspDataset.RunAgreesWithRule(ds, DefaultBuild(k));
  }

  /** The globals `curr_version_timestamp`, `curr_version_dir`, `curr_pool`. */
  datatype State = State(timestamp: Option<int>, dir: Option<string>, pool: Option<Pool>)

  const Initial: State := State(None, None, None)

  /** The three globals are set together. */
  predicate Consistent(s: State) {
    && s.timestamp.Some? == s.dir.Some?
    && s.timestamp.Some? == s.pool.Some?
    && (s.pool.Some? ==> s.pool.value.Keys == AllTables)
  }

  /** The state after a version check and the directory it deletes. */
  datatype Update = Update(state: State, removed: Option<string>)

  /** `update_version` given the latest dataset: a known timestamp changes
      nothing; a new one replaces the pool, records the new directory and
      deletes the previous one. */
  function UpdateVersion(s: State, ds: Snapshot.Dataset): (r: Update)
    ensures s.timestamp == Some(ds.timestamp) ==> r == Update(s, None)
    ensures s.timestamp != Some(ds.timestamp) ==>
      && r.state.timestamp == Some(ds.timestamp) && r.state.dir == Some(ds.dir)
      && r.state.pool == Some(BuildPool(ds.tables))
      && r.removed == s.dir
    ensures Consistent(s) ==> Consistent(r.state)
    ensures r.state.timestamp == Some(ds.timestamp)
  {
    if s.timestamp == Some(ds.timestamp) then Update(s, None)
    else Update(State(Some(ds.timestamp), Some(ds.dir), Some(BuildPool(ds.tables))), s.dir)
  }

  /** A second check that finds the same snapshot changes nothing and
      deletes nothing. */
  lemma UpdateVersionIdempotent(s: State, ds: Snapshot.Dataset)
    ensures var once := UpdateVersion(s, ds).state;
      UpdateVersion(once, ds) == Update(once, None)
  {
  }

  /** After the first check the server is serving; a check never deletes
      the directory it is about to serve when directories of different
      timestamps differ. */
  lemma UpdateVersionServes(s: State, ds: Snapshot.Dataset)
    requires Consistent(s)
    requires s.timestamp.Some? && s.timestamp != Some(ds.timestamp) ==> s.dir != Some(ds.dir)
    ensures UpdateVersion(s, ds).state.pool.Some?
    ensures UpdateVersion(s, ds).removed != Some(ds.dir)
  {
  }

  // ---------------------------------------------------------------------
  // Sampling

  const ServerUser: string := "SERVER"
  const Expired: string := "expired"

  /** The statuses that exclude a segment for every user. */
  const SkipStatuses: set<string> := ConnectorSkipStatusesWithDone

  /** Segments not to propose to `user`: their skiplist and the global set. */
  function Excluded(db: Db, user: string): set<SegId> {
    UserSkiplist(db.skiplist, user) + GlobalSegidsToSkip(db.status, SkipStatuses)
  }

  /** `db2` is `db` with status records appended and nothing else changed. */
  predicate StatusExtends(db: Db, db2: Db) {
    && db2.skiplist == db.skiplist && db2.annotation == db.annotation
    && |db.status| <= |db2.status| && db2.status[..|db.status|] == db.status
  }

  /** ... and every appended record marks a stale segment expired, by the
      server, at `now`. */
  predicate OnlyExpiredAdded(db: Db, db2: Db, isLatest: SegId -> bool, now: int) {
    && StatusExtends(db, db2)
    && forall i | |db.status| <= i < |db2.status| ::
         db2.status[i] == StatusRecord(db2.status[i].segid, Expired, ServerUser, now)
         && !isLatest(db2.status[i].segid)
  }

  /** Appending status records never shrinks what is excluded. */
  lemma ExcludedGrows(db: Db, db2: Db, user: string)
    requires StatusExtends(db, db2)
    ensures Excluded(db, user) <= Excluded(db2, user)
  {
    GlobalGrows(db, db2);
  }

  /** Appending records never unskips a segment. */
  lemma GlobalGrows(db: Db, db2: Db)
    requires StatusExtends(db, db2)
    ensures GlobalSegidsToSkip(db.status, SkipStatuses) <= GlobalSegidsToSkip(db2.status, SkipStatuses)
  {
    forall s | s in GlobalSegidsToSkip(db.status, SkipStatuses)
      ensures s in GlobalSegidsToSkip(db2.status, SkipStatuses)
    {
      var i :| 0 <= i < |db.status| && db.status[i].status in SkipStatuses && db.status[i].segid == s;
      assert db2.status[i] == db2.status[..|db.status|][i];
    }
  }

  lemma OnlyExpiredAddedTrans(a: Db, b: Db, c: Db, isLatest: SegId -> bool, now: int)
    requires OnlyExpiredAdded(a, b, isLatest, now) && OnlyExpiredAdded(b, c, isLatest, now)
    ensures OnlyExpiredAdded(a, c, isLatest, now)
  {
    assert c.status[..|a.status|] == c.status[..|b.status|][..|a.status|];
    forall i | |a.status| <= i < |c.status|
      ensures c.status[i] == StatusRecord(c.status[i].segid, Expired, ServerUser, now)
      ensures !isLatest(c.status[i].segid)
    {
      if i < |b.status| {
        assert c.status[i] == c.status[..|b.status|][i];
      }
    }
  }

  /** The feed line the server writes for a row of a pool table; `KeyError`
      when the row lacks a column the message reads. */
  function ServerFeed(k: PoolTable, segid: SegId, row: Row): (r: Result<Rules.Feed>)
    ensures r.Ok? ==> r.value.segid == segid
    ensures r.Err? ==> r.error == KeyError
  {
    match k
    case OrphanedSomaTable =>
      if TotalSynapsesColumn(row).None? then Err(KeyError)
      else Ok(Rules.Feed(segid, "Orphaned soma",
        Rules.Mention("This soma is only attached to ", TotalSynapsesColumn(row).value, " synapses.")))
    case MultipleSomaTable =>
      if NumSomasColumn(row).None? then Err(KeyError)
      else Ok(Rules.Feed(segid, "Multiple somas", Rules.MultipleSomasReason(NumSomasColumn(row).value)))
    case ProblematicAnTable =>
      if NrPostColumn(row).None? then Err(KeyError)
      else Ok(Rules.Feed(segid, "Ascending neuron", Rules.AscendingReason(NrPostColumn(row).value)))
    case ProblematicMnTable =>
      if NrPostColumn(row).None? then Err(KeyError)
      else Ok(Rules.Feed(segid, "Motor neuron", Rules.MotorNeuronReason(NrPostColumn(row).value)))
    case UnbalancedInTable =>
      if NrPostColumn(row).None? || NrPreColumn(row).None? then Err(KeyError)
      else Ok(Rules.Feed(segid, "VNC interneuron",
        Rules.UnbalancedReason(NrPostColumn(row).value, NrPreColumn(row).value)))
  }

  /** Apart from the orphaned-soma wording, the server writes the feed line
      of the rule class behind the table; for orphaned somas the kind and
      the number mentioned agree. */
  lemma ServerFeedAgreesWithRule(k: PoolTable, segid: SegId, row: Row)
    ensures k != OrphanedSomaTable ==>
      ServerFeed(k, segid, row) == Rules.EntryToFeed(YspDataset.RuleOf(DefaultBuild(k)), segid, row)
    ensures k == OrphanedSomaTable ==>
      var mine := ServerFeed(k, segid, row);
      var theirs := Rules.EntryToFeed(YspDataset.RuleOf(DefaultBuild(k)), segid, row);
      && mine.Ok? == theirs.Ok?
      && (mine.Ok? ==> mine.value.kind == theirs.value.kind
                       && Text.Numbers(mine.value.reason) == Text.Numbers(theirs.value.reason))
  {
    match k
    case OrphanedSomaTable =>
      assert YspDataset.RuleOf(DefaultBuild(k)) == Rules.OrphanedSoma(10);
    case MultipleSomaTable =>
      assert YspDataset.RuleOf(DefaultBuild(k)) == Rules.MultipleSomas;
    case ProblematicAnTable =>
      assert YspDataset.RuleOf(DefaultBuild(k)) == Rules.ProblematicAscending(50);
    case ProblematicMnTable =>
      assert YspDataset.RuleOf(DefaultBuild(k)) == Rules.ProblematicEfferent(50, "leg");
    case UnbalancedInTable =>
      assert YspDataset.RuleOf(DefaultBuild(k))
          == Rules.UnbalancedInterneuron(200, Rules.DefaultLow, Rules.DefaultHigh, true);
  }

  /** The loop over the shuffled rows of one table: excluded rows are
      skipped, a stale segment is marked expired and skipped, and the first
      current segment is proposed. */
  function Scan(db: Db, k: PoolTable, table: Table, order: seq<SegId>, excluded: set<SegId>,
                isLatest: SegId -> bool, now: int): (r: (Db, Result<Option<Rules.Feed>>))
    requires forall x | x in order :: x in table
    ensures OnlyExpiredAdded(db, r.0, isLatest, now)
    ensures forall i | |db.status| <= i < |r.0.status| ::
      r.0.status[i].segid in order && r.0.status[i].segid !in excluded
    ensures r.1.Ok? && r.1.value.Some? ==>
      var id := r.1.value.value.segid;
      id in order && id !in excluded && isLatest(id)
    ensures r.1.Err? ==> r.1.error == KeyError
    decreases |order|
  {
    if |order| == 0 then (db, Ok(None))
    else
      var id := order[0];
      assert forall x | x in order[1..] :: x in order;
      if id in excluded then Scan(db, k, table, order[1..], excluded, isLatest, now)
      else if !isLatest(id) then
        var db1 := SetStatus(db, id, Expired, ServerUser, now);
        var r := Scan(db1, k, table, order[1..], excluded, isLatest, now);
        OnlyExpiredAddedTrans(db, db1, r.0, isLatest, now);
        assert forall i | |db1.status| <= i < |r.0.status| :: r.0.status[i].segid in order;
        assert r.0.status[|db.status|] == r.0.status[..|db1.status|][|db.status|];
        r
      else
        match ServerFeed(k, id, table[id])
        case Err(e) => (db, Err(e))
        case Ok(f) => (db, Ok(Some(f)))
  }

  /** When the loop runs out, every row it saw was excluded before or is now
      marked expired. */
  lemma {:induction false} ScanNoneExhausts(db: Db, k: PoolTable, table: Table, order: seq<SegId>,
                                            excluded: set<SegId>, isLatest: SegId -> bool, now: int)
    requires forall x | x in order :: x in table
    requires Scan(db, k, table, order, excluded, isLatest, now).1 == Ok(None)
    ensures var db2 := Scan(db, k, table, order, excluded, isLatest, now).0;
      forall x | x in order :: x in excluded || x in GlobalSegidsToSkip(db2.status, SkipStatuses)
    decreases |order|
  {
    if |order| > 0 {
      var id := order[0];
      var rest := order[1..];
      assert forall x | x in rest :: x in order;
      if id in excluded {
        assert Scan(db, k, table, order, excluded, isLatest, now) == Scan(db, k, table, rest, excluded, isLatest, now);
        ScanNoneExhausts(db, k, table, rest, excluded, isLatest, now);
      } else {
        assert !isLatest(id);
        var db1 := SetStatus(db, id, Expired, ServerUser, now);
        assert Scan(db, k, table, order, excluded, isLatest, now) == Scan(db1, k, table, rest, excluded, isLatest, now);
        var db2 := Scan(db1, k, table, rest, excluded, isLatest, now).0;
        ScanNoneExhausts(db1, k, table, rest, excluded, isLatest, now);
        SetStatusThenQuery(db, id, Expired, ServerUser, now, SkipStatuses);
        GlobalGrows(db1, db2);
        forall x | x in order ensures x in excluded || x in GlobalSegidsToSkip(db2.status, SkipStatuses) {
          if x != id { assert x in rest; }
        }
      }
    }
  }

  /** The shuffle of every table lists each of its rows exactly once. */
  predicate Shuffles(pool: Pool, shuffled: PoolTable -> seq<SegId>) {
    forall k | k in pool :: Ids(shuffled(k)) == pool[k].Keys && |shuffled(k)| == |pool[k]|
  }

  /** `random.shuffle(list(curr_pool.keys()))`: every key exactly once. */
  predicate ShuffledKeys(pool: Pool, tables: seq<PoolTable>) {
    (forall k :: k in tables <==> k in pool) && |tables| == |pool|
  }

  /** `sample_one_segment` for a named table. */
  function SampleOne(db: Db, pool: Pool, k: PoolTable, user: string,
                     shuffled: PoolTable -> seq<SegId>, isLatest: SegId -> bool, now: int)
    : (r: (Db, Result<Option<Rules.Feed>>))
    requires Shuffles(pool, shuffled)
    ensures OnlyExpiredAdded(db, r.0, isLatest, now)
    ensures r.1.Err? ==> (r.1.error == AssertionError <==> k !in pool)
    ensures k !in pool ==> r == (db, Err(AssertionError))
    ensures r.1.Ok? && r.1.value.Some? ==>
      var id := r.1.value.value.segid;
      k in pool && id in pool[k] && id !in Excluded(db, user) && isLatest(id)
  {
    if k !in pool then (db, Err(AssertionError))
    else
      var order := shuffled(k);
      assert forall x | x in order :: x in Ids(order);
      Scan(db, k, pool[k], order, Excluded(db, user), isLatest, now)
  }

  /** A table that yields nothing is exhausted for the user afterwards. */
  lemma SampleOneNoneExhausts(db: Db, pool: Pool, k: PoolTable, user: string,
                              shuffled: PoolTable -> seq<SegId>, isLatest: SegId -> bool, now: int)
    requires Shuffles(pool, shuffled) && k in pool
    requires SampleOne(db, pool, k, user, shuffled, isLatest, now).1 == Ok(None)
    ensures pool[k].Keys <= Excluded(SampleOne(db, pool, k, user, shuffled, isLatest, now).0, user)
  {
    var order := shuffled(k);
    assert forall x | x in order :: x in Ids(order);
    ScanNoneExhausts(db, k, pool[k], order, Excluded(db, user), isLatest, now);
    var db2 := SampleOne(db, pool, k, user, shuffled, isLatest, now).0;
    ExcludedGrows(db, db2, user);
    forall x | x in pool[k] ensures x in Excluded(db2, user) {
      assert x in Ids(order);
    }
  }

  /** `sample_one_segment(None, user)`: the tables in shuffled order until
      one yields a segment; an exception ends the search. */
  function SampleAny(db: Db, pool: Pool, tables: seq<PoolTable>, user: string,
                     shuffled: PoolTable -> seq<SegId>, isLatest: SegId -> bool, now: int)
    : (r: (Db, Result<Option<Rules.Feed>>))
    requires Shuffles(pool, shuffled)
    ensures OnlyExpiredAdded(db, r.0, isLatest, now)
    ensures r.1.Ok? && r.1.value.Some? ==>
      var id := r.1.value.value.segid;
      && id !in Excluded(db, user) && isLatest(id)
      && exists k | k in tables :: k in pool && id in pool[k]
    decreases |tables|
  {
    if |tables| == 0 then (db, Ok(None))
    else
      var (db1, r1) := SampleOne(db, pool, tables[0], user, shuffled, isLatest, now);
      if r1.Err? || r1.value.Some? then (db1, r1)
      else
        var r := SampleAny(db1, pool, tables[1..], user, shuffled, isLatest, now);
        OnlyExpiredAddedTrans(db, db1, r.0, isLatest, now);
        ExcludedGrows(db, db1, user);
        assert forall k | k in tables[1..] :: k in tables;
        r
  }

  /** When every table yields nothing, every table is exhausted. */
  lemma {:induction false} SampleAnyNoneExhausts(db: Db, pool: Pool, tables: seq<PoolTable>, user: string,
                                                 shuffled: PoolTable -> seq<SegId>,
                                                 isLatest: SegId -> bool, now: int)
    requires Shuffles(pool, shuffled)
    requires forall k | k in tables :: k in pool
    requires SampleAny(db, pool, tables, user, shuffled, isLatest, now).1 == Ok(None)
    ensures var db2 := SampleAny(db, pool, tables, user, shuffled, isLatest, now).0;
      forall k | k in tables :: pool[k].Keys <= Excluded(db2, user)
    decreases |tables|
  {
    if |tables| > 0 {
      var rest := tables[1..];
      var one := SampleOne(db, pool, tables[0], user, shuffled, isLatest, now);
      assert one.1 == Ok(None);
      var db1 := one.0;
      assert SampleAny(db, pool, tables, user, shuffled, isLatest, now)
          == SampleAny(db1, pool, rest, user, shuffled, isLatest, now);
      var db2 := SampleAny(db1, pool, rest, user, shuffled, isLatest, now).0;
      SampleOneNoneExhausts(db, pool, tables[0], user, shuffled, isLatest, now);
      assert forall k | k in rest :: k in tables;
      SampleAnyNoneExhausts(db1, pool, rest, user, shuffled, isLatest, now);
      ExcludedGrows(db1, db2, user);
      forall k | k in tables ensures pool[k].Keys <= Excluded(db2, user) {
        if k != tables[0] { assert k in rest; }
      }
    }
  }

  /** `sample_one_segment(table, user)`; `tables` is the shuffled key list. */
  function Sample(db: Db, pool: Pool, table: Option<PoolTable>, tables: seq<PoolTable>, user: string,
                  shuffled: PoolTable -> seq<SegId>, isLatest: SegId -> bool, now: int)
    : (r: (Db, Result<Option<Rules.Feed>>))
    requires Shuffles(pool, shuffled)
    requires table.None? ==> ShuffledKeys(pool, tables)
    ensures OnlyExpiredAdded(db, r.0, isLatest, now)
    ensures r.1.Ok? && r.1.value.Some? ==>
      var id := r.1.value.value.segid;
      && id !in Excluded(db, user) && isLatest(id)
      && (table.Some? ==> table.value in pool && id in pool[table.value])
  {
    match table
    case None => SampleAny(db, pool, tables, user, shuffled, isLatest, now)
    case Some(k) => SampleOne(db, pool, k, user, shuffled, isLatest, now)
  }

  // ---------------------------------------------------------------------
  // Slack handlers

  /** The two names Slack gives one person. `/get` samples under the user
      id (`body['user_id']`, such as `U01ABCDEF`); the button handlers
      record under the handle (`body['user']['username']`). */
  datatype SlackUser = SlackUser(id: string, username: string)

  /** What `/get` answers. */
  datatype GetReply = NoPool | Raised(error: Error) | NoMoreSegments | Proposal(feed: Rules.Feed)

  /** `/get [keyword]`: nothing before a pool is loaded; an unknown keyword
      raises; otherwise one segment sampled for the user id, or the
      end-of-pool message. */
  function HandleGet(state: State, text: string, db: Db, u: SlackUser, tables: seq<PoolTable>,
                     shuffled: PoolTable -> seq<SegId>, isLatest: SegId -> bool, now: int)
    : (r: (Db, GetReply))
    requires state.pool.Some? ==> Shuffles(state.pool.value, shuffled)
    requires state.pool.Some? ==> ShuffledKeys(state.pool.value, tables)
    ensures state.pool.None? ==> r == (db, NoPool)
    ensures ParseGet(text).Err? ==> r.0 == db && (r.1.Raised? || r.1.NoPool?)
    ensures OnlyExpiredAdded(db, r.0, isLatest, now)
    ensures r.1.Proposal? ==>
      && state.pool.Some? && r.1.feed.segid !in Excluded(db, u.id) && isLatest(r.1.feed.segid)
      && (ParseGet(text).Ok? && ParseGet(text).value.Some? ==>
            && ParseGet(text).value.value in state.pool.value
            && r.1.feed.segid in state.pool.value[ParseGet(text).value.value])
  {
    if state.pool.None? then (db, NoPool)
    else match ParseGet(text)
      case Err(e) => (db, Raised(e))
      case Ok(table) =>
        var (db2, res) := Sample(db, state.pool.value, table, tables, u.id, shuffled, isLatest, now);
        match res
        case Err(e) => (db2, Raised(e))
        case Ok(None) => (db2, NoMoreSegments)
        case Ok(Some(f)) => (db2, Proposal(f))
  }

  /** `/get` with no keyword says there is nothing left only when every
      table is exhausted for the user id. */
  lemma GetNoMoreMeansExhausted(state: State, text: string, db: Db, u: SlackUser,
                                tables: seq<PoolTable>, shuffled: PoolTable -> seq<SegId>,
                                isLatest: SegId -> bool, now: int)
    requires state.pool.Some? && Shuffles(state.pool.value, shuffled)
    requires ShuffledKeys(state.pool.value, tables)
    requires ParseGet(text) == Ok(None)
    requires HandleGet(state, text, db, u, tables, shuffled, isLatest, now).1 == NoMoreSegments
    ensures var db2 := HandleGet(state, text, db, u, tables, shuffled, isLatest, now).0;
      forall k | k in state.pool.value :: state.pool.value[k].Keys <= Excluded(db2, u.id)
  {
    SampleAnyNoneExhausts(db, state.pool.value, tables, u.id, shuffled, isLatest, now);
  }

  /** The message holding a proposal's segment-ID field, posted at `ts`. */
  function ProposalMessage(f: Rules.Feed, ts: int): Message {
    Message(ts, Some(RenderSegidField(f.segid)))
  }

  /** The three buttons under a proposal. */
  datatype Button = Fixed | NothingWrong | SkipButton

  /** What a button writes for segment `n`: `fixed` or `noaction` by
      `user`, or a skiplist record under `skipKey`. */
  function RecordButton(db: Db, b: Button, n: SegId, skipKey: string, user: string, now: int): (r: Db)
    ensures n in Excluded(r, skipKey)
    ensures b != SkipButton ==> forall other :: n in Excluded(r, other)
    ensures b != SkipButton ==> r.skiplist == db.skiplist
    ensures b == SkipButton ==> r.status == db.status
    ensures b == SkipButton ==> forall other | other != skipKey :: Excluded(r, other) == Excluded(db, other)
    ensures r.annotation == db.annotation
  {
    match b
    case Fixed =>
      SetStatusThenQuery(db, n, "fixed", user, now, SkipStatuses);
      SetStatus(db, n, "fixed", user, now)
    case NothingWrong =>
      SetStatusThenQuery(db, n, "noaction", user, now, SkipStatuses);
      SetStatus(db, n, "noaction", user, now)
    case SkipButton =>
      var r := AddToUserSkiplist(db, skipKey, n, now);
      AddThenQuery(db, skipKey, n, now, skipKey);
      forall other | other != skipKey ensures Excluded(r, other) == Excluded(db, other) {
        AddThenQuery(db, skipKey, n, now, other);
      }
      r
  }

  /** The button handlers as written: find the segment from the channel
      history, then record `fixed` or `noaction`, or add it to the skiplist
      of the HANDLE; nothing is written when the segment cannot be found. */
  function HandleButton(db: Db, b: Button, history: seq<Message>, u: SlackUser, now: int): (r: Db)
    ensures FindSegidFromButtonClick(history).None? ==> r == db
    ensures FindSegidFromButtonClick(history).Some? ==>
      var n := FindSegidFromButtonClick(history).value;
      && n in Excluded(r, u.username)
      && (b != SkipButton ==> forall other :: n in Excluded(r, other))
      && (b != SkipButton ==> r.skiplist == db.skiplist)
      && (b == SkipButton ==> r.status == db.status)
    ensures b == SkipButton ==>
      forall other | other != u.username :: Excluded(r, other) == Excluded(db, other)
    ensures r.annotation == db.annotation
  {
    match FindSegidFromButtonClick(history)
    case None => db
    case Some(n) => RecordButton(db, b, n, u.username, u.username, now)
  }

  /** The handlers as evidently intended: the skip is recorded under the
      user id that `/get` samples for. */
  function HandleButtonIntended(db: Db, b: Button, history: seq<Message>, u: SlackUser, now: int): (r: Db)
    ensures FindSegidFromButtonClick(history).None? ==> r == db
    ensures FindSegidFromButtonClick(history).Some? ==>
      var n := FindSegidFromButtonClick(history).value;
      && n in Excluded(r, u.id)
      && (b != SkipButton ==> forall other :: n in Excluded(r, other))
      && (b == SkipButton ==> r.status == db.status)
    ensures r.annotation == db.annotation
  {
    match FindSegidFromButtonClick(history)
    case None => db
    case Some(n) => RecordButton(db, b, n, u.id, u.username, now)
  }

  /** The outcome of the scan does not depend on the database it appends
      to, only on the exclusions read before it. */
  lemma {:induction false} ScanOutcomeIgnoresDb(db: Db, db2: Db, k: PoolTable, table: Table, order: seq<SegId>,
                                                excluded: set<SegId>, isLatest: SegId -> bool, now: int)
    requires forall x | x in order :: x in table
    ensures Scan(db, k, table, order, excluded, isLatest, now).1
         == Scan(db2, k, table, order, excluded, isLatest, now).1
    decreases |order|
  {
    if |order| > 0 {
      assert forall x | x in order[1..] :: x in order;
      var id := order[0];
      if id in excluded {
        ScanOutcomeIgnoresDb(db, db2, k, table, order[1..], excluded, isLatest, now);
      } else if !isLatest(id) {
        ScanOutcomeIgnoresDb(SetStatus(db, id, Expired, ServerUser, now), SetStatus(db2, id, Expired, ServerUser, now),
                             k, table, order[1..], excluded, isLatest, now);
      }
    }
  }

  /** Two databases with the same exclusions for `user` give the same
      sample for `user`. */
  lemma SampleOneOutcome(db: Db, db2: Db, pool: Pool, k: PoolTable, user: string,
                         shuffled: PoolTable -> seq<SegId>, isLatest: SegId -> bool, now: int)
    requires Shuffles(pool, shuffled)
    requires Excluded(db, user) == Excluded(db2, user)
    ensures SampleOne(db, pool, k, user, shuffled, isLatest, now).1
         == SampleOne(db2, pool, k, user, shuffled, isLatest, now).1
  {
    if k in pool {
      var order := shuffled(k);
      assert forall x | x in order :: x in Ids(order);
      ScanOutcomeIgnoresDb(db, db2, k, pool[k], order, Excluded(db, user), isLatest, now);
    }
  }

  /** As written, `fixed` and `noaction` keep the proposed segment from
      every later sample, but a skip changes no sample for any key other
      than the handle, so the user's next `/get`, made under the user id,
      is the same as if the button had not been pressed. */
  lemma ButtonExcludesProposalAsWritten(db: Db, f: Rules.Feed, tProposal: int, tButtons: int,
                                        buttonsField: Option<string>, proposalFirst: bool, b: Button,
                                        u: SlackUser, now: int, pool: Pool, k: PoolTable, who: string,
                                        shuffled: PoolTable -> seq<SegId>, isLatest: SegId -> bool, later: int)
    requires tProposal < tButtons
    requires Shuffles(pool, shuffled)
    ensures var p := ProposalMessage(f, tProposal);
      var q := Message(tButtons, buttonsField);
      var db2 := HandleButton(db, b, if proposalFirst then [p, q] else [q, p], u, now);
      var next := SampleOne(db2, pool, k, who, shuffled, isLatest, later).1;
      && (b != SkipButton && next.Ok? && next.value.Some? ==> next.value.value.segid != f.segid)
      && (b == SkipButton && who != u.username ==> next == SampleOne(db, pool, k, who, shuffled, isLatest, later).1)
  {
    ButtonClickRoundTrip(f.segid, tProposal, tButtons, buttonsField, proposalFirst);
    var p := ProposalMessage(f, tProposal);
    var q := Message(tButtons, buttonsField);
    var db2 := HandleButton(db, b, if proposalFirst then [p, q] else [q, p], u, now);
    if b == SkipButton && who != u.username {
      SampleOneOutcome(db2, db, pool, k, who, shuffled, isLatest, later);
    }
  }

  /** User id `U1` with handle `alice` is proposed segment 7, presses Skip,
      and is proposed segment 7 again by the next `/get`. */
  lemma SkipThenGetProposesAgain(f: Rules.Feed)
    requires f.segid == 7
    ensures var u := SlackUser("U1", "alice");
      var pool: Pool := map[MultipleSomaTable := map[7 := SomaCountRow(2)]];
      var shuffled := (t: PoolTable) => [7];
      var db2 := HandleButton(Empty, SkipButton, [ProposalMessage(f, 1), Message(2, None)], u, 2);
      var next := SampleOne(db2, pool, MultipleSomaTable, u.id, shuffled, (x: SegId) => true, 3).1;
      next.Ok? && next.value.Some? && next.value.value.segid == 7
  {
    var u := SlackUser("U1", "alice");
    var pool: Pool := map[MultipleSomaTable := map[7 := SomaCountRow(2)]];
    var shuffled := (t: PoolTable) => [7];
    assert Ids(shuffled(MultipleSomaTable)) == pool[MultipleSomaTable].Keys;
    assert u.id != u.username;
    ButtonExcludesProposalAsWritten(Empty, f, 1, 2, None, true, SkipButton, u, 2, pool, MultipleSomaTable,
                                    u.id, shuffled, (x: SegId) => true, 3);
    assert Excluded(Empty, u.id) == {};
  }

  /** With the skip keyed like `/get`, a button pressed under a proposal
      excludes the proposed segment: the next sample for that user id
      (for every key after `fixed` or `noaction`) never proposes it. */
  lemma ButtonExcludesProposal(db: Db, f: Rules.Feed, tProposal: int, tButtons: int,
                               buttonsField: Option<string>, proposalFirst: bool, b: Button,
                               u: SlackUser, now: int, pool: Pool, k: PoolTable, who: string,
                               shuffled: PoolTable -> seq<SegId>, isLatest: SegId -> bool, later: int)
    requires tProposal < tButtons
    requires Shuffles(pool, shuffled)
    ensures var p := ProposalMessage(f, tProposal);
      var q := Message(tButtons, buttonsField);
      var db2 := HandleButtonIntended(db, b, if proposalFirst then [p, q] else [q, p], u, now);
      var next := SampleOne(db2, pool, k, who, shuffled, isLatest, later).1;
      (who == u.id || b != SkipButton) && next.Ok? && next.value.Some? ==> next.value.value.segid != f.segid
  {
    ButtonClickRoundTrip(f.segid, tProposal, tButtons, buttonsField, proposalFirst);
  }

  /** `/mark <segid> <status>`: the parsed command (echoed back), and one
      status record by the user; a command that does not match changes
      nothing; a segment id sqlite3 cannot bind raises OverflowError, which
      the handler does not catch. */
  function HandleMark(db: Db, text: string, user: string, now: int): (r: (Db, Result<Option<Mark>>))
    ensures r.1.Err? <==> ParseMark(text).Some? && !FitsSqlite(ParseMark(text).value.segid)
    ensures r.1.Err? ==> r.1.error == OverflowError && r.0 == db
    ensures r.1.Ok? ==> r.1.value == ParseMark(text)
    ensures r.1 == Ok(None) ==> r.0 == db
    ensures r.1.Ok? && r.1.value.Some? ==>
      var m := r.1.value.value;
      && r.0.skiplist == db.skiplist && r.0.annotation == db.annotation
      && |r.0.status| == |db.status| + 1 && r.0.status[..|db.status|] == db.status
      && r.0.status[|db.status|] == StatusRecord(m.segid, m.state, user, now)
  {
    match ParseMark(text)
    case None => (db, Ok(None))
    case Some(m) =>
      if !FitsSqlite(m.segid) then (db, Err(OverflowError))
      else (SetStatus(db, m.segid, m.state, user, now), Ok(Some(m)))
  }

  /** `/mark <n> <status>` excludes `n` for everybody exactly when the
      status is one that skips. */
  lemma MarkCommandExcludes(db: Db, n: SegId, status: string, user: string, now: int, other: string)
    requires |status| > 0 && Text.NoNewline(status) && !Text.IsSpace(status[0])
    ensures var db2 := HandleMark(db, Text.NatToString(n) + " " + status, user, now).0;
      && (FitsSqlite(n) ==>
            GlobalSegidsToSkip(db2.status, SkipStatuses)
            == GlobalSegidsToSkip(db.status, SkipStatuses) + (if status in SkipStatuses then {n} else {}))
      && (!FitsSqlite(n) ==> db2 == db)
      && UserSkiplist(db2.skiplist, other) == UserSkiplist(db.skiplist, other)
  {
    ParseMarkRoundTrip(n, " ", status);
    SetStatusThenQuery(db, n, status, user, now, SkipStatuses);
  }

  /** `/annotate <segid> (<x>, <y>, <z>) <message>`: the parsed command and
      one annotation record; a command that does not match changes
      nothing; an id or coordinate sqlite3 cannot bind raises OverflowError,
      which the handler does not catch. An annotation never changes what is
      excluded. */
  function HandleAnnotate(db: Db, text: string, user: string, now: int)
    : (r: (Db, Result<Option<Annotation>>))
    ensures r.1.Err? <==> ParseAnnotate(text).Some? && !Binds(ParseAnnotate(text).value)
    ensures r.1.Err? ==> r.1.error == OverflowError && r.0 == db
    ensures r.1.Ok? ==> r.1.value == ParseAnnotate(text)
    ensures r.1 == Ok(None) ==> r.0 == db
    ensures r.0.skiplist == db.skiplist && r.0.status == db.status
    ensures r.1.Ok? && r.1.value.Some? ==>
      var a := r.1.value.value;
      && |r.0.annotation| == |db.annotation| + 1 && r.0.annotation[..|db.annotation|] == db.annotation
      && r.0.annotation[|db.annotation|] == AnnotationRecord(a.segid, a.message, user, now, a.x, a.y, a.z)
  {
    match ParseAnnotate(text)
    case None => (db, Ok(None))
    case Some(a) =>
      if !Binds(a) then (db, Err(OverflowError))
      else (SetAnnotation(db, a.segid, a.message, user, (a.x, a.y, a.z), now), Ok(Some(a)))
  }

  /** Every integer of an annotation fits sqlite3's INTEGER. */
  predicate Binds(a: Annotation) {
    FitsSqlite(a.segid) && FitsSqlite(a.x) && FitsSqlite(a.y) && FitsSqlite(a.z)
  }

  /** The command as the usage message shows it stores exactly its segment,
      position and message; a negative coordinate stores nothing. */
  lemma AnnotateCommandRecords(db: Db, n: SegId, x: int, y: int, z: int, msg: string,
                               user: string, now: int)
    requires |msg| > 0 && Text.NoNewline(msg) && !Text.IsSpace(msg[0])
    ensures var db2 := HandleAnnotate(db, RenderAnnotate(n, x, y, z, msg), user, now).0;
      var fits := FitsSqlite(n) && FitsSqlite(x) && FitsSqlite(y) && FitsSqlite(z);
      && (x >= 0 && y >= 0 && z >= 0 && fits ==>
            db2.annotation == db.annotation + [AnnotationRecord(n, msg, user, now, x, y, z)])
      && (x < 0 || y < 0 || z < 0 || !fits ==> db2 == db)
  {
    AnnotateRoundTrip(n, x, y, z, msg);
  }
}

=== FILE: snapshot.dfy ===
/** The snapshot ("version") store behind a `FANCDataset`.

    Every materialization timestamp gets a directory `bc_dump_<ts>` under the
    dump directory. It holds the downloaded node and edge dumps, the CAVE
    landmark tables re-materialized to that timestamp, the neck-connective
    table, and finally the empty marker file `version_ready`; a directory is
    usable only once the marker exists. Computed priority tables are cached
    in its `priority_tables` sub-directory.

    The filesystem is a map from directory name to `Dir`; a `Dir` records the
    names of the files present, the tables those files decode to, and the
    cached priority tables by file name. The network (the dump listing, the
    dump files, the point-to-segment lookup service) enters as parameters.
 */
module Snapshot {
  import opened Wrappers
  import opened Tables
  import Text

  const VersionReady: string := "version_ready"
  const NodesFile: string := "bc_nodes.parquet"
  const EdgesFile: string := "bc_edges.parquet"
  const NeckFile: string := "neck_connective.parquet"
  const Parquet: string := ".parquet"

  /** `config['cave']['tables']`: the CAVE table name of each landmark role,
      in the configuration's order. */
  datatype CaveConfig = CaveConfig(
    soma: string, legMn: string, haltereMn: string, wingMn: string,
    neckMn: string, nerveBundle: string)

  function CaveNames(c: CaveConfig): seq<string> {
    [c.soma, c.legMn, c.haltereMn, c.wingMn, c.neckMn, c.nerveBundle]
  }

  /** `cave_<name>.parquet`. */
  function CaveFile(name: string): string { "cave_" + name + Parquet }

  function CaveFiles(names: seq<string>): (r: seq<string>)
    ensures |r| == |names|
    ensures forall i | 0 <= i < |names| :: r[i] == CaveFile(names[i])
  {
    if |names| == 0 then [] else [CaveFile(names[0])] + CaveFiles(names[1..])
  }

  /** The files `from_path` reads. */
  function RequiredFiles(c: CaveConfig): set<string> {
    {NodesFile, EdgesFile, NeckFile} + set n | n in CaveNames(c) :: CaveFile(n)
  }

  datatype Dir = Dir(files: set<string>, tables: TableSet, priority: map<FileName, PriorityTable>)

  /** Directory name -> directory, for the directories under the dump directory. */
  type Store = map<string, Dir>

  const NoTables: TableSet := TableSet(map[], [], [], [], [], [], [], [], [])

  /** `mkdir` of a directory that did not exist. */
  const EmptyDir: Dir := Dir({}, NoTables, map[])

  predicate Ready(d: Dir) { VersionReady in d.files }

  /** The store invariant: a marked directory holds every table. */
  predicate Consistent(d: Dir, c: CaveConfig) {
    Ready(d) ==> RequiredFiles(c) <= d.files
  }

  predicate AllConsistent(s: Store, c: CaveConfig) {
    forall n | n in s :: Consistent(s[n], c)
  }

  /** `bc_dump_<ts>`. */
  function DirName(ts: nat): string { "bc_dump_" + Text.NatToString(ts) }

  /** `name.split('_')[-1]`: what follows the last underscore, or the whole name. */
  function LastField(s: string): (r: string)
    ensures |r| <= |s| && r == s[|s| - |r|..]
    ensures forall i | 0 <= i < |r| :: r[i] != '_'
    ensures |r| < |s| ==> s[|s| - |r| - 1] == '_'
  {
    s[|s| - FieldLen(s)..]
  }

  /** Number of characters after the last underscore of `s`. */
  function FieldLen(s: string): (k: nat)
    ensures k <= |s|
    ensures forall i | |s| - k <= i < |s| :: s[i] != '_'
    ensures k < |s| ==> s[|s| - k - 1] == '_'
    decreases |s|
  {
    if |s| == 0 || s[|s| - 1] == '_' then 0 else 1 + FieldLen(s[..|s| - 1])
  }

  /** `int(name.split('_')[-1])`: Python's `int` on the last field. */
  function TimestampFromName(name: string): (r: Result<int>)
    ensures r.Ok? <==> Text.IntLiteral(Text.Strip(LastField(name)))
    ensures r.Err? ==> r.error == ValueError
  {
    Text.PyInt(LastField(name))
  }

  lemma LastFieldAfterUnderscore(p: string, q: string)
    requires |p| > 0 && p[|p| - 1] == '_'
    requires forall i | 0 <= i < |q| :: q[i] != '_'
    ensures LastField(p + q) == q
  {
    var s := p + q;
    assert s[|s| - |q|..] == q;
  }

  /** The directory name gives back the timestamp it was made from. */
  lemma TimestampRoundTrip(ts: nat)
    ensures TimestampFromName(DirName(ts)) == Ok(ts)
  {
    var d := Text.NatToString(ts);
    assert forall i | 0 <= i < |d| :: d[i] != '_' by {
      forall i | 0 <= i < |d| ensures d[i] != '_' { assert Text.IsDigit(d[i]); }
    }
    FieldOfDumpName(d);
    Text.PyIntOfNat(ts);
  }

  /** The last field of `bc_dump_<q>`. */
  lemma FieldOfDumpName(q: string)
    requires forall i | 0 <= i < |q| :: q[i] != '_'
    ensures LastField("bc_dump_" + q) == q
  {
    LastFieldAfterUnderscore("bc_dump_", q);
  }

  lemma Seventeen()
    ensures Text.DigitsValue("17") == 17
  {
    assert "17"[..1] == "1";
    assert "1"[..0] == "";
  }

  /** `int` also takes a sign and surrounding whitespace, so these names
      read as timestamps too, one of them negative. */
  lemma TimestampSignedOrPadded()
    ensures TimestampFromName("bc_dump_+17") == Ok(17)
    ensures TimestampFromName("bc_dump_ 17") == Ok(17)
    ensures TimestampFromName("bc_dump_-17") == Ok(-17)
    ensures TimestampFromName("bc_dump_17x").Err?
  {
    PlusField();
    MinusField();
    PaddedField();
    LetterField();
  }

  lemma PlusField()
    ensures TimestampFromName("bc_dump_+17") == Ok(17)
  {
    assert "bc_dump_+17" == "bc_dump_" + ("" + ("+" + ("17" + "")));
    Seventeen();
    DumpNameReads("", "+", "17", "");
  }

  lemma MinusField()
    ensures TimestampFromName("bc_dump_-17") == Ok(-17)
  {
    assert "bc_dump_-17" == "bc_dump_" + ("" + ("-" + ("17" + "")));
    Seventeen();
    DumpNameReads("", "-", "17", "");
  }

  lemma PaddedField()
    ensures TimestampFromName("bc_dump_ 17") == Ok(17)
  {
    assert "bc_dump_ 17" == "bc_dump_" + (" " + ("" + ("17" + "")));
    Seventeen();
    DumpNameReads(" ", "", "17", "");
  }

  /** A dump name whose last field is a padded, optionally signed decimal. */
  lemma DumpNameReads(w1: string, sign: string, d: string, w2: string)
    requires Text.AllSpaces(w1) && Text.AllSpaces(w2)
    requires sign == "" || sign == "+" || sign == "-"
    requires |d| > 0 && Text.AllDigits(d)
    ensures TimestampFromName("bc_dump_" + (w1 + (sign + (d + w2))))
      == Ok(if sign == "-" then -(Text.DigitsValue(d) as int) else Text.DigitsValue(d))
  {
    var q := w1 + (sign + (d + w2));
    assert forall i | 0 <= i < |q| :: q[i] != '_' by {
      forall i | 0 <= i < |q| ensures q[i] != '_' {
        if i < |w1| { assert Text.IsSpace(q[i]); }
        else if i < |w1| + |sign| { assert q[i] == sign[i - |w1|]; }
        else if i < |w1| + |sign| + |d| { assert Text.IsDigit(q[i]); }
        else { assert Text.IsSpace(q[i]); }
      }
    }
    FieldOfDumpName(q);
    Text.PyIntOf(w1, sign, d, w2);
  }

  lemma LetterField()
    ensures TimestampFromName("bc_dump_17x").Err?
  {
    FieldOfDumpName("17x");
    assert "bc_dump_17x" == "bc_dump_" + "17x";
    LetterLiteral();
  }

  lemma LetterLiteral()
    ensures !Text.IntLiteral(Text.Strip("17x"))
  {
    var t := "17x";
    assert t[0] == '1' && t[2] == 'x';
    Text.NotLiteral(t, 2);
  }

  /** A file of the `priority_tables` directory, split as `pathlib` splits
      it into `stem` and `suffix`. */
  datatype FileName = FileName(stem: string, suffix: string)

  /** A file `glob('*.parquet')` matches, with a non-empty stem. */
  predicate IsParquetFile(f: FileName) { f.suffix == Parquet && |f.stem| > 0 }

  /** The priority-table cache `__init__` seeds: every `*.parquet` file of
      `priority_tables`, keyed by its stem. */
  function SeedCache(priority: map<FileName, PriorityTable>): (r: map<string, PriorityTable>)
    ensures forall k :: k in r <==> |k| > 0 && FileName(k, Parquet) in priority
    ensures forall k | k in r :: r[k] == priority[FileName(k, Parquet)]
  {
    map f | f in priority && IsParquetFile(f) :: f.stem := priority[f]
  }

  /** One loaded snapshot: timestamp, directory, tables, priority-table cache. */
  datatype Dataset = Dataset(timestamp: int, dir: string, tables: TableSet,
                             cache: map<string, PriorityTable>)

  /** The files `save` writes for a cache: `<k>.parquet` holding entry `k`. */
  function CacheFiles(cache: map<string, PriorityTable>): (w: map<FileName, PriorityTable>)
    ensures forall f :: f in w <==> f.suffix == Parquet && f.stem in cache
    ensures forall f | f in w :: w[f] == cache[f.stem]
  {
    map k | k in cache :: FileName(k, Parquet) := cache[k]
  }

  /** `save`: every cache entry `k` is written to `priority_tables/<k>.parquet`,
      replacing a file of that name; `mkdir` without `parents` fails when the
      version directory itself is gone. */
  function Save(store: Store, ds: Dataset): (r: Result<Store>)
    ensures r.Err? <==> ds.dir !in store
    ensures r.Err? ==> r.error == FileNotFoundError
    ensures r.Ok? ==> r.value.Keys == store.Keys
    ensures r.Ok? ==> forall n | n in store && n != ds.dir :: r.value[n] == store[n]
    ensures r.Ok? ==> r.value[ds.dir].files == store[ds.dir].files
    ensures r.Ok? ==> forall k | k in ds.cache ::
      && FileName(k, Parquet) in r.value[ds.dir].priority
      && r.value[ds.dir].priority[FileName(k, Parquet)] == ds.cache[k]
    ensures r.Ok? ==> forall f | f in store[ds.dir].priority ::
      && f in r.value[ds.dir].priority
      && (r.value[ds.dir].priority[f] == store[ds.dir].priority[f]
          || (f.suffix == Parquet && f.stem in ds.cache))
    ensures r.Ok? ==> forall f | f in r.value[ds.dir].priority ::
      f in store[ds.dir].priority || (f.suffix == Parquet && f.stem in ds.cache)
  {
    if ds.dir !in store then Err(FileNotFoundError)
    else
      var d := store[ds.dir];
      Ok(store[ds.dir := d.(priority := d.priority + CacheFiles(ds.cache))])
  }

  /** Saving and re-opening the directory seeds the cache with what was saved,
      on top of what was already there. */
  lemma SaveThenSeed(store: Store, ds: Dataset)
    requires ds.dir in store
    requires forall k | k in ds.cache :: |k| > 0
    ensures SeedCache(Save(store, ds).value[ds.dir].priority)
      == SeedCache(store[ds.dir].priority) + ds.cache
  {
    assert Save(store, ds).value[ds.dir].priority
      == store[ds.dir].priority + CacheFiles(ds.cache);
    SeedAfterWrite(store[ds.dir].priority, ds.cache);
  }

  lemma SeedAfterWrite(before: map<FileName, PriorityTable>, cache: map<string, PriorityTable>)
    requires forall k | k in cache :: |k| > 0
    ensures SeedCache(before + CacheFiles(cache)) == SeedCache(before) + cache
  {
    var lhs := SeedCache(before + CacheFiles(cache));
    var rhs := SeedCache(before) + cache;
    SeedAfterWriteKeys(before, cache);
    forall k | k in lhs ensures lhs[k] == rhs[k] {
      SeedAfterWriteValue(before, cache, k);
    }
  }

  lemma SeedAfterWriteKeys(before: map<FileName, PriorityTable>, cache: map<string, PriorityTable>)
    requires forall k | k in cache :: |k| > 0
    ensures SeedCache(before + CacheFiles(cache)).Keys == (SeedCache(before) + cache).Keys
  {
    var w := CacheFiles(cache);
    var lhs := SeedCache(before + w);
    var rhs := SeedCache(before) + cache;
    forall k ensures k in lhs <==> k in rhs {
      var f := FileName(k, Parquet);
      assert f in w <==> k in cache;
      assert k in lhs <==> |k| > 0 && (f in before || f in w);
      assert k in rhs <==> (|k| > 0 && f in before) || k in cache;
    }
  }

  lemma SeedAfterWriteValue(before: map<FileName, PriorityTable>, cache: map<string, PriorityTable>,
                            k: string)
    requires forall k | k in cache :: |k| > 0
    requires k in SeedCache(before + CacheFiles(cache))
    ensures k in SeedCache(before) + cache
    ensures SeedCache(before + CacheFiles(cache))[k] == (SeedCache(before) + cache)[k]
  {
    var w := CacheFiles(cache);
    var f := FileName(k, Parquet);
    assert f in w <==> k in cache;
    if k in cache {
      assert f in w && w[f] == cache[k];
    } else {
      assert f !in w && f in before;
      assert SeedCache(before)[k] == before[f];
    }
  }

  datatype Point = Point(x: int, y: int, z: int)

  /** The point-to-segment lookup service at a timestamp; `None` when it
      returns nothing. */
  type Lookup = (seq<Point>, nat) -> Option<seq<SegId>>

  /** `materialize_positions`: the lookup's answer, which must exist and have
      one segment id per point. */
  function MaterializePositions(pts: seq<Point>, ts: nat, lookup: Lookup): (r: Result<Landmarks>)
    ensures r.Ok? <==> lookup(pts, ts).Some? && |lookup(pts, ts).value| == |pts|
    ensures r.Err? ==> r.error == AssertionError
    ensures r.Ok? ==> r.value == lookup(pts, ts).value && |r.value| == |pts|
  {
    match lookup(pts, ts)
    case None => Err(AssertionError)
    case Some(ids) => if |ids| == |pts| then Ok(ids) else Err(AssertionError)
  }

  /** `materialize_cave_tables` before saving: every table is materialized,
      in order; the first failure aborts. */
  function MaterializeAll(names: seq<string>, points: string -> seq<Point>, ts: nat,
                          lookup: Lookup): (r: Result<seq<Landmarks>>)
    ensures r.Ok? <==> forall i | 0 <= i < |names| :: MaterializePositions(points(names[i]), ts, lookup).Ok?
    ensures r.Err? ==> r.error == AssertionError
    ensures r.Ok? ==> |r.value| == |names| && forall i | 0 <= i < |names| ::
      r.value[i] == lookup(points(names[i]), ts).value && |r.value[i]| == |points(names[i])|
  {
    if |names| == 0 then Ok([])
    else
      match MaterializePositions(points(names[0]), ts, lookup)
      case Err(e) => Err(e)
      case Ok(first) =>
        match MaterializeAll(names[1..], points, ts, lookup)
        case Err(e) => Err(e)
        case Ok(rest) => Ok([first] + rest)
  }

  /** The answer of the dump-listing endpoint. */
  datatype Listing = Listing(status: int, lastMaterialized: nat)

  /** What the downloads and local inputs hold: the node and edge dumps, the
      landmark points of each CAVE table by name, the neck-connective seeds. */
  datatype Sources = Sources(nodeDump: seq<RawNode>, edgeDump: seq<Edge>,
                             cavePoints: string -> seq<Point>, neckPoints: seq<Point>)

  /** The store after a call, and what the call returned or raised. */
  datatype Outcome = Outcome(store: Store, result: Result<Dataset>)

  /** `FANCDataset.from_path`: refuse an unmarked directory; take the
      timestamp from the directory name unless one is given; read the tables
      and seed the cache. */
  function FromPath(store: Store, name: string, mat: Option<int>, c: CaveConfig): (r: Result<Dataset>)
    ensures (name !in store || !Ready(store[name])) ==> r == Err(RuntimeError)
    ensures name in store && Ready(store[name]) && mat.None? && TimestampFromName(name).Err?
      ==> r == Err(ValueError)
    ensures name in store && Ready(store[name]) && (mat.Some? || TimestampFromName(name).Ok?)
      ==> (r.Ok? <==> RequiredFiles(c) <= store[name].files)
    ensures r.Ok? ==> name in store && Ready(store[name]) && RequiredFiles(c) <= store[name].files
    ensures r.Err? ==> (r.error == RuntimeError || r.error == FileNotFoundError
      || (r.error == ValueError && mat.None? && TimestampFromName(name).Err?))
    ensures r.Ok? ==> (r.value.dir == name && r.value.tables == store[name].tables
      && r.value.cache == SeedCache(store[name].priority))
    ensures r.Ok? ==> (r.value.timestamp ==
      (if mat.Some? then mat.value else TimestampFromName(name).value))
  {
    if name !in store || !Ready(store[name]) then Err(RuntimeError)
    else
      var ts := if mat.Some? then Ok(mat.value) else TimestampFromName(name);
      match ts
      case Err(e) => Err(e)
      case Ok(t) =>
        if !(RequiredFiles(c) <= store[name].files) then Err(FileNotFoundError)
        else Ok(Dataset(t, name, store[name].tables, SeedCache(store[name].priority)))
  }

  /** The files a full download writes, in order; the marker comes last. */
  function BuildWrites(c: CaveConfig): seq<string> {
    [NodesFile, EdgesFile, NodesFile] + CaveFiles(CaveNames(c)) + [NeckFile, VersionReady]
  }

  function Written(trace: seq<string>): set<string> { set n | n in trace }

  /** The download branch of `get_latest` on the (unmarked) version
      directory `d`: the directory after the call and the result. The node
      dump is written (and rewritten after `fillna`) before its uniqueness is
      checked; the CAVE tables are saved only once all are materialized; the
      marker is touched last. */
  function Download(d: Dir, ts: nat, src: Sources, lookup: Lookup, c: CaveConfig)
    : (o: (Dir, Result<Dataset>))
    requires !Ready(d)
    ensures o.0.priority == d.priority
    ensures Consistent(o.0, c)
    ensures d.files <= o.0.files
    ensures o.1.Ok? <==> Ready(o.0)
    ensures o.1.Ok? ==>
      && o.1.value == Dataset(ts, DirName(ts), o.0.tables, SeedCache(d.priority))
      && NodeTableFromDump(src.nodeDump) == Ok(o.0.tables.nodes)
      && |o.0.tables.soma| == |src.cavePoints(c.soma)|
      && |o.0.tables.nerveBundle| == |src.cavePoints(c.nerveBundle)|
      && |o.0.tables.neckConnective| == |src.neckPoints|
    ensures o.1.Err? ==> o.1.error == AssertionError
    ensures o.1.Err? ==>
      (|| o.0.files == d.files + {NodesFile, EdgesFile}
       || o.0.files == d.files + {NodesFile, EdgesFile} + Written(CaveFiles(CaveNames(c))))
    ensures o.1.Ok? ==>
      o.0.files == d.files + {NodesFile, EdgesFile} + Written(CaveFiles(CaveNames(c))) + {NeckFile, VersionReady}
  {
    var d2 := d.(files := d.files + {NodesFile, EdgesFile});
    match NodeTableFromDump(src.nodeDump)
    case Err(e) => (d2, Err(e))
    case Ok(nodes) =>
      match MaterializeAll(CaveNames(c), src.cavePoints, ts, lookup)
      case Err(e) => (d2, Err(e))
      case Ok(lms) =>
        var d3 := d2.(files := d2.files + Written(CaveFiles(CaveNames(c))));
        CaveFilesAreNotMarker(CaveNames(c));
        match MaterializePositions(src.neckPoints, ts, lookup)
        case Err(e) => (d3, Err(e))
        case Ok(neck) =>
          assert CaveNames(c)[0] == c.soma && CaveNames(c)[5] == c.nerveBundle;
          assert |lms[0]| == |src.cavePoints(c.soma)| && |lms[5]| == |src.cavePoints(c.nerveBundle)|;
          var tables := TableSet(nodes, src.edgeDump, lms[0], lms[1], lms[2], lms[3],
                                 lms[4], lms[5], neck);
          assert RequiredFiles(c) <= d3.files + {NeckFile} by {
            forall n | n in CaveNames(c) ensures CaveFile(n) in d3.files {
              var i :| 0 <= i < 6 && CaveNames(c)[i] == n;
              assert CaveFiles(CaveNames(c))[i] == CaveFile(n);
            }
          }
          var d4 := Dir(d3.files + {NeckFile, VersionReady}, tables, d.priority);
          (d4, Ok(Dataset(ts, DirName(ts), tables, SeedCache(d.priority))))
  }

  lemma CaveFilesAreNotMarker(names: seq<string>)
    ensures VersionReady !in Written(CaveFiles(names))
  {
    var cf := CaveFiles(names);
    forall i | 0 <= i < |cf| ensures cf[i] != VersionReady {
      assert cf[i][0] == 'c';
    }
  }

  /** `FANCDataset.get_latest`: a failed listing raises; a marked
      directory for the listed timestamp is read back; otherwise the
      version is downloaded into it. */
  function GetLatest(store: Store, listing: Listing, src: Sources, lookup: Lookup,
                     c: CaveConfig): (o: Outcome)
    ensures listing.status != 200 ==> o == Outcome(store, Err(RuntimeError))
    ensures o.result.Ok? ==>
      && o.result.value.timestamp == listing.lastMaterialized
      && o.result.value.dir == DirName(listing.lastMaterialized)
    ensures o.result.Ok? ==> o.result.value.dir in o.store && Ready(o.store[o.result.value.dir])
    ensures o.result.Err? ==>
      || o.result.error == RuntimeError || o.result.error == AssertionError
      || o.result.error == FileNotFoundError
    ensures AllConsistent(store, c) && o.result.Err? ==> o.result.error != FileNotFoundError
  {
    if listing.status != 200 then Outcome(store, Err(RuntimeError))
    else
      var ts := listing.lastMaterialized;
      var name := DirName(ts);
      if name in store && Ready(store[name]) then ReuseVersion(store, ts, c)
      else DownloadVersion(store, ts, src, lookup, c)
  }

  /** `get_latest` adds only the listed version's directory ... */
  lemma GetLatestKeys(store: Store, listing: Listing, src: Sources, lookup: Lookup, c: CaveConfig)
    requires listing.status == 200
    ensures GetLatest(store, listing, src, lookup, c).store.Keys
      == store.Keys + {DirName(listing.lastMaterialized)}
  {
    var ts := listing.lastMaterialized;
    var name := DirName(ts);
    var o := GetLatest(store, listing, src, lookup, c);
    if name in store && Ready(store[name]) {
      assert o.store == store;
      KeysWithPresent(store, name);
    } else {
      assert o == DownloadVersion(store, ts, src, lookup, c);
    }
  }

  lemma KeysWithPresent<K, V>(m: map<K, V>, k: K)
    requires k in m
    ensures m.Keys + {k} == m.Keys
  {
  }

  /** ... changes no other directory, and leaves a marked one as it is. */
  lemma GetLatestFrame(store: Store, listing: Listing, src: Sources, lookup: Lookup, c: CaveConfig)
    ensures var o := GetLatest(store, listing, src, lookup, c);
      && (forall n | n in store && n != DirName(listing.lastMaterialized) ::
            n in o.store && o.store[n] == store[n])
      && ((listing.status == 200 && DirName(listing.lastMaterialized) in store
           && Ready(store[DirName(listing.lastMaterialized)])) ==> o.store == store)
  {
    if listing.status == 200 {
      var ts := listing.lastMaterialized;
      var name := DirName(ts);
      if name in store && Ready(store[name]) {
        assert GetLatest(store, listing, src, lookup, c) == ReuseVersion(store, ts, c);
      } else {
        assert GetLatest(store, listing, src, lookup, c) == DownloadVersion(store, ts, src, lookup, c);
      }
    }
  }

  /** `get_latest` keeps every directory consistent. */
  lemma GetLatestConsistent(store: Store, listing: Listing, src: Sources, lookup: Lookup,
                            c: CaveConfig)
    requires AllConsistent(store, c)
    ensures AllConsistent(GetLatest(store, listing, src, lookup, c).store, c)
  {
    if listing.status == 200 {
      var ts := listing.lastMaterialized;
      var name := DirName(ts);
      if !(name in store && Ready(store[name])) {
        assert GetLatest(store, listing, src, lookup, c) == DownloadVersion(store, ts, src, lookup, c);
        DownloadVersionConsistent(store, ts, src, lookup, c);
      }
    }
  }

  lemma DownloadVersionConsistent(store: Store, ts: nat, src: Sources, lookup: Lookup, c: CaveConfig)
    requires AllConsistent(store, c)
    requires !(DirName(ts) in store && Ready(store[DirName(ts)]))
    ensures AllConsistent(DownloadVersion(store, ts, src, lookup, c).store, c)
  {
    var o := DownloadVersion(store, ts, src, lookup, c);
    forall n | n in o.store ensures Consistent(o.store[n], c) {
      if n != DirName(ts) {
        assert o.store[n] == store[n];
      }
    }
  }

  /** The marked directory of `ts` is read back as it is. */
  function ReuseVersion(store: Store, ts: nat, c: CaveConfig): (o: Outcome)
    requires DirName(ts) in store && Ready(store[DirName(ts)])
    ensures o.store == store
    ensures o.result.Ok? <==> Consistent(store[DirName(ts)], c)
    ensures o.result.Err? ==> o.result.error == FileNotFoundError
    ensures o.result.Ok? ==> o.result.value.timestamp == ts && o.result.value.dir == DirName(ts)
  {
    TimestampRoundTrip(ts);
    Outcome(store, FromPath(store, DirName(ts), None, c))
  }

  /** The unmarked (or missing) directory of `ts` is downloaded into. */
  function DownloadVersion(store: Store, ts: nat, src: Sources, lookup: Lookup,
                           c: CaveConfig): (o: Outcome)
    requires !(DirName(ts) in store && Ready(store[DirName(ts)]))
    ensures o.store.Keys == store.Keys + {DirName(ts)}
    ensures forall n | n in store && n != DirName(ts) :: o.store[n] == store[n]
    ensures Consistent(o.store[DirName(ts)], c)
    ensures o.result.Ok? ==>
      && o.result.value.timestamp == ts && o.result.value.dir == DirName(ts)
      && Ready(o.store[DirName(ts)])
    ensures o.result.Err? ==> o.result.error == AssertionError
  {
    var name := DirName(ts);
    var d := if name in store then store[name] else EmptyDir;
    var o := Download(d, ts, src, lookup, c);
    Outcome(Install(store, name, o.0), o.1)
  }

  /** The store with the directory `name` replaced (or created). */
  function Install(store: Store, name: string, d: Dir): (r: Store)
    ensures r.Keys == store.Keys + {name} && r[name] == d
    ensures forall n | n in store && n != name :: r[n] == store[n]
  {
    store[name := d]
  }

  /** The sets of files written after the node dump, after the CAVE tables
      and after the marker. */
  lemma WrittenPrefixes(c: CaveConfig)
    ensures |BuildWrites(c)| == 11
    ensures Written(BuildWrites(c)[..3]) == {NodesFile, EdgesFile}
    ensures Written(BuildWrites(c)[..9]) == {NodesFile, EdgesFile} + Written(CaveFiles(CaveNames(c)))
    ensures Written(BuildWrites(c)[..11]) ==
      {NodesFile, EdgesFile} + Written(CaveFiles(CaveNames(c))) + {NeckFile, VersionReady}
  {
    var w := BuildWrites(c);
    var cf := CaveFiles(CaveNames(c));
    assert w[..3] == [NodesFile, EdgesFile, NodesFile];
    assert w[..9] == [NodesFile, EdgesFile, NodesFile] + cf;
    assert w[..11] == w;
  }

  /** `Download` performs a prefix of `BuildWrites`: it stops after the
      node dump or after the CAVE tables when a step fails, and writes the
      whole list, marker last, exactly when it succeeds. */
  lemma DownloadWritesPrefix(d: Dir, ts: nat, src: Sources, lookup: Lookup, c: CaveConfig)
    requires !Ready(d)
    ensures var o := Download(d, ts, src, lookup, c);
      exists k | 0 <= k <= |BuildWrites(c)| ::
        && o.0.files == d.files + Written(BuildWrites(c)[..k])
        && (o.1.Ok? <==> k == |BuildWrites(c)|)
  {
    var o := Download(d, ts, src, lookup, c);
    var w := BuildWrites(c);
    WrittenPrefixes(c);
    var k: nat := if o.1.Ok? then 11 else if o.0.files == d.files + {NodesFile, EdgesFile} then 3 else 9;
    assert o.0.files == d.files + Written(w[..k]) && (o.1.Ok? <==> k == |w|);
  }

  /** A crash at any point of a fresh download leaves every directory
      consistent: the marker is the last file written. */
  lemma {:induction false} CrashLeavesConsistent(d: Dir, c: CaveConfig, k: nat)
    requires !Ready(d)
    requires k <= |BuildWrites(c)|
    ensures Consistent(d.(files := d.files + Written(BuildWrites(c)[..k])), c)
  {
    var w := BuildWrites(c);
    var cf := CaveFiles(CaveNames(c));
    assert forall i | 0 <= i < |cf| :: cf[i][0] == 'c';
    if k < |w| {
      assert forall i | 0 <= i < k :: w[i] != VersionReady by {
        forall i | 0 <= i < k ensures w[i] != VersionReady {
          if 3 <= i < 3 + |cf| {
            assert w[i] == cf[i - 3];
            assert w[i][0] == 'c';
          }
        }
      }
      assert VersionReady !in Written(w[..k]);
    } else {
      assert w[..k] == w;
      forall n | n in RequiredFiles(c) ensures n in Written(w) {
        if n !in {NodesFile, EdgesFile, NeckFile} {
          var m :| m in CaveNames(c) && n == CaveFile(m);
          var i :| 0 <= i < 6 && CaveNames(c)[i] == m;
          assert w[3 + i] == n;
        }
      }
    }
  }
}

=== FILE: soma.dfy ===
/** The first-generation orphaned-soma prioritization
    (`fancpq.prioritize.soma`): select node rows of soma segments with few
    synapses, then re-check their counts against live synapse counts.
 */
module SomaPrioritize {
  import opened Wrappers
  import opened Tables
  import Rules

  /** `find_orphaned_somas`: node rows whose id carries a soma landmark
      (`pt_root_id`) and whose total is below the configured maximum. */
  function FindOrphanedSomas(nodes: NodeTable, somaIds: seq<SegId>, thr: int): (r: NodeTable)
    ensures r.Keys == set id | id in somaIds && id in nodes && Total(nodes[id]) < thr
    ensures forall id | id in r :: r[id] == nodes[id]
  {
    Collect(somaIds, nodes, (n: NodeRow) => Total(n) < thr, (n: NodeRow) => n)
  }

  /** Selecting on the soma table's ids gives the rule's selection. */
  lemma FindOrphanedSomasAgreesWithRule(t: TableSet, thr: int)
    ensures FindOrphanedSomas(t.nodes, t.soma, thr).Keys == Rules.OrphanedSomaTable(t, thr).Keys
  {
  }

  /** A candidate frame as pandas holds it: the row labels in order, and
      the counts of each label. */
  datatype Frame = Frame(index: seq<SegId>, rows: NodeTable)

  /** `double_check_orphaned_somas` as written, given the frame the live
      count returned (its labels in the order `get_live_synapse_count`
      builds them). Selecting the live labels raises KeyError for a label
      that is not a candidate; comparing the two count columns raises
      ValueError unless both frames carry the same labels in the same
      order; then the filtered frame is discarded and the input returned. */
  function DoubleCheckAsWritten(potential: Frame, live: Frame): (r: Result<Frame>)
    ensures r == Err(KeyError) <==> !(Ids(live.index) <= Ids(potential.index))
    ensures r == Err(ValueError) <==>
      Ids(live.index) <= Ids(potential.index) && live.index != potential.index
    ensures r.Ok? <==> live.index == potential.index
    ensures r.Ok? ==> r.value == potential
  {
    if !(Ids(live.index) <= Ids(potential.index)) then Err(KeyError)
    else if live.index != potential.index then Err(ValueError)
    else Ok(potential)
  }

  /** As written, the live counts never matter: two live frames with the
      same labels give the same answer. */
  lemma DoubleCheckAsWrittenIgnoresCounts(potential: Frame, live1: Frame, live2: Frame)
    requires live1.index == live2.index
    ensures DoubleCheckAsWritten(potential, live1) == DoubleCheckAsWritten(potential, live2)
    ensures DoubleCheckAsWritten(potential, live1).Ok? ==>
      DoubleCheckAsWritten(potential, live1).value == potential
  {
  }

  /** The same candidates listed by the live count in another order (the
      output-side ids first) make the comparison raise. */
  lemma DoubleCheckRaisesOnLabelOrder()
    ensures var potential := Frame([3, 5], map[3 := NodeRow(0, 1), 5 := NodeRow(1, 0)]);
      var live := Frame([5, 3], map[3 := NodeRow(0, 1), 5 := NodeRow(1, 0)]);
      && Ids(live.index) == Ids(potential.index)
      && DoubleCheckAsWritten(potential, live) == Err(ValueError)
  {
    var pi: seq<SegId> := [3, 5];
    var li: seq<SegId> := [5, 3];
    assert li[0] != pi[0];
    assert Ids(li) == {3, 5} && Ids(pi) == {3, 5};
  }

  /** The evidently intended re-check: keep the candidates whose live counts
      agree with the dump's. */
  function DoubleCheck(potential: NodeTable, live: NodeTable): (r: NodeTable)
    ensures forall id :: id in r <==> id in potential && id in live && live[id] == potential[id]
    ensures forall id | id in r :: r[id] == potential[id]
  {
    map id | id in potential && id in live && live[id] == potential[id] :: potential[id]
  }

  /** A candidate whose live count differs is returned as written and
      dropped by the re-check. */
  lemma DoubleCheckIgnoresLiveCounts()
    ensures var potential := Frame([1], map[1 := NodeRow(0, 1)]);
      var live := Frame([1], map[1 := NodeRow(0, 2)]);
      && DoubleCheckAsWritten(potential, live) == Ok(potential)
      && 1 in potential.rows
      && DoubleCheck(potential.rows, live.rows) == map[]
  {
    var live := map[1 := NodeRow(0, 2)];
    var potential := map[1 := NodeRow(0, 1)];
    assert DoubleCheck(potential, live).Keys == {};
  }

  /** The re-check never adds candidates and is idempotent. */
  lemma DoubleCheckIdempotent(potential: NodeTable, live: NodeTable)
    ensures DoubleCheck(potential, live).Keys <= potential.Keys
    ensures DoubleCheck(DoubleCheck(potential, live), live) == DoubleCheck(potential, live)
  {
    var once := DoubleCheck(potential, live);
    assert DoubleCheck(once, live).Keys == once.Keys;
  }
}

=== FILE: store.dfy ===
/** The proofreading database: three append-only logs (per-user skiplist,
    segment status, annotation) and the set-valued queries over them. The
    current connector and the older database differ only in the statuses
    that exclude a segment for everybody. Clock readings are parameters.
 */
module ExclusionStore {
  import opened Wrappers
  import opened Tables

  datatype SkipRecord = SkipRecord(user: string, segid: SegId, at: int)
  datatype StatusRecord = StatusRecord(segid: SegId, status: string, user: string, at: int)
  datatype AnnotationRecord =
    AnnotationRecord(segid: SegId, annotation: string, user: string, at: int, x: int, y: int, z: int)

  datatype Db = Db(skiplist: seq<SkipRecord>, status: seq<StatusRecord>,
                   annotation: seq<AnnotationRecord>)

  const Empty: Db := Db([], [], [])

  /** sqlite3 binds a Python `int` as a signed 64-bit INTEGER and raises
      OverflowError for any value outside that range. */
  predicate FitsSqlite(n: int) { -0x8000_0000_0000_0000 <= n <= 0x7FFF_FFFF_FFFF_FFFF }

  /** Statuses that exclude a segment globally, current connector as written. */
  const ConnectorSkipStatuses: set<string> := {"expired", "fixed", "noaction"}

  /** The same vocabulary with `done`, the status the `/mark` help text
      tells users to record for a fully proofread neuron. */
  const ConnectorSkipStatusesWithDone: set<string> := {"expired", "fixed", "noaction", "done"}

  /** Statuses that exclude a segment globally in the older database. */
  const LegacySkipStatuses: set<string> := {"skip", "done"}

  /** Opening a database file: the three tables are created empty only
      when the file does not exist; an existing file is used as it is. */
  function Open(file: Option<Db>): (r: Db)
    ensures file.None? ==> r.skiplist == [] && r.status == [] && r.annotation == []
    ensures file.Some? ==> r == file.value
  {
    match file
    case None => Empty
    case Some(db) => db
  }

  /** `get_user_skiplist`. */
  function UserSkiplist(log: seq<SkipRecord>, user: string): (r: set<SegId>)
    ensures forall s :: s in r <==> exists i | 0 <= i < |log| :: log[i].user == user && log[i].segid == s
  {
    if |log| == 0 then {}
    else
      var last := log[|log| - 1];
      var init := UserSkiplist(log[..|log| - 1], user);
      assert forall i | 0 <= i < |log| - 1 :: log[..|log| - 1][i] == log[i];
      init + (if last.user == user then {last.segid} else {})
  }

  /** `get_global_segids_to_skip` for a status vocabulary. */
  function GlobalSegidsToSkip(log: seq<StatusRecord>, vocab: set<string>): (r: set<SegId>)
    ensures forall s :: s in r <==> exists i | 0 <= i < |log| :: log[i].status in vocab && log[i].segid == s
  {
    if |log| == 0 then {}
    else
      var last := log[|log| - 1];
      var init := GlobalSegidsToSkip(log[..|log| - 1], vocab);
      assert forall i | 0 <= i < |log| - 1 :: log[..|log| - 1][i] == log[i];
      init + (if last.status in vocab then {last.segid} else {})
  }

  /** `add_to_user_skiplist`: one record appended, nothing else touched. */
  function AddToUserSkiplist(db: Db, user: string, segid: SegId, now: int): (r: Db)
    ensures |r.skiplist| == |db.skiplist| + 1 && r.skiplist[..|db.skiplist|] == db.skiplist
    ensures r.skiplist[|db.skiplist|] == SkipRecord(user, segid, now)
    ensures r.status == db.status && r.annotation == db.annotation
  {
    db.(skiplist := db.skiplist + [SkipRecord(user, segid, now)])
  }

  /** `set_status`: one record appended; earlier records are never updated. */
  function SetStatus(db: Db, segid: SegId, status: string, user: string, now: int): (r: Db)
    ensures |r.status| == |db.status| + 1 && r.status[..|db.status|] == db.status
    ensures r.status[|db.status|] == StatusRecord(segid, status, user, now)
    ensures r.skiplist == db.skiplist && r.annotation == db.annotation
  {
    db.(status := db.status + [StatusRecord(segid, status, user, now)])
  }

  /** `set_annotation`: one record with the segment and the three position
      components. */
  function SetAnnotation(db: Db, segid: SegId, annotation: string, user: string,
                         pos: (int, int, int), now: int): (r: Db)
    ensures |r.annotation| == |db.annotation| + 1 && r.annotation[..|db.annotation|] == db.annotation
    ensures var a := r.annotation[|db.annotation|];
      a.segid == segid && a.annotation == annotation && a.user == user
      && (a.x, a.y, a.z) == pos
    ensures r.skiplist == db.skiplist && r.status == db.status
  {
    db.(annotation := db.annotation + [AnnotationRecord(segid, annotation, user, now, pos.0, pos.1, pos.2)])
  }

  /** Skipping adds exactly that segment to the user's list and leaves every
      other user's list alone. */
  lemma {:induction false} AddThenQuery(db: Db, user: string, segid: SegId, now: int, other: string)
    ensures UserSkiplist(AddToUserSkiplist(db, user, segid, now).skiplist, user)
      == UserSkiplist(db.skiplist, user) + {segid}
    ensures other != user ==>
      UserSkiplist(AddToUserSkiplist(db, user, segid, now).skiplist, other)
        == UserSkiplist(db.skiplist, other)
  {
    var log := AddToUserSkiplist(db, user, segid, now).skiplist;
    assert log[..|log| - 1] == db.skiplist;
  }

  /** A status record adds its segment to the global set iff its status is
      in the vocabulary; a later record never removes one. */
  lemma {:induction false} SetStatusThenQuery(db: Db, segid: SegId, status: string, user: string,
                                              now: int, vocab: set<string>)
    ensures GlobalSegidsToSkip(SetStatus(db, segid, status, user, now).status, vocab)
      == GlobalSegidsToSkip(db.status, vocab) + (if status in vocab then {segid} else {})
  {
    var log := SetStatus(db, segid, status, user, now).status;
    assert log[..|log| - 1] == db.status;
  }

  /** Repeating a skip does not change what the query returns. */
  lemma RepeatedSkipCollapses(db: Db, user: string, segid: SegId, t1: int, t2: int)
    ensures var once := AddToUserSkiplist(db, user, segid, t1);
      UserSkiplist(AddToUserSkiplist(once, user, segid, t2).skiplist, user)
        == UserSkiplist(once.skiplist, user)
  {
    var once := AddToUserSkiplist(db, user, segid, t1);
    AddThenQuery(db, user, segid, t1, user);
    AddThenQuery(once, user, segid, t2, user);
  }

  /** As written, the current connector keeps proposing a segment marked
      `done`, while the older database and the vocabulary with `done`
      exclude it. */
  lemma DoneNotSkippedAsWritten()
    ensures var db := SetStatus(Empty, 987654321, "done", "test_user", 0);
      && 987654321 !in GlobalSegidsToSkip(db.status, ConnectorSkipStatuses)
      && 987654321 in GlobalSegidsToSkip(db.status, ConnectorSkipStatusesWithDone)
      && 987654321 in GlobalSegidsToSkip(db.status, LegacySkipStatuses)
  {
    assert "done" !in ConnectorSkipStatuses by {
      assert "done"[0] != "expired"[0] && "done"[0] != "fixed"[0] && "done"[0] != "noaction"[0];
    }
    SetStatusThenQuery(Empty, 987654321, "done", "test_user", 0, ConnectorSkipStatuses);
    SetStatusThenQuery(Empty, 987654321, "done", "test_user", 0, ConnectorSkipStatusesWithDone);
    SetStatusThenQuery(Empty, 987654321, "done", "test_user", 0, LegacySkipStatuses);
  }

  /** With `done` in the vocabulary, marking a segment done (or fixed,
      no-action, expired) excludes it for everybody, whatever came before. */
  lemma MarkedDoneIsSkipped(db: Db, segid: SegId, status: string, user: string, now: int)
    requires status in ConnectorSkipStatusesWithDone
    ensures segid in GlobalSegidsToSkip(SetStatus(db, segid, status, user, now).status,
                                        ConnectorSkipStatusesWithDone)
  {
    SetStatusThenQuery(db, segid, status, user, now, ConnectorSkipStatusesWithDone);
  }
}

=== FILE: tables.dfy ===
/** The tables of one materialization snapshot and the small relational
    operations the selection rules are built from.

    A node table (`bc_nodes`) is a map from segment id to its synapse counts:
    the Python code indexes it by `segment_id` and asserts the index is
    unique. A landmark table (soma, motor-neuron, nerve-bundle,
    neck-connective) is reduced to its `remat_segment_id` column, kept as a
    sequence because the same segment can carry several landmarks.
 */
module Tables {
  import opened Wrappers

  /** A segment (root) id, a `uint64` in the data. */
  type SegId = nat

  type PosInt = n: int | n > 0 witness 1

  /** `nr_pre` (outgoing) and `nr_post` (incoming) synapse counts of one segment. */
  datatype NodeRow = NodeRow(nrPre: nat, nrPost: nat)

  type NodeTable = map<SegId, NodeRow>

  /** The `remat_segment_id` column of a landmark table. */
  type Landmarks = seq<SegId>

  datatype Edge = Edge(src: SegId, dst: SegId, count: nat)

  /** Every table a `FANCDataset` holds. */
  datatype TableSet = TableSet(
    nodes: NodeTable,
    edges: seq<Edge>,
    soma: Landmarks,
    legMn: Landmarks,
    haltereMn: Landmarks,
    wingMn: Landmarks,
    neckMn: Landmarks,
    nerveBundle: Landmarks,
    neckConnective: Landmarks)

  function Total(r: NodeRow): nat { r.nrPre + r.nrPost }

  /** The distinct ids of a landmark column (`.unique()`). */
  function Ids(l: Landmarks): set<SegId> { set x | x in l }

  /** Number of landmarks that map to `x` (`.value_counts()[x]`). */
  function Count(l: Landmarks, x: SegId): nat { multiset(l)[x] }

  /** An exact rational threshold standing in for a Python float such as 0.1. */
  datatype Frac = Frac(num: int, den: PosInt)

  /** `nr_post / nr_pre < f` as numpy evaluates it: with `nr_pre == 0` the
      quotient is +inf (or NaN for 0/0) and the comparison is false. */
  predicate RatioBelow(r: NodeRow, f: Frac) {
    r.nrPre > 0 && r.nrPost * f.den < f.num * r.nrPre
  }

  /** `nr_post / nr_pre > f`: +inf (nr_pre == 0 < nr_post) exceeds every
      finite threshold; NaN (0/0) exceeds none. */
  predicate RatioAbove(r: NodeRow, f: Frac) {
    if r.nrPre > 0 then r.nrPost * f.den > f.num * r.nrPre else r.nrPost > 0
  }

  /** One row of a priority table; each constructor is one column layout. */
  datatype Row =
    | OrphanRow(nrPre: nat, nrPost: nat, totalSynapses: nat)
    | TotalRow(totalSynapses: nat)
    | SomaCountRow(numSomas: nat)
    | InputRow(nrPost: nat)
    | MnRow(nrPost: nat, mnType: string)
    | CountsRow(nrPre: nat, nrPost: nat)
    | BalanceRow(nrPre: nat, nrPost: nat, nrTotal: nat)

  /** A priority table indexed by segment id. */
  type Table = map<SegId, Row>

  /** What the priority-table cache holds: an indexed table, or a table
      whose row order matters (the sorted motor-neuron table). */
  datatype PriorityTable = Keyed(rows: Table) | Ordered(entries: seq<(SegId, Row)>)

  /** `df[col]` for the columns the feeds read; `None` is a `KeyError`. */
  function TotalSynapsesColumn(r: Row): Option<nat> {
    match r
    case OrphanRow(_, _, t) => Some(t)
    case TotalRow(t) => Some(t)
    case _ => None
  }

  function NumSomasColumn(r: Row): Option<nat> {
    if r.SomaCountRow? then Some(r.numSomas) else None
  }

  function NrPostColumn(r: Row): Option<nat> {
    match r
    case OrphanRow(_, p, _) => Some(p)
    case InputRow(p) => Some(p)
    case MnRow(p, _) => Some(p)
    case CountsRow(_, p) => Some(p)
    case BalanceRow(_, p, _) => Some(p)
    case _ => None
  }

  function NrPreColumn(r: Row): Option<nat> {
    match r
    case OrphanRow(p, _, _) => Some(p)
    case CountsRow(p, _) => Some(p)
    case BalanceRow(p, _, _) => Some(p)
    case _ => None
  }

  /** The landmarks of `l` whose id is in `s`, in order (`np.intersect1d`
      keeps only the ids; the order is irrelevant to every caller). */
  function Keep(l: Landmarks, s: set<SegId>): (r: Landmarks)
    ensures Ids(r) == Ids(l) * s
    ensures forall x :: x in r <==> x in l && x in s
  {
    if |l| == 0 then []
    else
      var rest := Keep(l[..|l| - 1], s);
      IdsSnoc(l[..|l| - 1], l[|l| - 1]);
      assert l == l[..|l| - 1] + [l[|l| - 1]];
      if l[|l| - 1] in s then IdsSnoc(rest, l[|l| - 1]); rest + [l[|l| - 1]] else rest
  }

  lemma IdsSnoc(l: Landmarks, x: SegId)
    ensures Ids(l + [x]) == Ids(l) + {x}
  {
    assert forall y :: y in l + [x] <==> y in l || y == x;
  }

  /** For every candidate id present in the node table whose row passes
      `keep`, one output row built by `mk` from the node row: the
      `node_table.loc[intersection][mask]` step every rule performs. */
  function Collect<R>(cands: seq<SegId>, nodes: NodeTable, keep: NodeRow -> bool,
                      mk: NodeRow -> R): (r: map<SegId, R>)
    ensures r.Keys == set id | id in cands && id in nodes && keep(nodes[id])
    ensures forall id | id in r :: r[id] == mk(nodes[id])
  {
    if |cands| == 0 then map[]
    else
      var init := cands[..|cands| - 1];
      var id := cands[|cands| - 1];
      assert cands == init + [id];
      var rest := Collect(init, nodes, keep, mk);
      if id in nodes && keep(nodes[id]) then rest[id := mk(nodes[id])] else rest
  }

  /** A row of the raw `bc_nodes` dump; a missing (NaN) count is `None`. */
  datatype RawNode = RawNode(segid: SegId, nrPre: Option<nat>, nrPost: Option<nat>)

  /** `fillna(0)` on the count columns. */
  function FillCounts(r: RawNode): NodeRow {
    NodeRow(r.nrPre.GetOr(0), r.nrPost.GetOr(0))
  }

  predicate DistinctIds(rows: seq<RawNode>) {
    forall i, j | 0 <= i < j < |rows| :: rows[i].segid != rows[j].segid
  }

  /** `set_index('segment_id')`, `fillna(0)` and the uniqueness assertion
      applied to a downloaded node dump. */
  function NodeTableFromDump(rows: seq<RawNode>): (r: Result<NodeTable>)
    ensures r.Ok? <==> DistinctIds(rows)
    ensures r.Err? ==> r.error == AssertionError
    ensures r.Ok? ==> r.value.Keys == set i | 0 <= i < |rows| :: rows[i].segid
    ensures r.Ok? ==> forall i | 0 <= i < |rows| :: r.value[rows[i].segid] == FillCounts(rows[i])
  {
    if |rows| == 0 then Ok(map[])
    else
      var init := rows[..|rows| - 1];
      var last := rows[|rows| - 1];
      DistinctSnoc(rows);
      match NodeTableFromDump(init)
      case Err(e) => Err(e)
      case Ok(m) =>
        if last.segid in m then
          assert exists i | 0 <= i < |init| :: init[i].segid == last.segid;
          Err(AssertionError)
        else
          SegidsSnoc(rows);
          assert forall i | 0 <= i < |init| :: rows[i] == init[i];
          Ok(m[last.segid := FillCounts(last)])
  }

  lemma DistinctSnoc(rows: seq<RawNode>)
    requires |rows| > 0
    ensures DistinctIds(rows) <==>
      && DistinctIds(rows[..|rows| - 1])
      && forall i | 0 <= i < |rows| - 1 :: rows[i].segid != rows[|rows| - 1].segid
  {
    var init := rows[..|rows| - 1];
    assert forall i | 0 <= i < |init| :: init[i] == rows[i];
  }

  /** The segment ids of a list of rows. */
  function Segids(rows: seq<RawNode>): set<int> {
    set i | 0 <= i < |rows| :: rows[i].segid
  }

  lemma SegidsSnoc(rows: seq<RawNode>)
    requires |rows| > 0
    ensures Segids(rows) == Segids(rows[..|rows| - 1]) + {rows[|rows| - 1].segid}
  {
    var init := rows[..|rows| - 1];
    assert forall i | 0 <= i < |init| :: init[i] == rows[i];
    var a := set i | 0 <= i < |rows| :: rows[i].segid;
    var b := set i | 0 <= i < |init| :: init[i].segid;
    forall x | x in a ensures x in b + {rows[|rows| - 1].segid} {
      var i :| 0 <= i < |rows| && rows[i].segid == x;
      if i < |init| { assert init[i].segid == x; }
    }
  }
}

=== FILE: text.dfy ===
/** Character classes, decimal numbers and whitespace splitting as Python
    defines them for `str`: `\d`/`int(...)` on ASCII digits, `\s`/`str.isspace()`,
    `str.split()` with no separator, and `str.join`.
 */
module Text {
  import opened Wrappers

  predicate IsDigit(c: char) { '0' <= c <= '9' }

  /** `str.isspace()`; `\s` in a `str` regular expression and `str.split()`
      use the same class. */
  predicate IsSpace(c: char) {
    var n := c as int;
    || 9 <= n <= 13 || 28 <= n <= 32 || n == 0x85 || n == 0xA0 || n == 0x1680
    || 0x2000 <= n <= 0x200A || n == 0x2028 || n == 0x2029 || n == 0x202F
    || n == 0x205F || n == 0x3000
  }

  predicate NotSpace(c: char) { !IsSpace(c) }

  /** `.` in a Python regular expression: anything but a line feed. */
  predicate NotNewline(c: char) { c != '\n' }

  predicate AllDigits(s: string) { forall i | 0 <= i < |s| :: IsDigit(s[i]) }

  predicate NoDigits(s: string) { forall i | 0 <= i < |s| :: !IsDigit(s[i]) }

  predicate AllSpaces(s: string) { forall i | 0 <= i < |s| :: IsSpace(s[i]) }

  predicate NoNewline(s: string) { forall i | 0 <= i < |s| :: s[i] != '\n' }

  /** A piece `str.split()` can return: non-empty and free of whitespace. */
  predicate IsToken(s: string) { |s| > 0 && forall i | 0 <= i < |s| :: !IsSpace(s[i]) }

  predicate StartsWith(s: string, prefix: string) {
    |prefix| <= |s| && s[..|prefix|] == prefix
  }

  function DigitChar(d: nat): (c: char)
    requires d < 10
    ensures IsDigit(c)
  {
    ('0' as int + d) as char
  }

  function DigitValue(c: char): (d: nat)
    requires IsDigit(c)
    ensures d < 10 && DigitChar(d) == c
  {
    c as int - '0' as int
  }

  /** `str(n)` for a non-negative integer: shortest decimal, no sign. */
  function NatToString(n: nat): (s: string)
    ensures |s| > 0 && AllDigits(s)
    ensures s[0] == '0' ==> n == 0 && |s| == 1
  {
    if n < 10 then [DigitChar(n)] else NatToString(n / 10) + [DigitChar(n % 10)]
  }

  /** `int(s)` for a run of ASCII digits (leading zeros allowed, as in Python). */
  function DigitsValue(s: string): nat
    requires AllDigits(s)
  {
    if |s| == 0 then 0 else 10 * DigitsValue(s[..|s| - 1]) + DigitValue(s[|s| - 1])
  }

  /** A leading zero does not change the value of a decimal. */
  lemma {:induction false} LeadingZero(d: string)
    requires AllDigits(d)
    ensures AllDigits("0" + d) && DigitsValue("0" + d) == DigitsValue(d)
    decreases |d|
  {
    var z := "0" + d;
    if |d| == 0 {
      assert z == "0" && z[..0] == "";
    } else {
      assert z[..|z| - 1] == "0" + d[..|d| - 1];
      LeadingZero(d[..|d| - 1]);
    }
  }

  lemma {:induction false} NatToStringRoundTrip(n: nat)
    ensures DigitsValue(NatToString(n)) == n
  {
    if n >= 10 {
      var s := NatToString(n);
      assert s[..|s| - 1] == NatToString(n / 10);
      NatToStringRoundTrip(n / 10);
    }
  }

  lemma NatToStringInjective(a: nat, b: nat)
    requires NatToString(a) == NatToString(b)
    ensures a == b
  {
    NatToStringRoundTrip(a);
    NatToStringRoundTrip(b);
  }

  /** Digits after an optional sign: what `int(...)` accepts once the
      surrounding whitespace is stripped. */
  predicate IntLiteral(t: string) {
    || (|t| > 0 && AllDigits(t))
    || (|t| > 1 && (t[0] == '+' || t[0] == '-') && AllDigits(t[1..]))
  }

  /** The value of an integer literal; only a leading minus negates. */
  function LiteralValue(t: string): int
    requires IntLiteral(t)
  {
    if AllDigits(t) then DigitsValue(t)
    else if t[0] == '-' then -(DigitsValue(t[1..]) as int)
    else DigitsValue(t[1..])
  }

  /** Length of the longest prefix of `s` whose characters all satisfy `p`:
      what a greedy `p+` or `p*` consumes. */
  function SpanLen(s: string, p: char -> bool): (k: nat)
    ensures k <= |s|
    ensures forall i | 0 <= i < k :: p(s[i])
    ensures k < |s| ==> !p(s[k])
  {
    if |s| == 0 || !p(s[0]) then 0 else 1 + SpanLen(s[1..], p)
  }

  /** The span is the only length with both properties. */
  lemma SpanLenIs(s: string, p: char -> bool, k: nat)
    requires k <= |s|
    requires forall i | 0 <= i < k :: p(s[i])
    requires k < |s| ==> !p(s[k])
    ensures SpanLen(s, p) == k
  {
  }

  /** Number of whitespace characters that end `s`. */
  function TrailLen(s: string): (k: nat)
    ensures k <= |s|
    ensures forall i | |s| - k <= i < |s| :: IsSpace(s[i])
    ensures k < |s| ==> !IsSpace(s[|s| - k - 1])
    decreases |s|
  {
    if |s| == 0 || !IsSpace(s[|s| - 1]) then 0 else 1 + TrailLen(s[..|s| - 1])
  }

  /** The trailing run is the only length with both properties. */
  lemma TrailLenIs(s: string, k: nat)
    requires k <= |s|
    requires forall i | |s| - k <= i < |s| :: IsSpace(s[i])
    requires k < |s| ==> !IsSpace(s[|s| - k - 1])
    ensures TrailLen(s) == k
  {
  }

  /** `s.strip()`: `s` without its leading and trailing whitespace. */
  function Strip(s: string): (r: string)
    ensures |r| <= |s|
    ensures |r| == 0 || (!IsSpace(r[0]) && !IsSpace(r[|r| - 1]))
    ensures exists i, j | 0 <= i <= j <= |s| :: r == s[i..j] && AllSpaces(s[..i]) && AllSpaces(s[j..])
  {
    var i := StripStart(s);
    var j := StripEnd(s);
    assert |s[i..j]| > 0 ==> s[i..j][0] == s[i] && s[i..j][j - i - 1] == s[j - 1];
    s[i..j]
  }

  /** Where the text `strip` keeps begins. */
  function StripStart(s: string): (i: nat)
    ensures i <= |s| && AllSpaces(s[..i])
    ensures i < |s| ==> !IsSpace(s[i])
  {
    var i := SpanLen(s, IsSpace);
    assert forall k | 0 <= k < i :: s[..i][k] == s[k];
    i
  }

  /** Where the text `strip` keeps ends. */
  function StripEnd(s: string): (j: nat)
    ensures StripStart(s) <= j <= |s| && AllSpaces(s[j..])
    ensures j > StripStart(s) ==> !IsSpace(s[j - 1])
  {
    var i := StripStart(s);
    var t := s[i..];
    var k := TrailLen(t);
    var j := i + |t| - k;
    assert forall m | 0 <= m < |s| - j :: s[j..][m] == t[|t| - k + m];
    assert j > i ==> s[j - 1] == t[|t| - k - 1];
    j
  }

  /** Whitespace around a text that neither starts nor ends with
      whitespace is exactly what `strip` removes. */
  lemma StripOf(w1: string, t: string, w2: string)
    requires AllSpaces(w1) && AllSpaces(w2)
    requires |t| > 0 && !IsSpace(t[0]) && !IsSpace(t[|t| - 1])
    ensures Strip(w1 + (t + w2)) == t
  {
    var s := w1 + (t + w2);
    SpanLenIs(s, IsSpace, |w1|);
    assert s[|w1|..] == t + w2;
    var u := t + w2;
    TrailLenIs(u, |w2|);
    assert u[..|u| - |w2|] == t;
  }

  /** `int(s)` for a `str` in base 10: surrounding whitespace is stripped,
      then an optional sign and at least one digit must remain; anything
      else raises ValueError. */
  function PyInt(s: string): (r: Result<int>)
    ensures r.Ok? <==> IntLiteral(Strip(s))
    ensures r.Ok? ==> r.value == LiteralValue(Strip(s))
    ensures r.Err? ==> r.error == ValueError
  {
    var t := Strip(s);
    if IntLiteral(t) then Ok(LiteralValue(t)) else Err(ValueError)
  }

  /** A text without surrounding whitespace or a sign that holds a
      non-digit is no integer literal. */
  lemma NotLiteral(t: string, i: nat)
    requires i < |t| && !IsDigit(t[i])
    requires !IsSpace(t[0]) && !IsSpace(t[|t| - 1]) && t[0] != '+' && t[0] != '-'
    ensures !IntLiteral(Strip(t))
  {
    StripKeeps(t);
    assert !AllDigits(t);
  }

  /** A text that neither starts nor ends with whitespace is its own
      strip. */
  lemma StripKeeps(t: string)
    requires |t| > 0 && !IsSpace(t[0]) && !IsSpace(t[|t| - 1])
    ensures Strip(t) == t
  {
    StripOf("", t, "");
    assert "" + (t + "") == t;
  }

  lemma AppendAssoc(a: string, b: string, c: string)
    ensures (a + b) + c == a + (b + c)
  {
  }

  /** A decimal with an optional sign, padded with whitespace on both
      sides, reads as its signed value. */
  lemma PyIntOf(w1: string, sign: string, d: string, w2: string)
    requires AllSpaces(w1) && AllSpaces(w2)
    requires sign == "" || sign == "+" || sign == "-"
    requires |d| > 0 && AllDigits(d)
    ensures PyInt(w1 + (sign + (d + w2)))
      == Ok(if sign == "-" then -(DigitsValue(d) as int) else DigitsValue(d))
  {
    if sign == "" {
      assert sign + (d + w2) == d + w2;
      PyIntUnsigned(w1, d, w2);
    } else {
      assert sign == [sign[0]];
      PyIntSigned(w1, sign[0], d, w2);
    }
  }

  /** `int(str(n)) == n`. */
  lemma PyIntOfNat(n: nat)
    ensures PyInt(NatToString(n)) == Ok(n)
  {
    var d := NatToString(n);
    PyIntUnsigned("", d, "");
    assert "" + (d + "") == d;
    NatToStringRoundTrip(n);
  }

  lemma PyIntUnsigned(w1: string, d: string, w2: string)
    requires AllSpaces(w1) && AllSpaces(w2)
    requires |d| > 0 && AllDigits(d)
    ensures PyInt(w1 + (d + w2)) == Ok(DigitsValue(d) as int)
  {
    assert IsDigit(d[0]) && IsDigit(d[|d| - 1]);
    StripOf(w1, d, w2);
  }

  lemma PyIntSigned(w1: string, c: char, d: string, w2: string)
    requires AllSpaces(w1) && AllSpaces(w2)
    requires c == '+' || c == '-'
    requires |d| > 0 && AllDigits(d)
    ensures PyInt(w1 + ([c] + (d + w2)))
      == Ok(if c == '-' then -(DigitsValue(d) as int) else DigitsValue(d))
  {
    SignedLiteral(c, d);
    AppendAssoc([c], d, w2);
    StripOf(w1, [c] + d, w2);
  }

  lemma SignedLiteral(c: char, d: string)
    requires c == '+' || c == '-'
    requires |d| > 0 && AllDigits(d)
    ensures var t := [c] + d;
      && |t| > 0 && !IsSpace(t[0]) && !IsSpace(t[|t| - 1])
      && IntLiteral(t) && LiteralValue(t) == if c == '-' then -(DigitsValue(d) as int) else DigitsValue(d)
  {
    var t := [c] + d;
    assert t[1..] == d;
    assert !IsDigit(t[0]);
    assert t[|t| - 1] == d[|d| - 1];
  }

  /** `s.split()`: the maximal runs of non-whitespace characters, in order. */
  function Split(s: string): (toks: seq<string>)
    ensures forall i | 0 <= i < |toks| :: IsToken(toks[i])
    decreases |s|
  {
    if |s| == 0 then []
    else if IsSpace(s[0]) then Split(s[1..])
    else
      var k := SpanLen(s, NotSpace);
      [s[..k]] + Split(s[k..])
  }

  /** `sep.join(parts)`. */
  function Join(sep: string, parts: seq<string>): string
  {
    if |parts| == 0 then ""
    else if |parts| == 1 then parts[0]
    else parts[0] + sep + Join(sep, parts[1..])
  }

  lemma SplitAfterToken(t: string, rest: string)
    requires IsToken(t)
    requires |rest| == 0 || IsSpace(rest[0])
    ensures Split(t + rest) == [t] + Split(rest)
  {
    var s := t + rest;
    SpanLenIs(s, NotSpace, |t|);
    assert s[..|t|] == t;
    assert s[|t|..] == rest;
  }

  /** Joining tokens with single spaces and splitting again gives the tokens back. */
  lemma {:induction false} SplitJoin(toks: seq<string>)
    requires forall i | 0 <= i < |toks| :: IsToken(toks[i])
    ensures Split(Join(" ", toks)) == toks
  {
    if |toks| == 1 {
      SplitAfterToken(toks[0], "");
      assert toks[0] + "" == toks[0];
    } else if |toks| > 1 {
      var rest := Join(" ", toks[1..]);
      SplitAfterSpace(toks[0], rest);
      SplitJoin(toks[1..]);
      assert [toks[0]] + toks[1..] == toks;
    }
  }

  lemma SplitAfterSpace(t: string, rest: string)
    requires IsToken(t)
    ensures Split(t + " " + rest) == [t] + Split(rest)
  {
    SplitAfterToken(t, " " + rest);
    assert t + " " + rest == t + (" " + rest);
    assert (" " + rest)[1..] == rest;
  }

  /** The maximal runs of ASCII digits of `s`, read as numbers, in order. */
  function Numbers(s: string): seq<nat>
    decreases |s|
  {
    if |s| == 0 then []
    else if !IsDigit(s[0]) then Numbers(s[1..])
    else
      var k := SpanLen(s, IsDigit);
      [DigitsValue(s[..k])] + Numbers(s[k..])
  }

  lemma {:induction false} NumbersSkipsText(p: string, q: string)
    requires NoDigits(p)
    ensures Numbers(p + q) == Numbers(q)
    decreases |p|
  {
    if |p| > 0 {
      assert (p + q)[1..] == p[1..] + q;
      NumbersSkipsText(p[1..], q);
    } else {
      assert p + q == q;
    }
  }

  /** A number printed with `str` between digit-free text is read back exactly. */
  lemma NumbersOfRendered(p: string, n: nat, q: string)
    requires NoDigits(p)
    requires |q| == 0 || !IsDigit(q[0])
    ensures Numbers(p + NatToString(n) + q) == [n] + Numbers(q)
  {
    var d := NatToString(n);
    NumbersSkipsText(p, d + q);
    assert p + d + q == p + (d + q);
    NumbersOfLeading(d, q);
    NatToStringRoundTrip(n);
  }

  /** A run of digits followed by a non-digit is read as one number. */
  lemma NumbersOfLeading(d: string, q: string)
    requires |d| > 0 && AllDigits(d)
    requires |q| == 0 || !IsDigit(q[0])
    ensures Numbers(d + q) == [DigitsValue(d)] + Numbers(q)
  {
    var s := d + q;
    SpanLenIs(s, IsDigit, |d|);
    assert s[..|d|] == d;
    assert s[|d|..] == q;
  }

  lemma NumbersOfText(p: string)
    requires NoDigits(p)
    ensures Numbers(p) == []
  {
    NumbersSkipsText(p, "");
    assert p + "" == p;
  }
}

=== FILE: wrappers.dfy ===
/** Failure-carrying values shared by every module of the model.

    The Python code signals failure by raising; each exception class it raises
    (or that its library calls raise on the paths modelled) becomes one
    constructor of `Error`, and an operation that can raise returns a `Result`.
 */
module Wrappers {

  datatype Option<+T> = None | Some(value: T) {
    function GetOr(default: T): T {
      match this
      case Some(v) => v
      case None => default
    }
  }

  /** The exceptions the modelled code raises. */
  datatype Error =
    | RuntimeError        // explicit `raise RuntimeError(...)`
    | ValueError          // unknown motor-neuron type, bad `int(...)`, bad `datetime(...)`
    | KeyError            // missing dict key / DataFrame column
    | IndexError          // empty list indexed
    | AssertionError      // failed `assert`
    | NotImplementedError // declared but unimplemented rules
    | FileNotFoundError   // a directory created without `parents=True` under a missing parent
    | OverflowError       // an integer sqlite3 cannot bind

  datatype Result<+T> = Ok(value: T) | Err(error: Error) {
    function ToOption(): Option<T> {
      match this
      case Ok(v) => Some(v)
      case Err(_) => None
    }
  }
}

=== FILE: ysp_dataset.dfy ===
/** The `build_*` methods of the current `FANCDataset`: the same selections
    as the rule classes, computed on the dataset itself. Only the
    multiple-soma table is written to the priority-table cache.
 */
module YspDataset {
  import opened Wrappers
  import opened Tables
  import Rules
  import Snapshot

  /** One `build_*` call with its arguments. */
  datatype Build =
    | BuildOrphanedSoma(synapseCountThr: int)
    | BuildMultipleSoma
    | BuildProblematicEfferent(synapseCountThr: int, mnType: string)
    | BuildProblematicAfferent(synapseCountThr: int)
    | BuildProblematicDn(synapseCountThr: int)
    | BuildProblematicAn(synapseCountThr: int)
    | BuildUnbalancedInterneuron(minTotalSynapses: int, low: Frac, high: Frac,
                                 requireSoma: bool)

  /** The rule class each method duplicates. */
  function RuleOf(b: Build): Rules.Rule {
    match b
    case BuildOrphanedSoma(thr) => Rules.OrphanedSoma(thr)
    case BuildMultipleSoma => Rules.MultipleSomas
    case BuildProblematicEfferent(thr, m) => Rules.ProblematicEfferent(thr, m)
    case BuildProblematicAfferent(thr) => Rules.ProblematicAfferent(thr, "")
    case BuildProblematicDn(thr) => Rules.ProblematicDescending(thr)
    case BuildProblematicAn(thr) => Rules.ProblematicAscending(thr)
    case BuildUnbalancedInterneuron(m, l, h, s) => Rules.UnbalancedInterneuron(m, l, h, s)
  }

  const MultipleSomaKey: string := "multiple_soma"

  function OrphanedSoma(t: TableSet, thr: int): Table {
    map id | id in t.nodes && id in Ids(t.soma) && Total(t.nodes[id]) < thr ::
      OrphanRow(t.nodes[id].nrPre, t.nodes[id].nrPost, Total(t.nodes[id]))
  }

  function MultipleSoma(t: TableSet): Table {
    map id | id in Ids(t.soma) && Count(t.soma, id) > 1 :: SomaCountRow(Count(t.soma, id))
  }

  /** `mn_segids` ∩ node ids, filtered on `nr_post < thr`. */
  function LowInput(t: TableSet, cands: set<SegId>, thr: int): Table {
    map id | id in t.nodes && id in cands && t.nodes[id].nrPost < thr :: InputRow(t.nodes[id].nrPost)
  }

  function ProblematicEfferent(t: TableSet, thr: int, mnType: string): Result<Table> {
    if mnType == "all" then Ok(LowInput(t, Ids(t.nerveBundle) * Ids(t.soma), thr))
    else if Rules.MnTypeOf(mnType).Some? then
      Ok(LowInput(t, Ids(Rules.MnTable(t, Rules.MnTypeOf(mnType).value)), thr))
    else Err(ValueError)
  }

  function UnbalancedInterneuron(t: TableSet, minTotal: int, low: Frac, high: Frac,
                                 requireSoma: bool): Table {
    var inter := t.nodes.Keys - Ids(t.nerveBundle + t.neckConnective);
    var inter := if requireSoma then inter * Ids(t.soma) else inter;
    map id | id in inter && Total(t.nodes[id]) >= minTotal && Rules.Unbalanced(t.nodes[id], low, high) ::
      BalanceRow(t.nodes[id].nrPre, t.nodes[id].nrPost, Total(t.nodes[id]))
  }

  /** Run one `build_*` method: the dataset afterwards (with its cache) and
      the returned table or the exception raised. */
  function Run(ds: Snapshot.Dataset, b: Build): (r: (Snapshot.Dataset, Result<Table>))
    ensures r.0.timestamp == ds.timestamp && r.0.dir == ds.dir && r.0.tables == ds.tables
    ensures b.BuildMultipleSoma? ==>
      r.1.Ok? && r.0.cache == ds.cache[MultipleSomaKey := Keyed(r.1.value)]
    ensures !b.BuildMultipleSoma? ==> r.0.cache == ds.cache
    ensures r.1 == Err(NotImplementedError) <==> b.BuildProblematicAfferent? || b.BuildProblematicDn?
    ensures r.1.Err? ==> r.1.error == NotImplementedError || r.1.error == ValueError
  {
    var t := ds.tables;
    match b
    case BuildOrphanedSoma(thr) => (ds, Ok(OrphanedSoma(t, thr)))
    case BuildMultipleSoma =>
      var res := MultipleSoma(t);
      (ds.(cache := ds.cache[MultipleSomaKey := Keyed(res)]), Ok(res))
    case BuildProblematicEfferent(thr, m) => (ds, ProblematicEfferent(t, thr, m))
    case BuildProblematicAfferent(_) => (ds, Err(NotImplementedError))
    case BuildProblematicDn(_) => (ds, Err(NotImplementedError))
    case BuildProblematicAn(thr) =>
      (ds, Ok(LowInput(t, Ids(t.neckConnective) * Ids(t.soma), thr)))
    case BuildUnbalancedInterneuron(m, l, h, s) => (ds, Ok(UnbalancedInterneuron(t, m, l, h, s)))
  }

  /** Each method returns exactly what the rule class of the same name
      selects (or raises what it raises). */
  lemma RunAgreesWithRule(ds: Snapshot.Dataset, b: Build)
    ensures Run(ds, b).1 == Rules.GetTable(RuleOf(b), ds.tables)
  {
    var t := ds.tables;
    match b
    case BuildOrphanedSoma(thr) => OrphanedSomaAgrees(t, thr);
    case BuildMultipleSoma => MultipleSomaAgrees(t);
    case BuildProblematicEfferent(thr, m) => EfferentAgrees(t, thr, m);
    case BuildProblematicAfferent(_) =>
    case BuildProblematicDn(_) =>
    case BuildProblematicAn(thr) => AscendingAgrees(t, thr);
    case BuildUnbalancedInterneuron(m, l, h, s) => UnbalancedAgrees(t, m, l, h, s);
  }

  lemma OrphanedSomaAgrees(t: TableSet, thr: int)
    ensures OrphanedSoma(t, thr) == Rules.OrphanedSomaTable(t, thr)
  {
    assert OrphanedSoma(t, thr).Keys == Rules.OrphanedSomaTable(t, thr).Keys;
  }

  lemma MultipleSomaAgrees(t: TableSet)
    ensures MultipleSoma(t) == Rules.MultipleSomasTable(t)
  {
    assert MultipleSoma(t).Keys == Rules.MultipleSomasTable(t).Keys;
  }

  lemma EfferentAgrees(t: TableSet, thr: int, m: string)
    ensures ProblematicEfferent(t, thr, m) == Rules.ProblematicEfferentTable(t, thr, m)
  {
    if m == "all" {
      EfferentAllAgrees(t, thr);
    } else if Rules.MnTypeOf(m).Some? {
      EfferentTypeAgrees(t, thr, m);
    }
  }

  lemma EfferentAllAgrees(t: TableSet, thr: int)
    ensures ProblematicEfferent(t, thr, "all") == Rules.ProblematicEfferentTable(t, thr, "all")
  {
    var mine := LowInput(t, Ids(t.nerveBundle) * Ids(t.soma), thr);
    var theirs := Rules.ProblematicEfferentTable(t, thr, "all").value;
    assert mine.Keys == theirs.Keys;
    assert mine == theirs;
  }

  lemma EfferentTypeAgrees(t: TableSet, thr: int, m: string)
    requires m != "all" && Rules.MnTypeOf(m).Some?
    ensures ProblematicEfferent(t, thr, m) == Rules.ProblematicEfferentTable(t, thr, m)
  {
    var mine := LowInput(t, Ids(Rules.MnTable(t, Rules.MnTypeOf(m).value)), thr);
    var theirs := Rules.ProblematicEfferentTable(t, thr, m).value;
    assert mine.Keys == theirs.Keys;
    assert mine == theirs;
  }

  lemma AscendingAgrees(t: TableSet, thr: int)
    ensures LowInput(t, Ids(t.neckConnective) * Ids(t.soma), thr)
      == Rules.ProblematicAscendingTable(t, thr)
  {
    assert LowInput(t, Ids(t.neckConnective) * Ids(t.soma), thr).Keys
      == Rules.ProblematicAscendingTable(t, thr).Keys;
  }

  lemma UnbalancedAgrees(t: TableSet, m: int, l: Frac, h: Frac, s: bool)
    ensures UnbalancedInterneuron(t, m, l, h, s) == Rules.UnbalancedInterneuronTable(t, m, l, h, s)
  {
    var mine := UnbalancedInterneuron(t, m, l, h, s);
    var theirs := Rules.UnbalancedInterneuronTable(t, m, l, h, s);
    assert forall id :: (id in Ids(t.nerveBundle + t.neckConnective)
      <==> id in t.nerveBundle || id in t.neckConnective);
    assert mine.Keys == theirs.Keys;
  }
}
